=== FILE: README.md ===
# A Dafny model of FastR's sampler and neighbouring helpers

This project models, in Dafny, a slice of FastR, the GraalVM implementation of
the R language. The centre of it is the `sample(x, size, replace, prob)`
builtin. It checks its arguments, normalises an optional probability vector,
and runs one of four samplers:

- independent draws;
- a swap-remove permutation;
- a cumulative-sum scan over heap-reordered weights;
- draw-and-shift removal over those weights.

Around it sit smaller pure pieces of the same code base:

- the field-width and padding code of the character-vector printer;
- the three-valued fold behind `any` and `all`;
- open-mode lookup, lazy opening and the line cursor of text connections;
- resizing and element updates of raw vectors;
- the byte stream the launcher's console handler builds over `readLine`;
- `list2env`;
- the launcher's argument helpers and comment-line test;
- the `RCaller` record of a function's caller.

Every operation is a pure function over immutable data. Random draws are an
input: a sequence of reals in `[0, 1)`, consumed from the front, and every
sampler returns the draws it left unused. Where the source works on arrays
(the samplers, the prefix sums, the scans, the shift-down removal, the
field-width loop, the `any`/`all` loops, the `--interactive` insertion and the
raw-vector resize), a method does the same work on arrays or with the same
loop, and its contract equates it with the functional definition.

Modules and files:

| module | file | what it holds |
|---|---|---|
| `Results`, `Logicals`, `JavaInts`, `Bytes`, `Draws`, `Seqs` | `results.dfy`, `logicals.dfy`, `java_ints.dfy`, `bytes.dfy`, `draws.dfy`, `seqs.dfy` | option and result types, R's three-valued logical, Java's truncating division, signed bytes, one uniform pick, and sequence facts |
| `SampleArgs` | `sample_args.dfy` | the guard predicates and the order in which they select an error |
| `SampleProbability` | `sample_probability.dfy` | `fixupProbability` and the heavy-entry count |
| `SampleHeap` | `sample_heap.dfy` | `exchange`, `minHeapify`, `buildheap` and `heapSort` as written |
| `UnweightedSampler` | `sample_unweighted.dfy` | `doSample` without a probability vector |
| `WeightedSampler` | `sample_weighted.dfy` | `probSampleReplace` and `probSampleWithoutReplace` |
| `SampleBuiltin` | `sample.dfy` | the builtin: the checks, then the sampler the arguments select |
| `StringVectorPrinter` | `string_vector_printer.dfy` | `formatString` and both `encode` overloads |
| `Quantifier` | `quantifier.dfy` | `op`, `opCachedLength` and `processArgument` |
| `Connections` | `connections.dfy` | `OpenMode`, `BaseRConnection`, the file, gzip and text connections, `readLines` |
| `RawVector` | `raw_vector.dfy` | `RRawVector`'s resize, removal, copy and update |
| `ConsoleInput` | `console_input.dfy` | the stream of `ConsoleHandler.createInputStream` |
| `ListToEnv` | `list_to_env.dfy` | `list2env` |
| `RCommand` | `rcommand.dfy` | `prependCommand`, `unescapeSpace`, the `--interactive` insertion and the skip test |
| `Callers` | `rcaller.dfy` | `RCaller` |

## The heap is not a sort

The reordering in `heapSort` is modelled as written. Three details stop it
from being a heapsort:

- the left child of node `i` is `2*i`, so node 0 is its own left child;
- the right child is compared with the parent, not with the smaller child;
- the root of a min-heap is swapped to the end.

The model therefore promises only what the code guarantees: keys and values
move together, so the multiset of `(weight, index)` pairs is kept and the
indices stay a permutation of `1..n`. `SampleHeap.HeapSortIsNotASort` shows
keys `[1, 4, 2, 3]` coming out as `[4, 2, 3, 1]`.

`heapSort` reorders the weights `[0.2, 0.3, 0.5]` to the pairs
`(0.5, 3), (0.3, 2), (0.2, 1)`. The cumulative sums are then
`[0.5, 0.8, 1.0]`, so the single draw 0.5 selects index 3, not the 2 an
ascending sort would give. `WeightedSampler.ReorderedExample` and
`WeightedSampler.WithReplacementExample` prove both steps.

## Model

| member | source | states |
|---|---|---|
| SampleArgs.CheckNullProbAsWritten | com.oracle.truffle.r.nodes.builtin/src/com/oracle/truffle/r/nodes/builtin/base/Sample.java:97-116 | As written for a NULL `prob`: the sample is allowed exactly when `0 <= size`, `0 <= x <= 4.5e15`, `x >= 1` if `size > 0`, and `size <= x` unless replacing. A sample larger than the population is reported as INCORRECT_NUM_PROB exactly when the two earlier guards pass. |
| SampleArgs.CheckNullProb | com.oracle.truffle.r.nodes.builtin/src/com/oracle/truffle/r/nodes/builtin/base/Sample.java:171-184 | Corrected NULL-`prob` checks: the same acceptance set. Each error is raised exactly when its guard holds and no earlier guard did (first argument, then size, then population). The population case is labelled SAMPLE_LARGER_THAN_POPULATION. |
| SampleArgs.NullProbCheckOnlyRelabels | com.oracle.truffle.r.nodes.builtin/src/com/oracle/truffle/r/nodes/builtin/base/Sample.java:109-113 | The as-written and corrected checks agree on every input except for the label of the sample-larger-than-population error. |
| SampleArgs.NullProbMislabelExample | com.oracle.truffle.r.nodes.builtin/src/com/oracle/truffle/r/nodes/builtin/base/Sample.java:109-113 | `sample(1, 2)` without replacement: as written it is blamed on a probability vector the call does not have. The corrected check and the vector form both report SAMPLE_LARGER_THAN_POPULATION. |
| SampleArgs.CheckWithProb | com.oracle.truffle.r.nodes.builtin/src/com/oracle/truffle/r/nodes/builtin/base/Sample.java:45-68 | With a probability vector, the guards in declaration order. No error exactly when `size >= 0`, `x >= 0`, `x >= 1` if `size > 0`, `length(prob) == x`, and `size <= x` unless replacing. Each error is stated as an iff: INVALID_FIRST_ARGUMENT exactly when its guard holds; INCORRECT_NUM_PROB when that guard fails and the length differs; SAMPLE_LARGER_THAN_POPULATION when both fail and the sample is larger without replacement; INVALID_ARGUMENT when all three fail and the size is NA or negative. |
| SampleProbability.FirstEntryError | com.oracle.truffle.r.nodes.builtin/src/com/oracle/truffle/r/nodes/builtin/base/Sample.java:151-157 | The entry scan raises nothing exactly when every entry is finite and non-negative. Otherwise it raises NA_IN_PROB_VECTOR or NEGATIVE_PROBABILITY. |
| SampleProbability.FirstEntryErrorIsFirstBadPosition | com.oracle.truffle.r.nodes.builtin/src/com/oracle/truffle/r/nodes/builtin/base/Sample.java:151-157 | The error raised is decided by the first bad position: NA if that entry is non-finite, otherwise negative. |
| SampleProbability.FixupProbability | com.oracle.truffle.r.nodes.builtin/src/com/oracle/truffle/r/nodes/builtin/base/Sample.java:147-169 | Succeeds exactly when all entries are finite and non-negative, some entry is positive, and `size` does not exceed the positive count unless replacing. Otherwise it raises the first entry error, or TOO_FEW_POSITIVE_PROBABILITY. On success the length is kept, every value is in `[0, 1]`, and an entry is 0 exactly when it was 0. |
| SampleProbability.PositiveSumFacts | com.oracle.truffle.r.nodes.builtin/src/com/oracle/truffle/r/nodes/builtin/base/Sample.java:158-161 | For non-negative entries the sum of the positive entries is the plain sum. It is positive exactly when some entry is positive, and it bounds every entry. |
| SampleProbability.FixupProbabilitySumsToOne | com.oracle.truffle.r.nodes.builtin/src/com/oracle/truffle/r/nodes/builtin/base/Sample.java:158-168 | After normalisation the probabilities sum to exactly 1. |
| SampleProbability.HeavyCount | com.oracle.truffle.r.nodes.builtin/src/com/oracle/truffle/r/nodes/builtin/base/Sample.java:76-81 | The count of entries with `x * p > 0.1` is at most the length. It is 0 exactly when no entry is heavy, and the length exactly when all are. |
| SampleProbability.HeavyCountCountsPositions | com.oracle.truffle.r.nodes.builtin/src/com/oracle/truffle/r/nodes/builtin/base/Sample.java:76-81 | The count equals the number of positions whose entry has `x * p > 0.1`. |
| SampleProbability.CountHeavy | com.oracle.truffle.r.nodes.builtin/src/com/oracle/truffle/r/nodes/builtin/base/Sample.java:76-81 | The `for` loop over `probArray` with `nc++` computes the heavy count. |
| Draws.Pick | com.oracle.truffle.r.nodes.builtin/src/com/oracle/truffle/r/nodes/builtin/base/Sample.java:133 | `(int) (n * u)` for `u` in `[0, 1)` is the index `j < n` with `j <= n*u < j+1`. |
| UnweightedSampler.DrawOne | com.oracle.truffle.r.nodes.builtin/src/com/oracle/truffle/r/nodes/builtin/base/Sample.java:124 | `(int) (x * u + 1)` is `floor(x*u) + 1`, and lies in `[1, x]`. |
| UnweightedSampler.WithReplacement | com.oracle.truffle.r.nodes.builtin/src/com/oracle/truffle/r/nodes/builtin/base/Sample.java:122-126 | One result per draw, each in `[1, x]`. |
| UnweightedSampler.SampleWithReplacement | com.oracle.truffle.r.nodes.builtin/src/com/oracle/truffle/r/nodes/builtin/base/Sample.java:120-126 | The array loop equals the functional sample. Its values lie in `[1, x]`, and the draws after the first `size` are left unused. |
| UnweightedSampler.SwapRemoveKeepsOthers | com.oracle.truffle.r.nodes.builtin/src/com/oracle/truffle/r/nodes/builtin/base/Sample.java:133-135 | Moving the last active value into the chosen slot keeps the active values distinct. The active values become exactly the old ones minus the chosen one. |
| UnweightedSampler.WithoutReplacementDistinct | com.oracle.truffle.r.nodes.builtin/src/com/oracle/truffle/r/nodes/builtin/base/Sample.java:132-136 | Swap-remove sampling yields pairwise distinct results, each one more than an initially active value. |
| UnweightedSampler.WithoutReplacementInRange | com.oracle.truffle.r.nodes.builtin/src/com/oracle/truffle/r/nodes/builtin/base/Sample.java:127-137 | Sampling from `0 .. x-1` without replacement yields distinct values in `[1, x]`. |
| UnweightedSampler.SwapRemoveLoop | com.oracle.truffle.r.nodes.builtin/src/com/oracle/truffle/r/nodes/builtin/base/Sample.java:132-136 | The in-place loop over `ix` produces the functional swap-remove sample of the array's initial contents. |
| UnweightedSampler.SampleWithoutReplacement | com.oracle.truffle.r.nodes.builtin/src/com/oracle/truffle/r/nodes/builtin/base/Sample.java:126-137 | `size` distinct values in `[1, x]`, equal to the functional sample over `0 .. x-1`. The draws after the first `size` are left unused. |
| UnweightedSampler.WithoutReplacementExample | com.oracle.truffle.r.nodes.builtin/src/com/oracle/truffle/r/nodes/builtin/base/Sample.java:127-136 | Population 5 with draws 0.1, 0.9, 0.5 gives `[1, 4, 2]`. |
| SampleHeap.ExchangeMovesValuesWithKeys | com.oracle.truffle.r.nodes.builtin/src/com/oracle/truffle/r/nodes/builtin/base/Sample.java:292-299 | `exchange` swaps the same two positions in the keys and in the values. It keeps the multiset of pairs and of values. |
| SampleHeap.Lowest | com.oracle.truffle.r.nodes.builtin/src/com/oracle/truffle/r/nodes/builtin/base/Sample.java:277-285 | The index `minHeapify` moves to is the current one, or a later index within the heap whose key is strictly smaller than the current key. |
| SampleHeap.MinHeapifyPermutes | com.oracle.truffle.r.nodes.builtin/src/com/oracle/truffle/r/nodes/builtin/base/Sample.java:276-290 | `minHeapify` keeps the multiset of `(key, value)` pairs and of values. |
| SampleHeap.BuildHeapFromPermutes | com.oracle.truffle.r.nodes.builtin/src/com/oracle/truffle/r/nodes/builtin/base/Sample.java:270-274 | `buildheap` keeps the multiset of pairs and of values. |
| SampleHeap.SortFromPermutes | com.oracle.truffle.r.nodes.builtin/src/com/oracle/truffle/r/nodes/builtin/base/Sample.java:303-306 | The exchange-and-sift rounds keep the multiset of pairs and of values. |
| SampleHeap.HeapSortPermutesPairs | com.oracle.truffle.r.nodes.builtin/src/com/oracle/truffle/r/nodes/builtin/base/Sample.java:301-307 | `heapSort` keeps the length and the multisets of pairs and of values. |
| SampleHeap.HeapSortKeepsIndexPermutation | com.oracle.truffle.r.nodes.builtin/src/com/oracle/truffle/r/nodes/builtin/base/Sample.java:243-248 | Starting from `perm[i] = i + 1`, the reordered values are distinct and lie in `[1, n]`: still a permutation of the indices. |
| SampleHeap.ExampleBuildHeap | com.oracle.truffle.r.nodes.builtin/src/com/oracle/truffle/r/nodes/builtin/base/Sample.java:270-274 | `buildheap` on keys `[1, 4, 2, 3]` gives the concrete array the later rounds start from. |
| SampleHeap.HeapSortIsNotASort | com.oracle.truffle.r.nodes.builtin/src/com/oracle/truffle/r/nodes/builtin/base/Sample.java:276-307 | Keys `[1, 4, 2, 3]` come out as `[4, 2, 3, 1]` with values `[2, 3, 4, 1]`: the order is not sorted. |
| SampleHeap.ExchangeArrays | com.oracle.truffle.r.nodes.builtin/src/com/oracle/truffle/r/nodes/builtin/base/Sample.java:292-299 | `exchange` on the two arrays performs the swap of the pair model: the pairs the arrays hold afterwards are the old pairs with positions `i` and `j` exchanged. |
| SampleHeap.MinHeapifyArrays | com.oracle.truffle.r.nodes.builtin/src/com/oracle/truffle/r/nodes/builtin/base/Sample.java:276-290 | The recursive sift-down on the arrays leaves exactly the pairs of the sequence model `MinHeapify`. |
| SampleHeap.BuildHeapArrays | com.oracle.truffle.r.nodes.builtin/src/com/oracle/truffle/r/nodes/builtin/base/Sample.java:270-274 | The loop from `length >> 1` down to 0 leaves the pairs of `BuildHeap`. |
| SampleHeap.HeapSortArrays | com.oracle.truffle.r.nodes.builtin/src/com/oracle/truffle/r/nodes/builtin/base/Sample.java:301-307 | The in-place `heapSort` leaves the pairs of `HeapSort`, so it inherits the permutation results proved there. |
| WeightedSampler.Cumulative | com.oracle.truffle.r.nodes.builtin/src/com/oracle/truffle/r/nodes/builtin/base/Sample.java:225-227 | Position `i` of the prefix-sum array holds the sum of entries `0..i`. |
| WeightedSampler.PrefixSums | com.oracle.truffle.r.nodes.builtin/src/com/oracle/truffle/r/nodes/builtin/base/Sample.java:225-227 | The in-place loop leaves the cumulative sums of the array's old contents. |
| WeightedSampler.FirstCovering | com.oracle.truffle.r.nodes.builtin/src/com/oracle/truffle/r/nodes/builtin/base/Sample.java:229-235 | The scan picks the first `j` with `u <= cum[j]`, or the last index if none before it qualifies. |
| WeightedSampler.FirstCoveringUnique | com.oracle.truffle.r.nodes.builtin/src/com/oracle/truffle/r/nodes/builtin/base/Sample.java:229-235 | Any index meeting that description is the one the scan picks. |
| WeightedSampler.CoveringScan | com.oracle.truffle.r.nodes.builtin/src/com/oracle/truffle/r/nodes/builtin/base/Sample.java:229-235 | The `for`/`break` loop returns the first covering index. |
| WeightedSampler.Reordered | com.oracle.truffle.r.nodes.builtin/src/com/oracle/truffle/r/nodes/builtin/base/Sample.java:219-224 | The reordered `(weight, index)` pairs have distinct indices in `[1, n]`. |
| WeightedSampler.ReorderArrays | com.oracle.truffle.r.nodes.builtin/src/com/oracle/truffle/r/nodes/builtin/base/Sample.java:218-224 | After `perm[i] = i + 1` and the in-place `heapSort`, the weight and index arrays hold the keys and the values of `Reordered`. |
| WeightedSampler.WithReplacement | com.oracle.truffle.r.nodes.builtin/src/com/oracle/truffle/r/nodes/builtin/base/Sample.java:216-239 | One result per draw, each an index in `[1, n]`. |
| WeightedSampler.ProbSampleReplace | com.oracle.truffle.r.nodes.builtin/src/com/oracle/truffle/r/nodes/builtin/base/Sample.java:216-239 | The array procedure equals the functional sample. It yields `size` values in `[1, n]` and leaves the draws after the first `size` unused. |
| WeightedSampler.MassScan | com.oracle.truffle.r.nodes.builtin/src/com/oracle/truffle/r/nodes/builtin/base/Sample.java:251-259 | The running-mass scan over the active prefix stops at an index no earlier than its start and inside the prefix. |
| WeightedSampler.MassScanIsFirstCovering | com.oracle.truffle.r.nodes.builtin/src/com/oracle/truffle/r/nodes/builtin/base/Sample.java:251-259 | The running-mass scan for target `totalMass * u` picks the first covering index of the active weights' prefix sums. |
| WeightedSampler.MassScanArray | com.oracle.truffle.r.nodes.builtin/src/com/oracle/truffle/r/nodes/builtin/base/Sample.java:252-259 | The array loop computes the running-mass scan over `keys[0..n1]`. |
| WeightedSampler.KeysRemoveAt | com.oracle.truffle.r.nodes.builtin/src/com/oracle/truffle/r/nodes/builtin/base/Sample.java:262-265 | Removing position `j` leaves the weights before `j`, followed by those after `j`, in their order. |
| WeightedSampler.ValuesRemoveAt | com.oracle.truffle.r.nodes.builtin/src/com/oracle/truffle/r/nodes/builtin/base/Sample.java:262-265 | Removing position `j` leaves the indices before `j`, followed by those after `j`, in their order. |
| WeightedSampler.ShiftDown | com.oracle.truffle.r.nodes.builtin/src/com/oracle/truffle/r/nodes/builtin/base/Sample.java:262-265 | The shift loop leaves both arrays' first `n1` slots equal to the old active prefix with position `j` removed. |
| WeightedSampler.StepRemoves | com.oracle.truffle.r.nodes.builtin/src/com/oracle/truffle/r/nodes/builtin/base/Sample.java:251-265 | One round picks an active position, reports its index, and continues with that entry removed and the mass reduced by its weight. |
| WeightedSampler.WithoutReplaceStep | com.oracle.truffle.r.nodes.builtin/src/com/oracle/truffle/r/nodes/builtin/base/Sample.java:251-265 | One round on the arrays matches one round of the functional sample, and the arrays hold the shrunken active list afterwards. |
| WeightedSampler.WithoutReplacementFromDistinct | com.oracle.truffle.r.nodes.builtin/src/com/oracle/truffle/r/nodes/builtin/base/Sample.java:250-266 | Draw-and-remove sampling yields distinct results, all taken from the active indices. |
| WeightedSampler.WithoutReplaceLoop | com.oracle.truffle.r.nodes.builtin/src/com/oracle/truffle/r/nodes/builtin/base/Sample.java:249-266 | The outer loop with total mass 1 equals the functional sample. |
| WeightedSampler.WithoutReplacementInRange | com.oracle.truffle.r.nodes.builtin/src/com/oracle/truffle/r/nodes/builtin/base/Sample.java:241-268 | Weighted sampling without replacement yields distinct values in `[1, n]`. |
| WeightedSampler.ProbSampleWithoutReplace | com.oracle.truffle.r.nodes.builtin/src/com/oracle/truffle/r/nodes/builtin/base/Sample.java:241-268 | `size` distinct values in `[1, n]`, equal to the functional sample. The draws after the first `size` are left unused. |
| WeightedSampler.ReorderedExample | com.oracle.truffle.r.nodes.builtin/src/com/oracle/truffle/r/nodes/builtin/base/Sample.java:301-307 | Weights `[0.2, 0.3, 0.5]` are reordered to `(0.5, 3), (0.3, 2), (0.2, 1)`. |
| WeightedSampler.WithReplacementExample | com.oracle.truffle.r.nodes.builtin/src/com/oracle/truffle/r/nodes/builtin/base/Sample.java:216-239 | Weights `[0.2, 0.3, 0.5]` with the draw 0.5 give `[3]`. |
| SampleBuiltin.ArgumentError | com.oracle.truffle.r.nodes.builtin/src/com/oracle/truffle/r/nodes/builtin/base/Sample.java:45-116 | No error is reported exactly when the arguments are sane: `size, x >= 0`, `x > 0` if `size > 0`, `size <= x` unless replacing, a NULL-`prob` population of at most 4.5e15, and for a `prob` vector: length `x`, the weights normalise, and with replacement at most 200 entries are heavy. A NULL-`prob` population above 4.5e15 is an invalid first argument. With replacement and valid weights, the alias-method error is raised exactly when more than 200 entries are heavy. |
| SampleBuiltin.Sample | com.oracle.truffle.r.nodes.builtin/src/com/oracle/truffle/r/nodes/builtin/base/Sample.java:70-139 | Fails exactly when an argument error exists, and with that error; for a NULL `prob` the population error carries the corrected label (see Findings). Otherwise it returns `size` values in `[1, x]`, distinct when not replacing, and leaves the draws after the first `size` unused. |
| SampleBuiltin.ValidCallSamples | com.oracle.truffle.r.nodes.builtin/src/com/oracle/truffle/r/nodes/builtin/base/Sample.java:115-139 | `sample(5, 3, FALSE, NULL)` succeeds on any three unit draws and returns three distinct values in `[1, 5]`. |
| SampleBuiltin.DoSample | com.oracle.truffle.r.nodes.builtin/src/com/oracle/truffle/r/nodes/builtin/base/Sample.java:70-139 | Running the selected array sampler gives the same outcome as the functional builtin. |
| StringVectorPrinter.Blanks | com.oracle.truffle.r.nodes.builtin/src/com/oracle/truffle/r/nodes/builtin/base/printer/StringVectorPrinter.java:154-166 | `n` spaces, none when `n` is not positive. |
| StringVectorPrinter.JavaLength | com.oracle.truffle.r.nodes.builtin/src/com/oracle/truffle/r/nodes/builtin/base/printer/StringVectorPrinter.java:133 | A string's Java length lies between its number of characters and twice that. |
| StringVectorPrinter.JavaLengthIsCountIffBasic | com.oracle.truffle.r.nodes.builtin/src/com/oracle/truffle/r/nodes/builtin/base/printer/StringVectorPrinter.java:133 | The Java length equals the number of characters exactly when no character lies outside the Basic Multilingual Plane. |
| StringVectorPrinter.JavaLengthConcat | com.oracle.truffle.r.nodes.builtin/src/com/oracle/truffle/r/nodes/builtin/base/printer/StringVectorPrinter.java:152-166 | The Java length of a concatenation is the sum of the lengths, so the left blanks, the string and the right blanks add up. |
| StringVectorPrinter.Encode | com.oracle.truffle.r.nodes.builtin/src/com/oracle/truffle/r/nodes/builtin/base/printer/StringVectorPrinter.java:131-169 | Widths are Java lengths in UTF-16 code units. With no justification, or a width no larger than the string's length, the string comes back unchanged: never truncated. Otherwise its length is `max(w, length)`, made of the string and `w - length` blanks. Left puts the string first and blanks after. Right puts blanks first. Centre puts `(w - length) / 2` blanks before and that many or one more after. |
| StringVectorPrinter.SupplementaryCountsTwice | com.oracle.truffle.r.nodes.builtin/src/com/oracle/truffle/r/nodes/builtin/base/printer/StringVectorPrinter.java:133 | A character outside the Basic Multilingual Plane counts twice, so right-justifying U+1F600 to width 3 adds one blank. |
| JavaInts.JavaDiv | com.oracle.truffle.r.nodes.builtin/src/com/oracle/truffle/r/nodes/builtin/base/printer/StringVectorPrinter.java:142 | Java's `/` on `int` truncates toward zero. |
| StringVectorPrinter.EncodeElement | com.oracle.truffle.r.nodes.builtin/src/com/oracle/truffle/r/nodes/builtin/base/printer/StringVectorPrinter.java:171-179 | The NA string that goes with the quote flag, or the escaped value, padded to Java length `max(w, length)`. It is right-justified exactly when `right` is set, else left-justified. |
| StringVectorPrinter.MaxWidthIsLeastBound | com.oracle.truffle.r.nodes.builtin/src/com/oracle/truffle/r/nodes/builtin/base/printer/StringVectorPrinter.java:107-119 | The field width bounds every element's width, where NA counts as the NA width for the quote flag. It is 0 or attained by some element. |
| StringVectorPrinter.FormatString | com.oracle.truffle.r.nodes.builtin/src/com/oracle/truffle/r/nodes/builtin/base/printer/StringVectorPrinter.java:100-124 | The loop over elements `offs .. offs+n-1` returns the widest of them in UTF-16 code units, and 0 when `n == 0`. |
| StringVectorPrinter.EncodedElementsShareTheWidth | com.oracle.truffle.r.nodes.builtin/src/com/oracle/truffle/r/nodes/builtin/base/printer/StringVectorPrinter.java:171-179 | Padding any string element to the vector's field width yields exactly that Java length. |
| Quantifier.Decisive | com.oracle.truffle.r.nodes.builtin/src/com/oracle/truffle/r/nodes/builtin/base/Quantifier.java:116-117 | The decisive value is TRUE for `any`, FALSE for `all`, and never NA. |
| Quantifier.ScanElementsMeaning | com.oracle.truffle.r.nodes.builtin/src/com/oracle/truffle/r/nodes/builtin/base/Quantifier.java:150-161 | The element scan returns the decisive value exactly when one occurs. Otherwise it returns NA if an NA occurs and `na.rm` is false, else the running result. |
| Quantifier.ScanArgsMeaning | com.oracle.truffle.r.nodes.builtin/src/com/oracle/truffle/r/nodes/builtin/base/Quantifier.java:131-139 | The argument loop returns the decisive value if any argument holds one. Otherwise it returns NA if an NA was kept, else the running result. |
| Quantifier.Quantify | com.oracle.truffle.r.nodes.builtin/src/com/oracle/truffle/r/nodes/builtin/base/Quantifier.java:96-140 | NULL or missing input gives the empty-vector result. Over `...`, the answer is the decisive value if one occurs, else NA if a kept NA occurs, else the empty-vector result. |
| Quantifier.NaRmIgnoresNA | com.oracle.truffle.r.nodes.builtin/src/com/oracle/truffle/r/nodes/builtin/base/Quantifier.java:155 | With `na.rm`, two argument lists whose elements agree apart from NAs get the same answer. |
| Quantifier.NullArgsAreSkipped | com.oracle.truffle.r.nodes.builtin/src/com/oracle/truffle/r/nodes/builtin/base/Quantifier.java:143-144 | Removing a NULL argument does not change the answer. |
| Quantifier.OpCachedLength | com.oracle.truffle.r.nodes.builtin/src/com/oracle/truffle/r/nodes/builtin/base/Quantifier.java:106-123 | The cached-length specialisation computes the intended answer. |
| Quantifier.Op | com.oracle.truffle.r.nodes.builtin/src/com/oracle/truffle/r/nodes/builtin/base/Quantifier.java:125-140 | The generic specialisation computes the same answer. |
| Quantifier.ProcessArgumentLoop | com.oracle.truffle.r.nodes.builtin/src/com/oracle/truffle/r/nodes/builtin/base/Quantifier.java:142-175 | `processArgument` returns the empty-vector result, the decisive value, or NA, the last only when `na.rm` is false. |
| Connections.FindMode | com.oracle.truffle.r.nodes.builtin/src/com/oracle/truffle/r/nodes/builtin/base/ConnectionFunctions.java:74-81 | A found mode lists the string. When nothing is found, no mode from the start position on lists it. |
| Connections.GetOpenMode | com.oracle.truffle.r.nodes.builtin/src/com/oracle/truffle/r/nodes/builtin/base/ConnectionFunctions.java:73-82 | A returned mode lists the string, and the only failure is the mode exception. |
| Connections.ModeStringsDisjoint | com.oracle.truffle.r.nodes.builtin/src/com/oracle/truffle/r/nodes/builtin/base/ConnectionFunctions.java:51-64 | No mode string is listed under two modes. |
| Connections.GetOpenModeExact | com.oracle.truffle.r.nodes.builtin/src/com/oracle/truffle/r/nodes/builtin/base/ConnectionFunctions.java:51-82 | A string maps to a mode exactly when that mode lists it. A string fails exactly when no mode lists it. |
| Connections.GetOpenModeRead | com.oracle.truffle.r.nodes.builtin/src/com/oracle/truffle/r/nodes/builtin/base/ConnectionFunctions.java:53 | `"r"` and `"rt"` give Read. |
| Connections.GetOpenModeLazy | com.oracle.truffle.r.nodes.builtin/src/com/oracle/truffle/r/nodes/builtin/base/ConnectionFunctions.java:52 | `""` gives Lazy. |
| Connections.GetOpenModeReadWriteTruncBinary | com.oracle.truffle.r.nodes.builtin/src/com/oracle/truffle/r/nodes/builtin/base/ConnectionFunctions.java:62 | `"w+b"` gives ReadWriteTruncBinary. |
| Connections.GetOpenModeRejects | com.oracle.truffle.r.nodes.builtin/src/com/oracle/truffle/r/nodes/builtin/base/ConnectionFunctions.java:73-82 | `"rw"` is rejected. |
| Connections.TextReadLines | com.oracle.truffle.r.nodes.builtin/src/com/oracle/truffle/r/nodes/builtin/base/ConnectionFunctions.java:466-477 | A read returns `min(n, remaining)` lines when `n > 0`, and all remaining lines otherwise. They are the lines at the cursor, in order. The cursor advances by the number returned and stays within the lines. |
| Connections.TextReadsConcatenate | com.oracle.truffle.r.nodes.builtin/src/com/oracle/truffle/r/nodes/builtin/base/ConnectionFunctions.java:474-476 | Reads of `n1` then `n2` lines return consecutive slices whose concatenation is one read of `n1 + n2`. Both leave the same cursor. |
| Connections.TextReadExhausted | com.oracle.truffle.r.nodes.builtin/src/com/oracle/truffle/r/nodes/builtin/base/ConnectionFunctions.java:467-473 | Once the lines are used up, every read returns nothing and leaves the reader as it was. |
| Connections.TextReadAll | com.oracle.truffle.r.nodes.builtin/src/com/oracle/truffle/r/nodes/builtin/base/ConnectionFunctions.java:467-468 | A read with `n <= 0` returns the rest of the lines and exhausts the reader. |
| Connections.SetClass | com.oracle.truffle.r.nodes.builtin/src/com/oracle/truffle/r/nodes/builtin/base/ConnectionFunctions.java:147-152 | The class vector becomes `[rClass, "connection"]`, and nothing else changes. |
| Connections.SetDelegate | com.oracle.truffle.r.nodes.builtin/src/com/oracle/truffle/r/nodes/builtin/base/ConnectionFunctions.java:141-145 | The connection is open, holds the delegate, has class `[rClass, "connection"]`, and keeps its kind and modes. |
| Connections.CreateDelegate | com.oracle.truffle.r.nodes.builtin/src/com/oracle/truffle/r/nodes/builtin/base/ConnectionFunctions.java:437-447 | A delegate is created exactly when the mode is the one the kind implements: Read for file and text, ReadBinary for gzip. Otherwise the unimplemented-mode error is raised. |
| Connections.CheckOpen | com.oracle.truffle.r.nodes.builtin/src/com/oracle/truffle/r/nodes/builtin/base/ConnectionFunctions.java:131-139 | A closed connection in Lazy mode takes its lazy mode and creates its delegate, so on success it is open in that mode. Any other connection is left unchanged. |
| Connections.NewConnection | com.oracle.truffle.r.nodes.builtin/src/com/oracle/truffle/r/nodes/builtin/base/ConnectionFunctions.java:118-129 | An unknown mode string fails with the mode exception. The lazy mode is Read, or ReadBinary for gzip. `""` leaves the connection closed, lazy and without a delegate. Any other accepted string opens it at once. |
| Connections.LazyTextConnectionOpens | com.oracle.truffle.r.nodes.builtin/src/com/oracle/truffle/r/nodes/builtin/base/ConnectionFunctions.java:426-447 | A lazily created text connection is, after `checkOpen`, open for reading with class `textConnection`, reading from the first line. |
| Connections.NewTextConnectionOk | com.oracle.truffle.r.nodes.builtin/src/com/oracle/truffle/r/nodes/builtin/base/ConnectionFunctions.java:426-434 | Every text connection the constructor builds is lazy without a delegate, or holds a reader over its own lines. |
| Connections.ConnReadLines | com.oracle.truffle.r.nodes.builtin/src/com/oracle/truffle/r/nodes/builtin/base/ConnectionFunctions.java:154-158 | `readLines` on a text connection fails only when a lazy connection cannot open in its lazy mode. Otherwise it reads through the existing reader, or through a new one at the first line, and keeps the connection well formed. |
| Connections.ReadLinesBuiltin | com.oracle.truffle.r.nodes.builtin/src/com/oracle/truffle/r/nodes/builtin/base/ConnectionFunctions.java:526-536 | The builtin fails with the lazy-open error when the connection cannot open, and with TOO_FEW_LINES exactly when it can, `n > 0`, fewer than `n` lines are pending and `ok` is FALSE. Otherwise it returns the next `min(n, pending)` pending lines (all of them when `n <= 0`) and leaves exactly the lines after them pending. |
| Connections.ReadLinesBuiltinOnText | com.oracle.truffle.r.nodes.builtin/src/com/oracle/truffle/r/nodes/builtin/base/ConnectionFunctions.java:522-537 | On an open text connection, the builtin errors exactly when `n > 0`, fewer than `n` lines remain and `ok` is FALSE. |
| RawVector.IncMod | com.oracle.truffle.r.runtime/src/com/oracle/truffle/r/runtime/data/RRawVector.java:109 | The recycling index steps to `(j + 1) mod len`. |
| RawVector.Resized | com.oracle.truffle.r.runtime/src/com/oracle/truffle/r/runtime/data/RRawVector.java:104-114 | The new length is `size`. Shrinking keeps the first `size` bytes, and growing keeps all old bytes first. With `fillNA` the new bytes are 0. |
| RawVector.RecyclingIsCyclic | com.oracle.truffle.r.runtime/src/com/oracle/truffle/r/runtime/data/RRawVector.java:107-112 | Without `fillNA`, position `i` holds `data[i mod len]`, so the result repeats with period `len`. |
| RawVector.ResizeToSameLength | com.oracle.truffle.r.runtime/src/com/oracle/truffle/r/runtime/data/RRawVector.java:104-114 | Resizing to the current length gives the data back. |
| RawVector.GrowThenShrink | com.oracle.truffle.r.runtime/src/com/oracle/truffle/r/runtime/data/RRawVector.java:104-114 | Growing and then shrinking back to the old length gives the data back. |
| RawVector.CopyOf | com.oracle.truffle.r.runtime/src/com/oracle/truffle/r/runtime/data/RRawVector.java:106 | `Arrays.copyOf` gives a fresh array of length `size`, holding the old prefix and 0 after it. |
| RawVector.CreateResizedData | com.oracle.truffle.r.runtime/src/com/oracle/truffle/r/runtime/data/RRawVector.java:104-114 | The array loop with `incMod` produces the resized data. |
| RawVector.RemoveLast | com.oracle.truffle.r.runtime/src/com/oracle/truffle/r/runtime/data/RRawVector.java:79-82 | Appending the removed last byte gives the data back. |
| RawVector.RemoveFirst | com.oracle.truffle.r.runtime/src/com/oracle/truffle/r/runtime/data/RRawVector.java:84-87 | Prepending the removed first byte gives the data back. |
| RawVector.GetDataCopy | com.oracle.truffle.r.runtime/src/com/oracle/truffle/r/runtime/data/RRawVector.java:69-73 | A fresh array equal to the data. |
| RawVector.UpdateDataAt | com.oracle.truffle.r.runtime/src/com/oracle/truffle/r/runtime/data/RRawVector.java:98-102 | Index `i` holds the new byte, and every other byte is unchanged. |
| RawVector.UpdateDataAtLaws | com.oracle.truffle.r.runtime/src/com/oracle/truffle/r/runtime/data/RRawVector.java:98-102 | Writing back the byte already there changes nothing, and a second write to the same index overrides the first. |
| RawVector.TransferElement | com.oracle.truffle.r.runtime/src/com/oracle/truffle/r/runtime/data/RRawVector.java:133-136 | `to[toIndex]` becomes `from[fromIndex]`, and every other byte is unchanged. |
| ConsoleInput.Open | com.oracle.truffle.r.launcher/src/com/oracle/truffle/r/launcher/ConsoleHandler.java:56-59 | A fresh stream has no buffer. |
| ConsoleInput.Next | com.oracle.truffle.r.launcher/src/com/oracle/truffle/r/launcher/ConsoleHandler.java:61-77 | The end of input is reported exactly when there is no buffer and no line is left, and the buffer then stays empty. `'\n'` comes exactly at the end of the current line, or for an empty new line, and clears the buffer. Otherwise the next byte is delivered and `pos` moves past it. `pos` stays in `[0, len]`. |
| ConsoleInput.Widened | com.oracle.truffle.r.launcher/src/com/oracle/truffle/r/launcher/ConsoleHandler.java:67-75 | The value an `InputStream` must return: in `[-1, 255]`, and -1 exactly at the end of input. |
| ConsoleInput.WidenedAsWritten | com.oracle.truffle.r.launcher/src/com/oracle/truffle/r/launcher/ConsoleHandler.java:75 | As written, a byte widens with its sign: the value is in `[-128, 127]` and congruent to the byte mod 256. |
| ConsoleInput.ReadAsWritten | com.oracle.truffle.r.launcher/src/com/oracle/truffle/r/launcher/ConsoleHandler.java:61-77 | `read()` as written returns values in `[-128, 127]` and makes the same state change as the corrected read. |
| ConsoleInput.Read | com.oracle.truffle.r.launcher/src/com/oracle/truffle/r/launcher/ConsoleHandler.java:61-77 | Corrected `read()`: a value in `[-1, 255]`, and -1 exactly when there is no buffer and no line is left. |
| ConsoleInput.AsWrittenDiffersOnlyAboveAscii | com.oracle.truffle.r.launcher/src/com/oracle/truffle/r/launcher/ConsoleHandler.java:75 | The as-written and corrected reads differ exactly on bytes of 128 or more, and agree mod 256 on every byte. |
| ConsoleInput.ReadsFromLine | com.oracle.truffle.r.launcher/src/com/oracle/truffle/r/launcher/ConsoleHandler.java:71-76 | From the middle of a line, the reads give the rest of the line, `'\n'`, every later line with its `'\n'`, and -1. |
| ConsoleInput.ReadsFromLineStart | com.oracle.truffle.r.launcher/src/com/oracle/truffle/r/launcher/ConsoleHandler.java:63-70 | Between lines, the reads give every remaining line with its `'\n'`, then -1. |
| ConsoleInput.ReadsAllLines | com.oracle.truffle.r.launcher/src/com/oracle/truffle/r/launcher/ConsoleHandler.java:56-79 | A fresh stream over `L1 .. Lk` reads `L1`, `'\n'`, ..., `Lk`, `'\n'`, then -1. |
| ConsoleInput.EndOfInputRepeats | com.oracle.truffle.r.launcher/src/com/oracle/truffle/r/launcher/ConsoleHandler.java:63-68 | At the end of input every further read returns -1 again. |
| ConsoleInput.EmptyLineIsNewline | com.oracle.truffle.r.launcher/src/com/oracle/truffle/r/launcher/ConsoleHandler.java:71-74 | An empty line reads as a lone `'\n'`. |
| ConsoleInput.NonAsciiReadsNegative | com.oracle.truffle.r.launcher/src/com/oracle/truffle/r/launcher/ConsoleHandler.java:75 | For the line "é" (bytes C3 A9), the first read gives -61 as written and 195 corrected. |
| Bytes.SignedValue | com.oracle.truffle.r.launcher/src/com/oracle/truffle/r/launcher/ConsoleHandler.java:75 | A byte read as a Java `byte` is in `[-128, 127]` and congruent to it mod 256. |
| ListToEnv.Scan | com.oracle.truffle.r.nodes.builtin/src/com/oracle/truffle/r/nodes/builtin/base/List2Env.java:46-55 | The scan never overwrites or removes a binding, and only binds names from the list. |
| ListToEnv.ListToEnv | com.oracle.truffle.r.nodes.builtin/src/com/oracle/truffle/r/nodes/builtin/base/List2Env.java:40-63 | A non-list is rejected, and so is a list without names, both before any binding. Success implies a named list with no empty name. |
| ListToEnv.ScanErrorsOnEmptyName | com.oracle.truffle.r.nodes.builtin/src/com/oracle/truffle/r/nodes/builtin/base/List2Env.java:46-50 | The scan fails exactly when some name is empty, and then with ZERO_LENGTH_VARIABLE. |
| ListToEnv.ExpectedStep | com.oracle.truffle.r.nodes.builtin/src/com/oracle/truffle/r/nodes/builtin/base/List2Env.java:51-54 | Binding the last element, unless its name is bound, leaves the same intended result for the elements before it. |
| ListToEnv.ScanMeetsExpected | com.oracle.truffle.r.nodes.builtin/src/com/oracle/truffle/r/nodes/builtin/base/List2Env.java:46-55 | Without empty names, the scan produces exactly the intended bindings. Old bindings stay, and every other name gets the value at its highest index. |
| ListToEnv.ListToEnvBinds | com.oracle.truffle.r.nodes.builtin/src/com/oracle/truffle/r/nodes/builtin/base/List2Env.java:40-57 | After a successful call every earlier binding is unchanged. Every name not bound before is bound to the value at the highest index carrying it, and nothing else is bound. |
| ListToEnv.ScanSplit | com.oracle.truffle.r.nodes.builtin/src/com/oracle/truffle/r/nodes/builtin/base/List2Env.java:46-55 | Scanning `a + b` scans `b` first, then `a` in the environment `b` left, unless `b` failed. |
| ListToEnv.EmptyNameKeepsLaterBindings | com.oracle.truffle.r.nodes.builtin/src/com/oracle/truffle/r/nodes/builtin/base/List2Env.java:46-50 | With an empty name, the call fails with ZERO_LENGTH_VARIABLE. The bindings made for every index after the last empty name stay. |
| RCommand.PrependCommand | com.oracle.truffle.r.launcher/src/com/oracle/truffle/r/launcher/RCommand.java:124-129 | One longer than the arguments, with "R" first and the arguments shifted by one. |
| RCommand.PrependCommandDrops | com.oracle.truffle.r.launcher/src/com/oracle/truffle/r/launcher/RCommand.java:124-129 | Dropping the first element gives the arguments back. |
| RCommand.UnescapeSpace | com.oracle.truffle.r.launcher/src/com/oracle/truffle/r/launcher/RCommand.java:203-205 | Never longer than the input. A string with no `~+~` comes back unchanged. |
| RCommand.UnescapeEscapes | com.oracle.truffle.r.launcher/src/com/oracle/truffle/r/launcher/RCommand.java:200-205 | For an argument without `~`, unescaping undoes the start-up script's escaping of spaces. |
| RCommand.UnescapeNeedsNoTilde | com.oracle.truffle.r.launcher/src/com/oracle/truffle/r/launcher/RCommand.java:203-205 | With a `~` the round trip fails: "~+ " escapes to "~+~+~", which unescapes to " +~". |
| RCommand.WithInteractive | com.oracle.truffle.r.launcher/src/com/oracle/truffle/r/launcher/RCommand.java:77-94 | Without a console, or with `--interactive` already present, the arguments are unchanged. Otherwise `--interactive` is inserted at index 1, or becomes the only argument, and the rest keep their order. |
| RCommand.WithInteractiveLaws | com.oracle.truffle.r.launcher/src/com/oracle/truffle/r/launcher/RCommand.java:77-94 | The rewrite is idempotent, and it adds at most the one `--interactive` to the multiset of arguments. |
| RCommand.InsertInteractive | com.oracle.truffle.r.launcher/src/com/oracle/truffle/r/launcher/RCommand.java:77-94 | The search loop and list insertion produce exactly that rewrite. |
| RCommand.TrimStart | com.oracle.truffle.r.launcher/src/com/oracle/truffle/r/launcher/RCommand.java:237 | Drops exactly the leading characters up to U+0020. |
| RCommand.TrimEnd | com.oracle.truffle.r.launcher/src/com/oracle/truffle/r/launcher/RCommand.java:237 | Drops exactly the trailing characters up to U+0020. |
| RCommand.SkippedIffCommentOrBlank | com.oracle.truffle.r.launcher/src/com/oracle/truffle/r/launcher/RCommand.java:237-241 | A line is skipped exactly when it is all blanks or its first non-blank character is `#`. |
| RCommand.SkipBlank | com.oracle.truffle.r.launcher/src/com/oracle/truffle/r/launcher/RCommand.java:237-241 | A blank line is skipped. |
| RCommand.SkipComment | com.oracle.truffle.r.launcher/src/com/oracle/truffle/r/launcher/RCommand.java:237-241 | An indented comment line is skipped. |
| RCommand.KeepCode | com.oracle.truffle.r.launcher/src/com/oracle/truffle/r/launcher/RCommand.java:237-241 | A line of code with a trailing comment is evaluated. |
| Callers.FromFrame | com.oracle.truffle.r.runtime/src/com/oracle/truffle/r/runtime/RCaller.java:68-72 | A caller built from a frame takes its depth from the frame, takes the frame's caller as parent, and starts with visibility false. |
| Callers.CreateInvalid | com.oracle.truffle.r.runtime/src/com/oracle/truffle/r/runtime/RCaller.java:113-115 | An invalid caller: not valid, not a promise, depth and parent from the frame. |
| Callers.TopLevel | com.oracle.truffle.r.runtime/src/com/oracle/truffle/r/runtime/RCaller.java:46 | `topLevel` has depth 0, no parent, is not valid, and starts invisible. |
| Callers.CreateInvalidWithParent | com.oracle.truffle.r.runtime/src/com/oracle/truffle/r/runtime/RCaller.java:117-119 | Not valid, with the frame's depth and the given parent. |
| Callers.Create | com.oracle.truffle.r.runtime/src/com/oracle/truffle/r/runtime/RCaller.java:121-134 | A caller made from a frame and a syntax node or supplier is valid, is not a promise, and has the frame's depth and parent. |
| Callers.CreateWithParent | com.oracle.truffle.r.runtime/src/com/oracle/truffle/r/runtime/RCaller.java:126-144 | Valid, not a promise, with the frame's depth and the given parent. |
| Callers.CreateAt | com.oracle.truffle.r.runtime/src/com/oracle/truffle/r/runtime/RCaller.java:136-139 | Valid, with the given depth and parent. It is a promise exactly when the payload is a caller. |
| Callers.CreateForPromise | com.oracle.truffle.r.runtime/src/com/oracle/truffle/r/runtime/RCaller.java:146-150 | The parent is the original caller. Without a frame: depth 0, neither valid nor a promise. With a frame: the frame's depth, and a promise whose payload is the frame's caller. |
| Callers.SyntaxNodeRoundTrip | com.oracle.truffle.r.runtime/src/com/oracle/truffle/r/runtime/RCaller.java:96-99 | A caller created with a call's syntax, or with a supplier of it, returns that syntax from `getSyntaxNode`, whatever its frame and parent. |
| Callers.PromiseOriginalCall | com.oracle.truffle.r.runtime/src/com/oracle/truffle/r/runtime/RCaller.java:109-111 | A promise caller's original call is the caller its payload holds. |
| Callers.FrameParentIsOneLevelUp | com.oracle.truffle.r.runtime/src/com/oracle/truffle/r/runtime/RCaller.java:80-86 | The parent and the depth read from one frame agree: no frame gives no parent and depth 0; otherwise the parent is the frame's caller and the depth is one more than its depth. |
| Callers.ValidityByFactory | com.oracle.truffle.r.runtime/src/com/oracle/truffle/r/runtime/RCaller.java:101-103 | A caller is valid when created with a syntax node, a supplier or a caller; the invalid factories and `topLevel` give invalid callers; the promise factory gives a valid caller exactly when it has a frame. |
| Callers.PromiseByFactory | com.oracle.truffle.r.runtime/src/com/oracle/truffle/r/runtime/RCaller.java:105-107 | A caller is a promise when the promise factory had a frame, and then its original call is the frame's caller, or when created with a caller as payload; callers created from syntax are not promises. |
| Callers.SetVisibility | com.oracle.truffle.r.runtime/src/com/oracle/truffle/r/runtime/RCaller.java:156-158 | Sets the flag and nothing else. |
| Callers.VisibilityIsLastSet | com.oracle.truffle.r.runtime/src/com/oracle/truffle/r/runtime/RCaller.java:152-158 | `getVisibility` answers the last value set, and setting the current value changes nothing. |
| Callers.FrameFactoriesBuildChains | com.oracle.truffle.r.runtime/src/com/oracle/truffle/r/runtime/RCaller.java:68-86 | The frame-based factories extend a chain in which each caller is one level below its parent, with depth 0 at the top. |
| Callers.FrameBuiltDepthIsAncestry | com.oracle.truffle.r.runtime/src/com/oracle/truffle/r/runtime/RCaller.java:48-55 | In such a chain the depth is the number of parents above the caller. |
| Callers.PromiseDepthIsNotParentDepth | com.oracle.truffle.r.runtime/src/com/oracle/truffle/r/runtime/RCaller.java:48-55 | A promise caller's depth need not be one more than its parent's, so the parent chain does not decrease by one. |

## Left out

- ConsoleInput.Open: the stream is given the input lines as their UTF-8 bytes. Reading a line from the console (`readLine()`, ConsoleHandler.java:65) and encoding it (`getBytes(StandardCharsets.UTF_8)`, ConsoleHandler.java:69) are not modelled; the lines are a parameter.
- Random numbers: `RRNG.unifRand` is replaced by a sequence of draws in `[0, 1)` given by the caller. Every sampler requires at least `size` of them and returns the rest.
- The Walker alias method is unimplemented in the source. The model raises its error exactly when the source throws, and samples nothing.
- Floating point: weights, sums, products and quotients are exact reals. The `(int)` casts are `Floor` of a non-negative real. Rounding of sums (so "sum to exactly 1") and NaN/infinity arithmetic are not modelled. NA, NaN and the infinities are one non-finite value.
- Truffle specialisation selection: guards are tried in declaration order, which is what the generated code does for these disjoint signatures. Casts of the arguments, and the NA `replace` flag (`invalidIsRepeatable`), are not modelled. `replace` is a plain boolean.
- Argument casts of `any` and `all`: `Quantifier.Arg` holds arguments already cast to logical. The cast node of `any`/`all` and its COERCING_ARGUMENT warning are not modelled.
- RError message texts and their arguments: each error is the name of its message.
- The 4.5e15 cap: the model keeps it, though a 32-bit `x` never reaches it.
- `RRuntime.escapeString` is a parameter: any function of the string and the quote flag. The output stream of `printString` is left out. The source escapes first and detects NA by comparing the escaped string with `STRING_NA` by identity; the model detects NA on the input, which assumes that escaping maps NA to `STRING_NA` and no other string to it.
- `String.split` in the `TextReadRConnection` constructor: the text connection takes its lines as given.
- File, gzip and stdin delegates do no I/O here. Their `readLines`, `getInputStream` and `close` are left out, along with the `close` builtin. The `textConnection` builtin turns a bad mode into an internal error; the model reports the mode exception instead.
- Connections.ConnReadLines: stated for text connections only, whose delegates are the only ones that read.
- Environment identity: `list2env` returns the same environment object. The model returns the map it leaves.
- ListToEnv.ListToEnv: names are required to match the values in length, which the list class guarantees.
- The REPL loop, context evaluation, console handler construction, file reading, `System.exit` and `fatal` in the launcher are left out. The skip test is modelled on its own.
- `RArguments.getCall` and `RArguments.getDepth` are not part of this model. A frame is the caller stored in it, and `getDepth(frame)` is that caller's depth.
- `Utils.incMod` is not part of this model. It is taken to step cyclically through `[0, len)`, the way `createResizedData` uses it.
- RawVector.Resized: recycling requires a non-empty vector; the source's loop would read `data[0]` of an empty array and fail.
- Shared vectors and the `isShared` assertions are not modelled: every update produces a new sequence.
- RCaller's `getPromiseOriginalCall` is the `original` field of a promise payload.
- Callers.Caller: a caller is a value, so the model has no object identity and no sharing. Two callers with equal fields are equal, where the source keeps one instance per frame so that a return can find its target. `Callers.SetVisibility` returns an updated copy, so a child's `parent` does not see a later change of the flag, as it would through the shared Java reference.
- Callers.SetVisibility: returns an updated copy of the caller; the source sets the flag on the shared object, so a child that holds the caller as its `parent` would see the change, and in the model it does not.
- SampleBuiltin.ArgumentError: with a NULL `prob`, a sample larger than the population is reported as SAMPLE_LARGER_THAN_POPULATION, the corrected label, where the source raises INCORRECT_NUM_PROB. `SampleBuiltin.Sample` and `SampleBuiltin.DoSample` inherit this. `SampleArgs.CheckNullProbAsWritten` keeps the label as written, and `SampleArgs.NullProbCheckOnlyRelabels` proves that the label is the only difference.
- SampleBuiltin.Sample: with a NULL `prob`, a sample larger than the population fails with SAMPLE_LARGER_THAN_POPULATION, the corrected label, where the source raises INCORRECT_NUM_PROB (Sample.java:110-112); the label comes from `SampleBuiltin.ArgumentError`.
- SampleBuiltin.DoSample: equals `SampleBuiltin.Sample`, so it reports the same corrected label for the NULL-`prob` population error instead of INCORRECT_NUM_PROB.

## Findings

| source | as written | input that shows it | evidently intended | confidence | as-written member | corrected member |
|---|---|---|---|---|---|---|
| com.oracle.truffle.r.nodes.builtin/src/com/oracle/truffle/r/nodes/builtin/base/Sample.java:109-113 | With a NULL `prob`, a sample larger than the population is reported with INCORRECT_NUM_PROB. That message is about a probability vector of the wrong length. | `sample(1, 2)` without replacement (`SampleArgs.NullProbMislabelExample`) | SAMPLE_LARGER_THAN_POPULATION, as the vector form reports at lines 57-61 | not executed; medium, since the message text is the only difference | SampleArgs.CheckNullProbAsWritten | SampleArgs.CheckNullProb |
| com.oracle.truffle.r.launcher/src/com/oracle/truffle/r/launcher/ConsoleHandler.java:75 | `return buffer[pos++]` widens a signed Java `byte`, so every byte from 0x80 to 0xFF, which is every byte of a non-ASCII character in UTF-8, comes back negative. | The line "é", bytes C3 A9: the first read gives -61 (`ConsoleInput.NonAsciiReadsNegative`) | `buffer[pos++] & 0xFF`, a value in `[0, 255]` as `InputStream.read` requires | not executed; high for the widening, medium for its effect on readers | ConsoleInput.ReadAsWritten | ConsoleInput.Read |

=== FILE: bytes.dfy ===
/** Bytes as their unsigned values. */
module Bytes {

  /** An 8-bit byte, read as unsigned (`b & 0xFF` in Java terms). */
  type Byte = b: int | 0 <= b < 256

  /** The value a Java `byte` holding `b` has when widened to `int`: bytes with
      the top bit set read as negative. */
  function SignedValue(b: Byte): (v: int)
    ensures -128 <= v < 128
    ensures v % 256 == b
  {
    if b < 128 then b else b - 256
  }
}

=== FILE: connections.dfy ===
/** Connections (`ConnectionFunctions`): open-mode strings, lazy opening of a
    base connection through its delegate, and the line cursor of a text
    connection read by `readLines`. */
module Connections {
  import opened Results
  import opened Logicals

  /** `OpenMode`, in declaration order. */
  datatype OpenMode =
    | Lazy | Read | Write | Append | ReadBinary | WriteBinary | AppendBinary
    | ReadWrite | ReadWriteBinary | ReadWriteTrunc | ReadWriteTruncBinary
    | ReadAppend | ReadAppendBinary

  /** The modes in the order `values()` lists them. */
  const AllModes: seq<OpenMode> := [
    Lazy, Read, Write, Append, ReadBinary, WriteBinary, AppendBinary,
    ReadWrite, ReadWriteBinary, ReadWriteTrunc, ReadWriteTruncBinary,
    ReadAppend, ReadAppendBinary]

  /** The strings each mode accepts. */
  function ModeStrings(m: OpenMode): seq<string> {
    match m
    case Lazy => [""]
    case Read => ["r", "rt"]
    case Write => ["w", "wt"]
    case Append => ["a", "at"]
    case ReadBinary => ["rb"]
    case WriteBinary => ["wb"]
    case AppendBinary => ["ab"]
    case ReadWrite => ["r+"]
    case ReadWriteBinary => ["r+b"]
    case ReadWriteTrunc => ["w+"]
    case ReadWriteTruncBinary => ["w+b"]
    case ReadAppend => ["a+"]
    case ReadAppendBinary => ["a+b"]
  }

  /** The errors raised in this part of the model. */
  datatype ConnError =
    | InvalidArgument      // ModeException, "invalid argument"
    | UnimplementedMode    // RError.nyi for a mode the connection kind cannot open
    | TooFewLines          // TOO_FEW_LINES_READ_LINES

  /** The search of `getOpenMode` over the modes from position `i` on. */
  function FindMode(s: string, i: nat): (r: Option<OpenMode>)
    requires i <= |AllModes|
    ensures r.Some? ==> s in ModeStrings(r.value)
    ensures r.None? ==> forall k :: i <= k < |AllModes| ==> s !in ModeStrings(AllModes[k])
    decreases |AllModes| - i
  {
    if i == |AllModes| then None
    else if s in ModeStrings(AllModes[i]) then Some(AllModes[i])
    else FindMode(s, i + 1)
  }

  /** `OpenMode.getOpenMode(modeString)`. */
  function GetOpenMode(s: string): (r: Result<OpenMode, ConnError>)
    ensures r.Ok? ==> s in ModeStrings(r.value)
    ensures r.Err? ==> r.error == InvalidArgument
  {
    match FindMode(s, 0)
    case Some(m) => Ok(m)
    case None => Err(InvalidArgument)
  }

  /** No string is listed under two modes. */
  lemma ModeStringsDisjoint(s: string, m1: OpenMode, m2: OpenMode)
    requires s in ModeStrings(m1) && s in ModeStrings(m2)
    ensures m1 == m2
  {
  }

  /** Every mode appears among `values()`. */
  lemma AllModesComplete(m: OpenMode)
    ensures m in AllModes
  {
  }

  /** The lookup is exact: a string maps to a mode iff that mode lists it, and
      a string no mode lists is rejected. */
  lemma GetOpenModeExact(s: string, m: OpenMode)
    ensures GetOpenMode(s) == Ok(m) <==> s in ModeStrings(m)
    ensures GetOpenMode(s).Err? <==> forall m' :: s !in ModeStrings(m')
  {
    if s in ModeStrings(m) {
      AllModesComplete(m);
      var k :| 0 <= k < |AllModes| && AllModes[k] == m;
      if GetOpenMode(s).Ok? {
        ModeStringsDisjoint(s, m, GetOpenMode(s).value);
      }
    }
    if GetOpenMode(s).Err? {
      forall m' ensures s !in ModeStrings(m') {
        AllModesComplete(m');
      }
    }
  }

  /** `"r"` and `"rt"` open for reading. */
  lemma GetOpenModeRead()
    ensures GetOpenMode("r") == Ok(Read) && GetOpenMode("rt") == Ok(Read)
  {
    GetOpenModeExact("r", Read);
    GetOpenModeExact("rt", Read);
  }

  /** The empty string asks for lazy opening. */
  lemma GetOpenModeLazy()
    ensures GetOpenMode("") == Ok(Lazy)
  {
    GetOpenModeExact("", Lazy);
  }

  lemma GetOpenModeReadWriteTruncBinary()
    ensures GetOpenMode("w+b") == Ok(ReadWriteTruncBinary)
  {
    GetOpenModeExact("w+b", ReadWriteTruncBinary);
  }

  /** `"rw"` is not a mode string. */
  lemma GetOpenModeRejects()
    ensures GetOpenMode("rw") == Err(InvalidArgument)
  {
    forall m ensures "rw" !in ModeStrings(m) {
      var ms := ModeStrings(m);
      forall k | 0 <= k < |ms| ensures ms[k] != "rw" {
        assert |ms[k]| <= 1 || ms[k][1] != 'w' || ms[k][0] != 'r';
      }
    }
    GetOpenModeExact("rw", Read);
  }

  // ---- Text connections ----

  /** `TextReadRConnection`: the split lines and the cursor `index`. */
  datatype TextReader = TextReader(lines: seq<string>, index: nat)

  predicate ValidReader(r: TextReader) {
    r.index <= |r.lines|
  }

  /** `readLines(n)` on a text delegate: the lines read and the advanced reader. */
  function TextReadLines(rd: TextReader, n: int): (res: (seq<string>, TextReader))
    requires ValidReader(rd)
    ensures var (got, rd') := res;
            ValidReader(rd') && rd'.lines == rd.lines &&
            |got| == (if n > 0 && n < |rd.lines| - rd.index then n else |rd.lines| - rd.index) &&
            rd'.index == rd.index + |got| &&
            got == rd.lines[rd.index..rd'.index]
  {
    var nleft := |rd.lines| - rd.index;
    var nlines := if n > 0 then (if n > nleft then nleft else n) else nleft;
    (rd.lines[rd.index..rd.index + nlines], TextReader(rd.lines, rd.index + nlines))
  }

  /** Two successive reads return consecutive, non-overlapping slices: together
      they are what one read of both counts would have returned. */
  lemma TextReadsConcatenate(rd: TextReader, n1: int, n2: int)
    requires ValidReader(rd) && n1 > 0 && n2 > 0
    ensures var (a, rd1) := TextReadLines(rd, n1);
            var (b, rd2) := TextReadLines(rd1, n2);
            a + b == TextReadLines(rd, n1 + n2).0 && rd2 == TextReadLines(rd, n1 + n2).1
  {
    var (a, rd1) := TextReadLines(rd, n1);
    var (b, rd2) := TextReadLines(rd1, n2);
    assert a + b == rd.lines[rd.index..rd2.index];
  }

  /** Once the lines are used up every read returns nothing and leaves the cursor. */
  lemma TextReadExhausted(rd: TextReader, n: int)
    requires ValidReader(rd) && rd.index == |rd.lines|
    ensures TextReadLines(rd, n) == ([], rd)
  {
  }

  /** A read with `n <= 0` returns all remaining lines and exhausts the reader. */
  lemma TextReadAll(rd: TextReader, n: int)
    requires ValidReader(rd) && n <= 0
    ensures TextReadLines(rd, n).0 == rd.lines[rd.index..]
    ensures TextReadLines(rd, n).1.index == |rd.lines|
  {
  }

  // ---- Base connections and lazy opening ----

  /** The kinds of base connection whose delegate this model builds. */
  datatype Kind = FileKind | GzFileKind | TextKind(lines: seq<string>)

  /** A delegate: a text reader, or one for a file or gzip stream, whose I/O is
      not part of this model. */
  datatype Delegate = TextDelegate(reader: TextReader) | FileDelegate | GzDelegate

  /** `BaseRConnection`'s state. */
  datatype Conn = Conn(
    kind: Kind,
    isOpen: bool,
    mode: OpenMode,
    lazyMode: OpenMode,
    classHr: seq<string>,
    delegate: Option<Delegate>)

  /** The mode in which each kind can create a delegate, its delegate, and its class. */
  function DelegateMode(k: Kind): OpenMode {
    match k
    case FileKind => Read
    case GzFileKind => ReadBinary
    case TextKind(_) => Read
  }

  function ClassName(k: Kind): string {
    match k
    case FileKind => "file"
    case GzFileKind => "gzfile"
    case TextKind(_) => "textConnection"
  }

  function NewDelegate(k: Kind): Delegate {
    match k
    case FileKind => FileDelegate
    case GzFileKind => GzDelegate
    case TextKind(lines) => TextDelegate(TextReader(lines, 0))
  }

  /** `setClass(rClass)`. */
  function SetClass(c: Conn, rClass: string): (r: Conn)
    ensures r.classHr == [rClass, "connection"]
    ensures r == c.(classHr := r.classHr)
  {
    c.(classHr := [rClass, "connection"])
  }

  /** `setDelegate(conn, rClass)`. */
  function SetDelegate(c: Conn, d: Delegate, rClass: string): (r: Conn)
    ensures r.isOpen && r.delegate == Some(d) && r.classHr == [rClass, "connection"]
    ensures r.kind == c.kind && r.mode == c.mode && r.lazyMode == c.lazyMode
  {
    SetClass(c.(delegate := Some(d)), rClass).(isOpen := true)
  }

  /** `createDelegateConnection()` of the file, gzfile and text connections:
      only one mode per kind is implemented. */
  function CreateDelegate(c: Conn): (r: Result<Conn, ConnError>)
    ensures r.Ok? <==> c.mode == DelegateMode(c.kind)
    ensures r.Err? ==> r.error == UnimplementedMode
    ensures r.Ok? ==> r.value == SetDelegate(c, NewDelegate(c.kind), ClassName(c.kind))
  {
    if c.mode == DelegateMode(c.kind) then Ok(SetDelegate(c, NewDelegate(c.kind), ClassName(c.kind)))
    else Err(UnimplementedMode)
  }

  /** `checkOpen()`: a closed connection in Lazy mode takes its lazy mode and
      creates its delegate; anything else is left alone. */
  function CheckOpen(c: Conn): (r: Result<Conn, ConnError>)
    ensures !c.isOpen && c.mode == Lazy ==>
              r == CreateDelegate(c.(mode := c.lazyMode))
    ensures c.isOpen || c.mode != Lazy ==> r == Ok(c)
    ensures r.Ok? && !c.isOpen && c.mode == Lazy ==>
              r.value.isOpen && r.value.mode == c.lazyMode && r.value.delegate.Some?
  {
    if !c.isOpen && c.mode == Lazy then CreateDelegate(c.(mode := c.lazyMode))
    else Ok(c)
  }

  /** The constructors: the mode string is looked up (lazy mode Read for file
      and text connections, ReadBinary for gzfile) and the delegate is created
      at once unless the mode is Lazy. */
  function NewConnection(k: Kind, modeString: string): (r: Result<Conn, ConnError>)
    ensures GetOpenMode(modeString).Err? ==> r == Err(InvalidArgument)
    ensures r.Ok? ==> r.value.kind == k && r.value.lazyMode == DelegateMode(k)
    ensures r.Ok? && modeString == "" ==> !r.value.isOpen && r.value.mode == Lazy && r.value.delegate.None?
    ensures r.Ok? && modeString != "" ==> r.value.isOpen && r.value.mode == DelegateMode(k)
  {
    match GetOpenMode(modeString)
    case Err(e) => Err(e)
    case Ok(m) =>
      var c := Conn(k, false, m, DelegateMode(k), [], None);
      if m != Lazy then CreateDelegate(c) else Ok(c)
  }

  /** A lazily opened text connection is open after `checkOpen` and reads its
      lines from the first. */
  lemma LazyTextConnectionOpens(lines: seq<string>)
    ensures NewConnection(TextKind(lines), "").Ok?
    ensures var c := NewConnection(TextKind(lines), "").value;
            CheckOpen(c) == Ok(Conn(TextKind(lines), true, Read, Read, ["textConnection", "connection"],
                                    Some(TextDelegate(TextReader(lines, 0)))))
  {
    GetOpenModeExact("", Lazy);
  }

  /** A text connection as its constructor and `checkOpen` leave it: lazy and
      without a delegate, or with a text reader over its own lines. */
  predicate TextConnOk(c: Conn) {
    c.kind.TextKind? &&
    ((!c.isOpen && c.mode == Lazy && c.delegate.None?) ||
     (c.mode != Lazy && c.delegate.Some? && c.delegate.value.TextDelegate? &&
      c.delegate.value.reader.lines == c.kind.lines && ValidReader(c.delegate.value.reader)))
  }

  /** Text connections built by the constructor are well formed. */
  lemma NewTextConnectionOk(lines: seq<string>, modeString: string)
    requires NewConnection(TextKind(lines), modeString).Ok?
    ensures TextConnOk(NewConnection(TextKind(lines), modeString).value)
  {
  }

  /** `readLines(n)` on a text connection: `checkOpen`, then the delegate's read. */
  function ConnReadLines(c: Conn, n: int): (r: Result<(seq<string>, Conn), ConnError>)
    requires TextConnOk(c)
    ensures r.Err? <==> !c.isOpen && c.mode == Lazy && c.lazyMode != Read
    ensures r.Ok? ==> TextConnOk(r.value.1) && r.value.1.delegate.Some?
    ensures r.Ok? && c.delegate.Some? ==>
              (r.value.0, r.value.1.delegate.value.reader) == TextReadLines(c.delegate.value.reader, n)
    ensures r.Ok? && c.delegate.None? ==>
              (r.value.0, r.value.1.delegate.value.reader) == TextReadLines(TextReader(c.kind.lines, 0), n)
  {
    match CheckOpen(c)
    case Err(e) => Err(e)
    case Ok(c1) =>
      var (got, rd') := TextReadLines(c1.delegate.value.reader, n);
      Ok((got, c1.(delegate := Some(TextDelegate(rd')))))
  }

  /** The lines a well-formed text connection has yet to deliver: those after
      its reader's cursor, or all of them before it is first opened. */
  function Pending(c: Conn): seq<string>
    requires TextConnOk(c)
  {
    if c.delegate.Some? then c.delegate.value.reader.lines[c.delegate.value.reader.index..] else c.kind.lines
  }

  /** A lazy connection whose lazy mode the text delegate cannot open. */
  predicate OpenFails(c: Conn) {
    !c.isOpen && c.mode == Lazy && c.lazyMode != Read
  }

  /** The `readLines(con, n, ok)` builtin on a text connection: the connection's
      read, then the error for too few lines when `ok` is FALSE. */
  function ReadLinesBuiltin(c: Conn, n: int, ok: Logical): (r: Result<(seq<string>, Conn), ConnError>)
    requires TextConnOk(c)
    ensures OpenFails(c) ==> r == Err(UnimplementedMode)
    ensures r == Err(TooFewLines) <==> !OpenFails(c) && n > 0 && |Pending(c)| < n && ok == FALSE
    ensures r.Ok? ==> var (got, c') := r.value;
              |got| == (if n > 0 && n < |Pending(c)| then n else |Pending(c)|) &&
              got == Pending(c)[..|got|] &&
              TextConnOk(c') && c'.delegate.Some? && Pending(c') == Pending(c)[|got|..]
  {
    match ConnReadLines(c, n)
    case Err(e) => Err(e)
    case Ok((got, c')) =>
      if n > 0 && |got| < n && ok == FALSE then Err(TooFewLines) else Ok((got, c'))
  }

  /** The `readLines` builtin on an open text connection at cursor `index`:
      the too-few-lines error is raised exactly when fewer than `n > 0` lines
      remain and `ok` is FALSE. */
  lemma ReadLinesBuiltinOnText(lines: seq<string>, index: nat, n: int, ok: Logical)
    requires index <= |lines|
    ensures var c := Conn(TextKind(lines), true, Read, Read, ["textConnection", "connection"],
                          Some(TextDelegate(TextReader(lines, index))));
            var r := ConnReadLines(c, n);
            r.Ok? &&
            (ReadLinesBuiltin(c, n, ok) == Err(TooFewLines) <==> n > 0 && |lines| - index < n && ok == FALSE)
  {
  }
}

=== FILE: console_input.dfy ===
/** The byte stream `ConsoleHandler.createInputStream` builds over `readLine`:
    each line's UTF-8 bytes, then a `'\n'`, and -1 once no line is left. */
module ConsoleInput {
  import opened Results
  import opened Bytes

  /** The value returned for the line terminator, `'\n'`. */
  const NEWLINE: int := 10

  /** The value returned at the end of input. */
  const EOF: int := -1

  /** The stream's fields `buffer` (the current line's bytes, or null) and
      `pos`, together with the lines `readLine` has still to deliver. */
  datatype Stream = Stream(buffer: Option<seq<Byte>>, pos: int, lines: seq<seq<Byte>>)

  /** `pos` stays within the current line, its end included. */
  predicate Valid(s: Stream) {
    s.buffer.Some? ==> 0 <= s.pos <= |s.buffer.value|
  }

  /** A fresh stream: no buffer and `pos == -1`. */
  function Open(lines: seq<seq<Byte>>): (s: Stream)
    ensures Valid(s) && s.buffer.None? && s.lines == lines
  {
    Stream(None, -1, lines)
  }

  /** What one `read()` delivers, before it is widened to an `int`. */
  datatype Out = EndOfInput | Newline | ByteOut(b: Byte)

  /** One `read()`: fetch a line when there is no buffer (and report the end
      when there is none), end the line with `'\n'` and drop the buffer, or
      deliver the next byte. */
  function Next(s: Stream): (r: (Out, Stream))
    requires Valid(s)
    ensures Valid(r.1)
    ensures r.0.EndOfInput? <==> s.buffer.None? && |s.lines| == 0
    ensures r.0.EndOfInput? ==> r.1.buffer.None? && r.1.lines == []
    ensures r.0.Newline? <==>
              (s.buffer.Some? && s.pos == |s.buffer.value|) ||
              (s.buffer.None? && |s.lines| > 0 && s.lines[0] == [])
    ensures r.0.Newline? ==> r.1.buffer.None?
    ensures r.0.ByteOut? ==> r.1.buffer.Some? && 0 < r.1.pos <= |r.1.buffer.value| &&
                             r.0.b == r.1.buffer.value[r.1.pos - 1]
  {
    if s.buffer.None? && |s.lines| == 0 then (EndOfInput, s.(pos := 0))
    else
      var buf := if s.buffer.Some? then s.buffer.value else s.lines[0];
      var pos := if s.buffer.Some? then s.pos else 0;
      var rest := if s.buffer.Some? then s.lines else s.lines[1..];
      if pos == |buf| then (Newline, Stream(None, pos, rest))
      else (ByteOut(buf[pos]), Stream(Some(buf), pos + 1, rest))
  }

  /** The `int` the `InputStream` contract asks for: the byte as unsigned. */
  function Widened(o: Out): (v: int)
    ensures -1 <= v < 256
    ensures v == EOF <==> o.EndOfInput?
  {
    match o
    case EndOfInput => EOF
    case Newline => NEWLINE
    case ByteOut(b) => b
  }

  /** `read()` as written: `buffer[pos++]` is a Java `byte`, so it widens with its sign. */
  function WidenedAsWritten(o: Out): (v: int)
    ensures -128 <= v < 128
    ensures o.ByteOut? ==> v % 256 == o.b
  {
    match o
    case EndOfInput => EOF
    case Newline => NEWLINE
    case ByteOut(b) => SignedValue(b)
  }

  /** `read()` as written. */
  function ReadAsWritten(s: Stream): (r: (int, Stream))
    requires Valid(s)
    ensures Valid(r.1) && r.1 == Next(s).1
    ensures -128 <= r.0 < 128
  {
    var (o, s') := Next(s);
    (WidenedAsWritten(o), s')
  }

  /** `read()` with the byte taken as unsigned, as `InputStream.read` promises:
      a value in `[0, 255]`, or -1 exactly at the end of input. */
  function Read(s: Stream): (r: (int, Stream))
    requires Valid(s)
    ensures Valid(r.1) && r.1 == Next(s).1
    ensures -1 <= r.0 < 256
    ensures r.0 == EOF <==> s.buffer.None? && |s.lines| == 0
  {
    var (o, s') := Next(s);
    (Widened(o), s')
  }

  /** The two agree on every byte below 128, and the signed value always
      determines the unsigned one. */
  lemma AsWrittenDiffersOnlyAboveAscii(s: Stream)
    requires Valid(s)
    ensures ReadAsWritten(s).0 == Read(s).0 <==> !(Next(s).0.ByteOut? && Next(s).0.b >= 128)
    ensures Next(s).0.ByteOut? ==> ReadAsWritten(s).0 % 256 == Read(s).0
  {
  }

  /** The values of `n` successive reads. */
  function ReadMany(s: Stream, n: nat): (r: seq<int>)
    requires Valid(s)
    ensures |r| == n
    decreases n
  {
    if n == 0 then []
    else
      var (v, s') := Read(s);
      [v] + ReadMany(s', n - 1)
  }

  /** The bytes the lines stand for: each line followed by its `'\n'`. */
  function Terminated(lines: seq<seq<Byte>>): seq<int> {
    if |lines| == 0 then [] else lines[0] + [NEWLINE] + Terminated(lines[1..])
  }

  /** From the middle of a line: the rest of it, its `'\n'`, the later lines, then -1. */
  lemma {:induction false} ReadsFromLine(buf: seq<Byte>, p: nat, rest: seq<seq<Byte>>)
    requires p <= |buf|
    ensures ReadMany(Stream(Some(buf), p, rest), |buf| - p + 1 + |Terminated(rest)| + 1)
         == buf[p..] + [NEWLINE] + Terminated(rest) + [EOF]
    decreases |rest|, 1, |buf| - p
  {
    var s := Stream(Some(buf), p, rest);
    var n := |buf| - p + 1 + |Terminated(rest)| + 1;
    if p == |buf| {
      assert Read(s) == (NEWLINE, Stream(None, p, rest));
      ReadsFromLineStart(p, rest);
      assert buf[p..] == [];
    } else {
      assert Read(s) == (buf[p], Stream(Some(buf), p + 1, rest));
      ReadsFromLine(buf, p + 1, rest);
      assert buf[p..] == [buf[p]] + buf[p + 1..];
    }
  }

  /** Between lines: every remaining line with its `'\n'`, then -1. */
  lemma {:induction false} ReadsFromLineStart(pos: int, lines: seq<seq<Byte>>)
    ensures ReadMany(Stream(None, pos, lines), |Terminated(lines)| + 1) == Terminated(lines) + [EOF]
    decreases |lines|, 0, 0
  {
    var s := Stream(None, pos, lines);
    if |lines| == 0 {
      assert ReadMany(s, 1) == [EOF] + ReadMany(Read(s).1, 0);
    } else {
      var buf := lines[0];
      assert Next(s) == Next(Stream(Some(buf), 0, lines[1..]));
      ReadsFromLine(buf, 0, lines[1..]);
      assert buf[0..] == buf;
    }
  }

  /** A fresh stream over `L1 .. Lk` reads the bytes of `L1`, `'\n'`, ...,
      the bytes of `Lk`, `'\n'`, and then -1. */
  lemma ReadsAllLines(lines: seq<seq<Byte>>)
    ensures ReadMany(Open(lines), |Terminated(lines)| + 1) == Terminated(lines) + [EOF]
  {
    ReadsFromLineStart(-1, lines);
  }

  /** At the end of input the buffer stays null, so every later read asks
      `readLine` again and answers -1 again. */
  lemma {:induction false} EndOfInputRepeats(s: Stream, n: nat)
    requires Valid(s) && s.buffer.None? && s.lines == []
    ensures ReadMany(s, n) == seq(n, _ => EOF)
    decreases n
  {
    if n > 0 {
      EndOfInputRepeats(Read(s).1, n - 1);
    }
  }

  /** An empty line reads as a lone `'\n'`. */
  lemma EmptyLineIsNewline(pos: int, rest: seq<seq<Byte>>)
    ensures Read(Stream(None, pos, [[]] + rest)) == (NEWLINE, Stream(None, 0, rest))
  {
  }

  /** The line "é" is the UTF-8 bytes C3 A9: as written, its first read
      returns -61, outside the `[0, 255]` an `InputStream` promises. */
  lemma NonAsciiReadsNegative()
    ensures ReadAsWritten(Open([[0xC3, 0xA9]])).0 == -61
    ensures Read(Open([[0xC3, 0xA9]])).0 == 0xC3
  {
  }
}

=== FILE: draws.dfy ===
/** The uniform draw source, modelled as the sequence of values `unif_rand`
    returns, in call order. A sampler consumes a prefix and hands back the rest. */
module Draws {

  /** Every draw lies in the half-open unit interval. */
  predicate UnitDraws(draws: seq<real>) {
    forall i :: 0 <= i < |draws| ==> 0.0 <= draws[i] < 1.0
  }

  /** `(int) (n * u)`: for non-negative arguments the Java cast truncates,
      which is the floor. */
  function Pick(n: nat, u: real): (j: nat)
    requires n > 0 && 0.0 <= u < 1.0
    ensures j < n
    ensures j as real <= n as real * u < j as real + 1.0
  {
    ProductBelow(n, u);
    (n as real * u).Floor
  }

  lemma ProductBelow(n: nat, u: real)
    requires n > 0 && 0.0 <= u < 1.0
    ensures 0.0 <= n as real * u < n as real
  {
  }
}

=== FILE: java_ints.dfy ===
/** The pieces of Java integer arithmetic the model needs written out. */
module JavaInts {

  /** `RRuntime.INT_NA`: R's integer NA is the most negative 32-bit int. */
  const NA_INTEGER: int := -0x8000_0000

  predicate IsInt32(v: int) {
    -0x8000_0000 <= v < 0x8000_0000
  }

  /** Java's `/` on ints, which truncates toward zero (Dafny's `/` is Euclidean);
      only positive divisors occur in the model. The remainder takes the sign of `a`. */
  function JavaDiv(a: int, b: int): (q: int)
    requires b > 0
    ensures 0 <= a ==> 0 <= a - q * b < b
    ensures a < 0 ==> -b < a - q * b <= 0
  {
    if a >= 0 then a / b else -((-a) / b)
  }
}

=== FILE: list_to_env.dfy ===
/** `list2env(x, envir)`: the named list's elements bound in the environment,
    scanned from the last element to the first so that, among equal names,
    the last one wins, and a name already bound is left alone. */
module ListToEnv {
  import opened Results

  /** A list as the builtin sees it: its elements and its names attribute
      (absent, or one name per element). */
  datatype RList<V> = RList(values: seq<V>, names: Option<seq<string>>)

  /** The first argument: a list, or any other value. */
  datatype Arg<V> = ListArg(list: RList<V>) | NotAList

  /** The errors `list2env` raises. */
  datatype ListToEnvError = NamesSameLength | ZeroLengthVariable | FirstArgumentNotNamedList

  /** The environment after the call, and the error that ended it, if any: an
      error raised part way leaves the bindings made before it in place. */
  datatype Outcome<V> = Outcome(env: map<string, V>, error: Option<ListToEnvError>)

  /** The highest index carrying the name `k`. */
  function LastIndex(names: seq<string>, k: string): (i: nat)
    requires k in names
    ensures i < |names| && names[i] == k
    ensures forall j :: i < j < |names| ==> names[j] != k
  {
    if names[|names| - 1] == k then |names| - 1
    else LastIndex(names[..|names| - 1], k)
  }

  /** The loop of `doList2Env` over the first `|values|` elements, from the
      last to the first. */
  function Scan<V>(values: seq<V>, names: seq<string>, env: map<string, V>): (r: Outcome<V>)
    requires |names| == |values|
    ensures forall k :: k in env ==> k in r.env && r.env[k] == env[k]
    ensures forall k :: k in r.env ==> k in env || k in names
    decreases |values|
  {
    if |values| == 0 then Outcome(env, None)
    else
      var i := |values| - 1;
      if names[i] == "" then Outcome(env, Some(ZeroLengthVariable))
      else
        var env' := if names[i] in env then env else env[names[i] := values[i]];
        Scan(values[..i], names[..i], env')
  }

  /** `doList2Env` and its fallback. */
  function ListToEnv<V>(x: Arg<V>, env: map<string, V>): (r: Outcome<V>)
    requires x.ListArg? && x.list.names.Some? ==> |x.list.names.value| == |x.list.values|
    ensures x.NotAList? ==> r == Outcome(env, Some(FirstArgumentNotNamedList))
    ensures x.ListArg? && x.list.names.None? ==> r == Outcome(env, Some(NamesSameLength))
    ensures r.error.None? ==> x.ListArg? && x.list.names.Some? && "" !in x.list.names.value
  {
    match x
    case NotAList => Outcome(env, Some(FirstArgumentNotNamedList))
    case ListArg(RList(values, names)) =>
      match names
      case None => Outcome(env, Some(NamesSameLength))
      case Some(ns) =>
        ScanErrorsOnEmptyName(values, ns, env);
        Scan(values, ns, env)
  }

  // ---- An independent description of the result ----

  /** The names carried by some element. */
  function NameSet(names: seq<string>): set<string> {
    set k | k in names
  }

  /** What the bindings should be: what `env` already binds stays, and every
      other name is bound to the value at the highest index carrying it. */
  function Expected<V>(values: seq<V>, names: seq<string>, env: map<string, V>): (m: map<string, V>)
    requires |names| == |values|
  {
    map k | k in env.Keys + NameSet(names) ::
      if k in env then env[k] else values[LastIndex(names, k)]
  }

  /** The scan errors exactly when some name is empty. */
  lemma {:induction false} ScanErrorsOnEmptyName<V>(values: seq<V>, names: seq<string>, env: map<string, V>)
    requires |names| == |values|
    ensures Scan(values, names, env).error.Some? <==> "" in names
    ensures Scan(values, names, env).error.Some? ==> Scan(values, names, env).error == Some(ZeroLengthVariable)
    decreases |values|
  {
    if |values| > 0 {
      var i := |values| - 1;
      assert names == names[..i] + [names[i]];
      if names[i] != "" {
        var env' := if names[i] in env then env else env[names[i] := values[i]];
        ScanErrorsOnEmptyName(values[..i], names[..i], env');
      }
    }
  }

  /** Binding the last element first, unless its name is already bound,
      leaves the same expected result for the elements before it. */
  lemma ExpectedStep<V>(values: seq<V>, names: seq<string>, env: map<string, V>)
    requires |names| == |values| > 0
    ensures var i, n := |values| - 1, names[|values| - 1];
            var env' := if n in env then env else env[n := values[i]];
            Expected(values[..i], names[..i], env') == Expected(values, names, env)
  {
    var i, n := |values| - 1, names[|values| - 1];
    var env' := if n in env then env else env[n := values[i]];
    var initNames := names[..i];
    assert names == initNames + [n];
    assert NameSet(names) == NameSet(initNames) + {n};
    var e, e' := Expected(values, names, env), Expected(values[..i], initNames, env');
    assert e'.Keys == e.Keys;
    forall k | k in e.Keys
      ensures e'[k] == e[k]
    {
      if k !in env && k != n {
        assert LastIndex(names, k) == LastIndex(initNames, k);
      }
    }
  }

  /** Without empty names, the scan binds exactly the expected values. */
  lemma {:induction false} ScanMeetsExpected<V>(values: seq<V>, names: seq<string>, env: map<string, V>)
    requires |names| == |values| && "" !in names
    ensures Scan(values, names, env) == Outcome(Expected(values, names, env), None)
    decreases |values|
  {
    if |values| == 0 {
      assert Expected(values, names, env) == env;
    } else {
      var i, n := |values| - 1, names[|values| - 1];
      var env' := if n in env then env else env[n := values[i]];
      assert n in names;
      assert "" !in names[..i] by {
        forall k | 0 <= k < i ensures names[..i][k] != "" {
          assert names[..i][k] == names[k];
        }
      }
      ScanMeetsExpected(values[..i], names[..i], env');
      ExpectedStep(values, names, env);
    }
  }

  /** The properties of a successful call: existing bindings are never
      overwritten, and every name not bound before ends up bound to the value
      at the highest index carrying it. */
  lemma ListToEnvBinds<V>(values: seq<V>, names: seq<string>, env: map<string, V>)
    requires |names| == |values|
    requires ListToEnv(ListArg(RList(values, Some(names))), env).error.None?
    ensures var r := ListToEnv(ListArg(RList(values, Some(names))), env).env;
            (forall k :: k in env ==> k in r && r[k] == env[k]) &&
            (forall i :: 0 <= i < |names| && names[i] !in env ==>
               names[i] in r && r[names[i]] == values[LastIndex(names, names[i])]) &&
            (forall k :: k in r ==> k in env || k in names)
  {
    ListToEnvScans(values, names, env);
    ScanMeetsExpected(values, names, env);
  }

  /** Scanning `a + b` scans `b` first and, unless that fails, goes on
      with `a` in the environment `b` left. */
  lemma {:induction false} ScanSplit<V>(a: seq<V>, na: seq<string>, b: seq<V>, nb: seq<string>, env: map<string, V>)
    requires |na| == |a| && |nb| == |b|
    ensures var rb := Scan(b, nb, env);
            Scan(a + b, na + nb, env) == if rb.error.Some? then rb else Scan(a, na, rb.env)
    decreases |b|
  {
    if |b| == 0 {
      assert a + b == a && na + nb == na;
    } else {
      var i := |b| - 1;
      assert (a + b)[..|a| + i] == a + b[..i];
      assert (na + nb)[..|na| + i] == na + nb[..i];
      if nb[i] != "" {
        var env' := if nb[i] in env then env else env[nb[i] := b[i]];
        ScanSplit(a, na, b[..i], nb[..i], env');
      }
    }
  }

  /** A scan whose last name is empty fails at once. */
  lemma ScanStopsAtEmptyName<V>(values: seq<V>, names: seq<string>, env: map<string, V>)
    requires |names| == |values| > 0 && names[|names| - 1] == ""
    ensures Scan(values, names, env) == Outcome(env, Some(ZeroLengthVariable))
  {
  }

  /** The names after the last empty one are all non-empty. */
  lemma AfterLastEmpty(names: seq<string>)
    requires "" in names
    ensures "" !in names[LastIndex(names, "") + 1..]
  {
    var j := LastIndex(names, "");
    var after := names[j + 1..];
    forall k | 0 <= k < |after|
      ensures after[k] != ""
    {
      assert after[k] == names[j + 1 + k];
    }
  }

  /** An empty name stops the scan there: the bindings for every higher index
      have been made and stay, and none for lower ones are. */
  lemma EmptyNameKeepsLaterBindings<V>(values: seq<V>, names: seq<string>, env: map<string, V>)
    requires |names| == |values| && "" in names
    ensures var j := LastIndex(names, "");
            ListToEnv(ListArg(RList(values, Some(names))), env)
              == Outcome(Expected(values[j + 1..], names[j + 1..], env), Some(ZeroLengthVariable))
  {
    ListToEnvScans(values, names, env);
    ScanEmptyName(values, names, env);
  }

  /** With names, the builtin is the scan. */
  lemma ListToEnvScans<V>(values: seq<V>, names: seq<string>, env: map<string, V>)
    requires |names| == |values|
    ensures ListToEnv(ListArg(RList(values, Some(names))), env) == Scan(values, names, env)
  {
  }

  lemma ScanEmptyName<V>(values: seq<V>, names: seq<string>, env: map<string, V>)
    requires |names| == |values| && "" in names
    ensures var j := LastIndex(names, "");
            Scan(values, names, env)
              == Outcome(Expected(values[j + 1..], names[j + 1..], env), Some(ZeroLengthVariable))
  {
    var j := LastIndex(names, "");
    var a, b := values[..j + 1], values[j + 1..];
    var na, nb := names[..j + 1], names[j + 1..];
    assert a + b == values && na + nb == names;
    AfterLastEmpty(names);
    ScanMeetsExpected(b, nb, env);
    ScanSplit(a, na, b, nb, env);
    ScanStopsAtEmptyName(a, na, Expected(b, nb, env));
  }
}

=== FILE: logicals.dfy ===
/** R's three-valued logical type (a `byte` in the runtime: TRUE, FALSE or NA). */
module Logicals {

  datatype Logical = TRUE | FALSE | NA

  /** The logical value of a Java boolean (`RRuntime.asLogical`). */
  function AsLogical(b: bool): (r: Logical)
    ensures r != NA
    ensures (r == TRUE) == b
  {
    if b then TRUE else FALSE
  }
}

=== FILE: quantifier.dfy ===
/** The fold behind `any` and `all` (`Quantifier`): three-valued logicals,
    a decisive value that ends the scan, and NA that is remembered unless
    `na.rm` is set. `emptyResult` is the answer for no elements: FALSE for
    `any`, TRUE for `all`. */
module Quantifier {
  import opened Logicals

  /** An argument after the logical cast: NULL, a single logical, or a logical vector. */
  datatype Arg = NullArg | Scalar(b: Logical) | Vector(bs: seq<Logical>)

  /** The call's argument: NULL, missing, or the `...` list. */
  datatype Input = NullInput | Missing | Args(args: seq<Arg>)

  /** `MAX_CACHED_LENGTH`: argument lists shorter than this take the cached-length path. */
  const MAX_CACHED_LENGTH: nat := 10

  /** The value that settles the answer: `!emptyResult`. */
  function Decisive(emptyResult: bool): (d: Logical)
    ensures d != NA && (d == TRUE) == !emptyResult
  {
    AsLogical(!emptyResult)
  }

  /** The logicals an argument contributes, in scan order. */
  function Elements(a: Arg): seq<Logical> {
    match a
    case NullArg => []
    case Scalar(b) => [b]
    case Vector(bs) => bs
  }

  /** The scan of `processArgument` over `bs` with the running result `acc`. */
  function ScanElements(bs: seq<Logical>, naRm: bool, emptyResult: bool, acc: Logical): Logical
  {
    if |bs| == 0 then acc
    else if !naRm && bs[0] == NA then ScanElements(bs[1..], naRm, emptyResult, NA)
    else if bs[0] == Decisive(emptyResult) then Decisive(emptyResult)
    else ScanElements(bs[1..], naRm, emptyResult, acc)
  }

  /** `processArgument(argValue, index, naRm)`. */
  function ProcessArgument(a: Arg, naRm: bool, emptyResult: bool): Logical {
    ScanElements(Elements(a), naRm, emptyResult, AsLogical(emptyResult))
  }

  /** The loop over the arguments in both `op` specialisations for `...`. */
  function ScanArgs(args: seq<Arg>, naRm: bool, emptyResult: bool, acc: Logical): Logical
  {
    if |args| == 0 then acc
    else
      var v := ProcessArgument(args[0], naRm, emptyResult);
      if v == Decisive(emptyResult) then Decisive(emptyResult)
      else if v == NA then ScanArgs(args[1..], naRm, emptyResult, NA)
      else ScanArgs(args[1..], naRm, emptyResult, acc)
  }


  // ---- An independent description of the answer ----

  /** Every element of every argument, in scan order. */
  function AllElements(args: seq<Arg>): seq<Logical> {
    if |args| == 0 then [] else Elements(args[0]) + AllElements(args[1..])
  }

  /** What `any`/`all` mean: the decisive value if one occurs; otherwise NA if
      an NA occurs and is not removed; otherwise the empty-vector result. */
  function Expected(args: seq<Arg>, naRm: bool, emptyResult: bool): Logical {
    var all := AllElements(args);
    if Decisive(emptyResult) in all then Decisive(emptyResult)
    else if !naRm && NA in all then NA
    else AsLogical(emptyResult)
  }

  /** The element scan returns the decisive value exactly when one occurs;
      otherwise NA when a kept NA occurs, else the running result. */
  lemma {:induction false} ScanElementsMeaning(bs: seq<Logical>, naRm: bool, emptyResult: bool, acc: Logical)
    requires acc != Decisive(emptyResult)
    ensures ScanElements(bs, naRm, emptyResult, acc) ==
              if Decisive(emptyResult) in bs then Decisive(emptyResult)
              else if !naRm && NA in bs then NA
              else acc
  {
    if |bs| > 0 {
      assert bs == [bs[0]] + bs[1..];
      if !naRm && bs[0] == NA {
        ScanElementsMeaning(bs[1..], naRm, emptyResult, NA);
      } else if bs[0] != Decisive(emptyResult) {
        ScanElementsMeaning(bs[1..], naRm, emptyResult, acc);
      }
    }
  }

  /** The argument scan agrees with the independent description. */
  lemma {:induction false} ScanArgsMeaning(args: seq<Arg>, naRm: bool, emptyResult: bool, acc: Logical)
    requires acc == AsLogical(emptyResult) || (acc == NA && !naRm)
    ensures ScanArgs(args, naRm, emptyResult, acc) ==
              if Decisive(emptyResult) in AllElements(args) then Decisive(emptyResult)
              else if !naRm && (NA in AllElements(args) || acc == NA) then NA
              else acc
  {
    if |args| > 0 {
      ScanElementsMeaning(Elements(args[0]), naRm, emptyResult, AsLogical(emptyResult));
      var v := ProcessArgument(args[0], naRm, emptyResult);
      if v != Decisive(emptyResult) {
        ScanArgsMeaning(args[1..], naRm, emptyResult, if v == NA then NA else acc);
      }
    }
  }

  /** The builtin's answer for its input: the empty-vector result for NULL or a
      missing argument, and otherwise the answer `any`/`all` are meant to give
      over `...`: decisive value first, then a kept NA, then the empty-vector
      result. */
  function Quantify(input: Input, naRm: bool, emptyResult: bool): (r: Logical)
    ensures input.NullInput? || input.Missing? ==> r == AsLogical(emptyResult)
    ensures input.Args? ==> r == Expected(input.args, naRm, emptyResult)
  {
    match input
    case NullInput => AsLogical(emptyResult)
    case Missing => AsLogical(emptyResult)
    case Args(args) =>
      ScanArgsMeaning(args, naRm, emptyResult, AsLogical(emptyResult));
      ScanArgs(args, naRm, emptyResult, AsLogical(emptyResult))
  }

  /** The elements that are not NA. */
  function WithoutNA(s: seq<Logical>): (r: seq<Logical>)
    ensures NA !in r
  {
    if |s| == 0 then []
    else (if s[0] == NA then [] else [s[0]]) + WithoutNA(s[1..])
  }

  lemma {:induction false} WithoutNAKeepsOthers(s: seq<Logical>, x: Logical)
    requires x != NA
    ensures x in WithoutNA(s) <==> x in s
  {
    if |s| > 0 {
      assert s == [s[0]] + s[1..];
      WithoutNAKeepsOthers(s[1..], x);
    }
  }

  /** With `na.rm`, NA elements never affect the answer: argument lists whose
      elements agree apart from NAs give the same answer. */
  lemma NaRmIgnoresNA(args: seq<Arg>, args': seq<Arg>, emptyResult: bool)
    requires WithoutNA(AllElements(args)) == WithoutNA(AllElements(args'))
    ensures Quantify(Args(args), true, emptyResult) == Quantify(Args(args'), true, emptyResult)
  {
    WithoutNAKeepsOthers(AllElements(args), Decisive(emptyResult));
    WithoutNAKeepsOthers(AllElements(args'), Decisive(emptyResult));
  }

  /** NULL arguments contribute nothing: removing one leaves the answer unchanged. */
  lemma NullArgsAreSkipped(args: seq<Arg>, i: nat, naRm: bool, emptyResult: bool)
    requires i < |args| && args[i] == NullArg
    ensures Quantify(Args(args), naRm, emptyResult) == Quantify(Args(args[..i] + args[i + 1..]), naRm, emptyResult)
  {
    AllElementsSkipsNull(args, i);
  }

  lemma {:induction false} AllElementsSkipsNull(args: seq<Arg>, i: nat)
    requires i < |args| && args[i] == NullArg
    ensures AllElements(args) == AllElements(args[..i] + args[i + 1..])
  {
    if i > 0 {
      AllElementsSkipsNull(args[1..], i - 1);
      assert args[1..][..i - 1] + args[1..][i..] == (args[..i] + args[i + 1..])[1..];
    } else {
      assert args[..i] + args[i + 1..] == args[1..];
    }
  }

  /** `opCachedLength`: one cast node per position, the loop unrolled over the
      cached length. */
  method OpCachedLength(args: seq<Arg>, naRm: bool, emptyResult: bool) returns (r: Logical)
    requires |args| < MAX_CACHED_LENGTH
    ensures r == Expected(args, naRm, emptyResult)
  {
    ScanArgsMeaning(args, naRm, emptyResult, AsLogical(emptyResult));
    r := AsLogical(emptyResult);
    var i := 0;
    while i < |args|
      invariant i <= |args|
      invariant r == AsLogical(emptyResult) || (r == NA && !naRm)
      invariant ScanArgs(args[i..], naRm, emptyResult, r) == ScanArgs(args, naRm, emptyResult, AsLogical(emptyResult))
    {
      var v := ProcessArgumentLoop(args[i], naRm, emptyResult);
      assert args[i..][1..] == args[i + 1..];
      if v == Decisive(emptyResult) {
        return v;
      } else if v == NA {
        r := NA;
      }
      i := i + 1;
    }
  }

  /** The generic `op` over `...`, taken once the cached-length path is replaced. */
  method Op(args: seq<Arg>, naRm: bool, emptyResult: bool) returns (r: Logical)
    ensures r == Expected(args, naRm, emptyResult)
  {
    ScanArgsMeaning(args, naRm, emptyResult, AsLogical(emptyResult));
    r := AsLogical(emptyResult);
    for i := 0 to |args|
      invariant r == AsLogical(emptyResult) || (r == NA && !naRm)
      invariant ScanArgs(args[i..], naRm, emptyResult, r) == ScanArgs(args, naRm, emptyResult, AsLogical(emptyResult))
    {
      var v := ProcessArgumentLoop(args[i], naRm, emptyResult);
      assert args[i..][1..] == args[i + 1..];
      if v == Decisive(emptyResult) {
        return v;
      } else if v == NA {
        r := NA;
      }
    }
  }

  /** `processArgument` as the loop it is. */
  method ProcessArgumentLoop(a: Arg, naRm: bool, emptyResult: bool) returns (r: Logical)
    ensures r == ProcessArgument(a, naRm, emptyResult)
    ensures r == AsLogical(emptyResult) || r == Decisive(emptyResult) || (r == NA && !naRm)
  {
    var bs := Elements(a);
    r := AsLogical(emptyResult);
    var i := 0;
    while i < |bs|
      invariant i <= |bs|
      invariant r == AsLogical(emptyResult) || (r == NA && !naRm)
      invariant ScanElements(bs[i..], naRm, emptyResult, r) == ProcessArgument(a, naRm, emptyResult)
    {
      var b := bs[i];
      assert bs[i..][1..] == bs[i + 1..];
      if !naRm && b == NA {
        r := NA;
      } else if b == Decisive(emptyResult) {
        return Decisive(emptyResult);
      }
      i := i + 1;
    }
  }
}

=== FILE: raw_vector.dfy ===
/** The byte storage of raw vectors (`RRawVector`): resizing with zero fill or
    cyclic recycling, dropping an end, copying, and single-element updates. */
module RawVector {
  import opened Bytes

  /** `Utils.incMod(j, n)`: the next index modulo `n`. */
  function IncMod(j: nat, n: nat): (r: nat)
    requires j < n
    ensures r < n && r == (j + 1) % n
  {
    if j + 1 == n then
      ModUnique(j + 1, n, 1, 0);
      0
    else
      ModUnique(j + 1, n, 0, j + 1);
      j + 1
  }

  /** The position `k` steps into an endless repetition of a length-`n` block. */
  function CycleIndex(k: nat, n: nat): (r: nat)
    requires n > 0
    ensures r < n
    decreases k
  {
    if k < n then k else CycleIndex(k - n, n)
  }

  /** Euclidean division has one remainder: `k == q * n + r` with `0 <= r < n`
      fixes `k % n`. */
  lemma ModUnique(k: int, n: int, q: int, r: int)
    requires n > 0 && 0 <= r < n && k == q * n + r
    ensures k % n == r
  {
    var d := q - k / n;
    assert d * n == k % n - r;
  }

  /** Cycling is the remainder. */
  lemma {:induction false} CycleIndexIsMod(k: nat, n: nat)
    requires n > 0
    ensures CycleIndex(k, n) == k % n
    decreases k
  {
    if k >= n {
      CycleIndexIsMod(k - n, n);
      ModUnique(k, n, (k - n) / n + 1, (k - n) % n);
    }
  }

  /** One more step advances the cycle by `incMod`. */
  lemma {:induction false} CycleIndexStep(k: nat, n: nat)
    requires n > 0
    ensures CycleIndex(k + 1, n) == IncMod(CycleIndex(k, n), n)
    decreases k
  {
    if k >= n {
      CycleIndexStep(k - n, n);
    } else if k + 1 == n {
      assert CycleIndex(k + 1, n) == CycleIndex(0, n);
    }
  }

  /** `createResizedData(size, fillNA)`: the first bytes are kept; any new
      position holds 0 (`fillNA`, 0 being the raw NA) or recycles the old bytes
      from the start. Recycling an empty vector into a longer one fails on the
      first read of `data[0]`, so it is excluded. */
  function Resized(data: seq<Byte>, size: nat, fillNA: bool): (r: seq<Byte>)
    requires fillNA || size <= |data| || |data| > 0
    ensures |r| == size
    ensures size <= |data| ==> r == data[..size]
    ensures size > |data| ==> r[..|data|] == data
    ensures fillNA ==> forall i :: |data| <= i < size ==> r[i] == 0
  {
    seq(size, i requires 0 <= i < size =>
      if i < |data| then data[i]
      else if fillNA then 0
      else data[CycleIndex(i - |data|, |data|)])
  }

  /** Recycling repeats the original bytes: position `i` holds `data[i mod len]`,
      so every new position repeats the one `len` places before it. */
  lemma RecyclingIsCyclic(data: seq<Byte>, size: nat, i: nat)
    requires |data| > 0 && i < size
    ensures Resized(data, size, false)[i] == data[i % |data|]
    ensures i >= |data| ==> Resized(data, size, false)[i] == Resized(data, size, false)[i - |data|]
  {
    var n := |data|;
    if i >= n {
      CycleIndexIsMod(i - n, n);
      ModUnique(i, n, (i - n) / n + 1, (i - n) % n);
      if i - n >= n {
        assert CycleIndex(i - n, n) == CycleIndex(i - 2 * n, n);
      } else {
        ModUnique(i - n, n, 0, i - n);
      }
    } else {
      ModUnique(i, n, 0, i);
    }
  }

  /** Resizing to the current length changes nothing. */
  lemma ResizeToSameLength(data: seq<Byte>, fillNA: bool)
    ensures Resized(data, |data|, fillNA) == data
  {
  }

  /** Growing and then shrinking back restores the vector. */
  lemma GrowThenShrink(data: seq<Byte>, size: nat, fillNA: bool)
    requires size >= |data| && (fillNA || size <= |data| || |data| > 0)
    ensures Resized(Resized(data, size, fillNA), |data|, fillNA) == data
  {
  }

  /** `Arrays.copyOf(data, size)`: a new array of length `size`, the common
      prefix copied and the rest 0. */
  method CopyOf(data: array<Byte>, size: nat) returns (newData: array<Byte>)
    ensures fresh(newData) && newData.Length == size
    ensures size <= data.Length ==> newData[..] == data[..size]
    ensures size > data.Length ==> newData[..data.Length] == data[..] &&
                                   forall i :: data.Length <= i < size ==> newData[i] == 0
  {
    newData := new Byte[size](_ => 0);
    var n := if size < data.Length then size else data.Length;
    for i := 0 to n
      invariant newData[..i] == data[..i]
      invariant forall k :: i <= k < size ==> newData[k] == 0
    {
      newData[i] := data[i];
    }
  }

  /** `createResizedData(size, fillNA)` on arrays, with the recycling loop. */
  method CreateResizedData(data: array<Byte>, size: nat, fillNA: bool) returns (newData: array<Byte>)
    requires fillNA || size <= data.Length || data.Length > 0
    ensures fresh(newData)
    ensures newData[..] == Resized(data[..], size, fillNA)
  {
    newData := CopyOf(data, size);
    if !fillNA && size > data.Length {
      var len := data.Length;
      var i := len;
      var j := 0;
      while i < size
        invariant len <= i <= size && j < len
        invariant j == CycleIndex(i - len, len)
        invariant newData[..len] == data[..]
        invariant forall k :: len <= k < i ==> newData[k] == data[CycleIndex(k - len, len)]
      {
        newData[i] := data[j];
        CycleIndexStep(i - len, len);
        i := i + 1;
        j := IncMod(j, len);
      }
    }
  }

  /** `removeLast()`: every byte but the last. */
  function RemoveLast(data: seq<Byte>): (r: seq<Byte>)
    requires |data| > 0
    ensures r + [data[|data| - 1]] == data
  {
    data[..|data| - 1]
  }

  /** `removeFirst()`: every byte but the first. */
  function RemoveFirst(data: seq<Byte>): (r: seq<Byte>)
    requires |data| > 0
    ensures [data[0]] + r == data
  {
    data[1..]
  }

  /** `getDataCopy()`: a fresh array with the same bytes. */
  method GetDataCopy(data: array<Byte>) returns (copy: array<Byte>)
    ensures fresh(copy) && copy[..] == data[..]
  {
    copy := new Byte[data.Length];
    for i := 0 to data.Length
      invariant copy[..i] == data[..i]
    {
      copy[i] := data[i];
    }
  }

  /** `updateDataAt(i, right)`: position `i` takes the new byte, nothing else changes. */
  function UpdateDataAt(data: seq<Byte>, i: nat, v: Byte): (r: seq<Byte>)
    requires i < |data|
    ensures |r| == |data| && r[i] == v
    ensures forall k :: 0 <= k < |data| && k != i ==> r[k] == data[k]
  {
    data[i := v]
  }

  /** Writing back the byte already there is no change; of two writes to the
      same position the later one wins. */
  lemma UpdateDataAtLaws(data: seq<Byte>, i: nat, v: Byte, w: Byte)
    requires i < |data|
    ensures UpdateDataAt(data, i, data[i]) == data
    ensures UpdateDataAt(UpdateDataAt(data, i, v), i, w) == UpdateDataAt(data, i, w)
  {
  }

  /** `transferElementSameType(toIndex, fromVector, fromIndex)`. */
  function TransferElement(to: seq<Byte>, toIndex: nat, from: seq<Byte>, fromIndex: nat): (r: seq<Byte>)
    requires toIndex < |to| && fromIndex < |from|
    ensures |r| == |to| && r[toIndex] == from[fromIndex]
    ensures forall k :: 0 <= k < |to| && k != toIndex ==> r[k] == to[k]
  {
    UpdateDataAt(to, toIndex, from[fromIndex])
  }
}

=== FILE: rcaller.dfy ===
/** The record of a function's caller (`RCaller`): its frame depth, its parent
    caller, and a payload that is the call's syntax, a supplier of it, the
    original caller of a promise being evaluated, or nothing. A calling frame
    is represented by the caller stored in it (`RArguments.getCall`); null
    frames and null callers are `None`. */
module Callers {
  import opened Results

  /** The syntax of a call, by identity. */
  type Syntax = int

  /** What a caller carries. */
  datatype Payload =
    | NoPayload                   // null
    | Node(node: Syntax)          // an `RSyntaxElement`
    | Supplier(supplies: Syntax)  // a `Supplier<RSyntaxElement>`, by what it supplies
    | PromiseOf(original: Caller) // an `RCaller`: a promise evaluation frame

  /** An `RCaller` with its mutable visibility flag as a field. */
  datatype Caller = Caller(depth: int, parent: Option<Caller>, payload: Payload, visibility: bool)

  /** A frame, by the caller stored in its arguments. */
  type Frame = Option<Caller>

  /** `depthFromFrame(callingFrame)`. */
  function DepthFromFrame(frame: Frame): (d: int)
    ensures frame.None? ==> d == 0
    ensures frame.Some? ==> d == frame.value.depth + 1
  {
    match frame
    case None => 0
    case Some(call) => call.depth + 1
  }

  /** `parentFromFrame(callingFrame)`: the caller stored in the frame. */
  function ParentFromFrame(frame: Frame): (p: Option<Caller>)
    ensures p == frame
  {
    frame
  }

  /** The constructor from a calling frame; visibility starts false. */
  function FromFrame(frame: Frame, payload: Payload): (c: Caller)
    ensures c.depth == DepthFromFrame(frame) && c.parent == frame && c.payload == payload
    ensures !c.visibility
  {
    Caller(DepthFromFrame(frame), ParentFromFrame(frame), payload, false)
  }

  /** `isValidCaller()`: the payload is not null. */
  predicate IsValidCaller(c: Caller) {
    !c.payload.NoPayload?
  }

  /** `isPromise()`: the payload is a caller. */
  predicate IsPromise(c: Caller) {
    c.payload.PromiseOf?
  }

  /** `createInvalid(callingFrame)`. */
  function CreateInvalid(frame: Frame): (c: Caller)
    ensures !IsValidCaller(c) && !IsPromise(c)
    ensures c.depth == DepthFromFrame(frame) && c.parent == frame
  {
    FromFrame(frame, NoPayload)
  }

  /** `topLevel`, the caller of the global frame. */
  function TopLevel(): (c: Caller)
    ensures c.depth == 0 && c.parent.None? && !IsValidCaller(c) && !c.visibility
  {
    CreateInvalid(None)
  }

  /** `createInvalid(callingFrame, parent)`: the depth from the frame, the parent given. */
  function CreateInvalidWithParent(frame: Frame, parent: Option<Caller>): (c: Caller)
    ensures !IsValidCaller(c) && c.depth == DepthFromFrame(frame) && c.parent == parent
  {
    Caller(DepthFromFrame(frame), parent, NoPayload, false)
  }

  /** `create(callingFrame, node)` and `create(callingFrame, supplier)`: the call's
      syntax, or a supplier of it, is required to be non-null. */
  function Create(frame: Frame, payload: Payload): (c: Caller)
    requires payload.Node? || payload.Supplier?
    ensures IsValidCaller(c) && !IsPromise(c)
    ensures c.depth == DepthFromFrame(frame) && c.parent == frame
  {
    FromFrame(frame, payload)
  }

  /** `create(callingFrame, parent, node)` and `create(callingFrame, parent, supplier)`. */
  function CreateWithParent(frame: Frame, parent: Option<Caller>, payload: Payload): (c: Caller)
    requires payload.Node? || payload.Supplier?
    ensures IsValidCaller(c) && !IsPromise(c)
    ensures c.depth == DepthFromFrame(frame) && c.parent == parent
  {
    Caller(DepthFromFrame(frame), parent, payload, false)
  }

  /** `create(depth, parent, payload)`: any non-null payload, a caller included. */
  function CreateAt(depth: int, parent: Option<Caller>, payload: Payload): (c: Caller)
    requires !payload.NoPayload?
    ensures IsValidCaller(c) && (IsPromise(c) <==> payload.PromiseOf?)
    ensures c.depth == depth && c.parent == parent
  {
    Caller(depth, parent, payload, false)
  }

  /** `createForPromise(originalCaller, frame)`: the frame's depth, the original
      caller as the parent, and the frame's caller as the payload. */
  function CreateForPromise(originalCaller: Option<Caller>, frame: Frame): (c: Caller)
    ensures c.parent == originalCaller
    ensures frame.None? ==> c.depth == 0 && !IsValidCaller(c) && !IsPromise(c)
    ensures frame.Some? ==> c.depth == frame.value.depth && IsValidCaller(c) && IsPromise(c) &&
                            c.payload.original == frame.value
  {
    match frame
    case None => Caller(0, originalCaller, NoPayload, false)
    case Some(call) => Caller(call.depth, originalCaller, PromiseOf(call), false)
  }

  /** `getSyntaxNode()`, defined for valid callers that are not promises: the
      node, or what the supplier supplies. */
  function GetSyntaxNode(c: Caller): (s: Syntax)
    requires IsValidCaller(c) && !IsPromise(c)
    ensures c.payload.Node? ==> s == c.payload.node
    ensures c.payload.Supplier? ==> s == c.payload.supplies
  {
    match c.payload
    case Node(n) => n
    case Supplier(n) => n
  }

  /** `getPromiseOriginalCall()`, defined for promise callers. */
  function PromiseOriginalCall(c: Caller): (o: Caller)
    requires IsPromise(c)
    ensures c.payload == PromiseOf(o)
  {
    c.payload.original
  }

  /** The parent and the depth read from the same frame agree: the frame's
      caller becomes the parent, one level up, and no frame means no parent at
      depth 0. */
  lemma FrameParentIsOneLevelUp(frame: Frame, payload: Payload)
    ensures ParentFromFrame(frame).None? <==> frame.None?
    ensures DepthFromFrame(frame) == (match ParentFromFrame(frame)
                                      case None => 0
                                      case Some(p) => p.depth + 1)
    ensures var c := FromFrame(frame, payload);
            c.parent == ParentFromFrame(frame) &&
            (c.parent.Some? ==> c.depth == c.parent.value.depth + 1)
  {
  }

  /** Which factories give valid callers: exactly those given a syntax node, a
      supplier or a caller, and the promise factory exactly when it has a frame. */
  lemma ValidityByFactory(frame: Frame, parent: Option<Caller>, original: Option<Caller>, s: Syntax)
    ensures !IsValidCaller(TopLevel())
    ensures !IsValidCaller(CreateInvalid(frame)) && !IsValidCaller(CreateInvalidWithParent(frame, parent))
    ensures IsValidCaller(Create(frame, Node(s))) && IsValidCaller(Create(frame, Supplier(s)))
    ensures IsValidCaller(CreateWithParent(frame, parent, Node(s))) &&
            IsValidCaller(CreateWithParent(frame, parent, Supplier(s)))
    ensures IsValidCaller(CreateForPromise(original, frame)) <==> frame.Some?
  {
  }

  /** Which callers are promises: those the promise factory makes from a frame,
      whose original call is the frame's caller, and those created with a caller
      as payload; no caller made from syntax is one. */
  lemma PromiseByFactory(frame: Frame, parent: Option<Caller>, original: Option<Caller>, call: Caller, depth: int, s: Syntax)
    ensures IsPromise(CreateForPromise(original, frame)) <==> frame.Some?
    ensures PromiseOriginalCall(CreateForPromise(original, Some(call))) == call
    ensures PromiseOriginalCall(CreateAt(depth, parent, PromiseOf(call))) == call
    ensures !IsPromise(Create(frame, Node(s))) && !IsPromise(CreateWithParent(frame, parent, Supplier(s)))
    ensures !IsPromise(CreateAt(depth, parent, Node(s)))
  {
  }

  /** A caller created with a call's syntax, or with a supplier of it, gives that
      syntax back, whichever frame and parent it was created with. */
  lemma SyntaxNodeRoundTrip(frame: Frame, parent: Option<Caller>, s: Syntax)
    ensures GetSyntaxNode(Create(frame, Node(s))) == s
    ensures GetSyntaxNode(Create(frame, Supplier(s))) == s
    ensures GetSyntaxNode(CreateWithParent(frame, parent, Node(s))) == s
    ensures GetSyntaxNode(CreateWithParent(frame, parent, Supplier(s))) == s
    ensures GetSyntaxNode(CreateAt(DepthFromFrame(frame), parent, Node(s))) == s
  {
  }

  /** `setVisibility(v)`. */
  function SetVisibility(c: Caller, v: bool): (c': Caller)
    ensures c'.visibility == v
    ensures c'.depth == c.depth && c'.parent == c.parent && c'.payload == c.payload
  {
    c.(visibility := v)
  }

  /** `getVisibility()` answers the value last set: later sets override earlier ones. */
  lemma VisibilityIsLastSet(c: Caller, v: bool, w: bool)
    ensures SetVisibility(SetVisibility(c, v), w) == SetVisibility(c, w)
    ensures SetVisibility(c, c.visibility) == c
  {
  }

  // ---- Callers built from frames only ----

  /** The number of parents above a caller. */
  function Ancestry(c: Caller): nat
    decreases c
  {
    match c.parent
    case None => 0
    case Some(p) => Ancestry(p) + 1
  }

  /** A caller every one of whose ancestors was made by a frame-based factory:
      no parent at depth 0, otherwise one level below its parent. */
  predicate FrameBuilt(c: Caller)
    decreases c
  {
    match c.parent
    case None => c.depth == 0
    case Some(p) => c.depth == p.depth + 1 && FrameBuilt(p)
  }

  /** The frame-based factories keep a chain frame-built. */
  lemma FrameFactoriesBuildChains(frame: Frame, payload: Payload)
    requires frame.Some? ==> FrameBuilt(frame.value)
    ensures FrameBuilt(CreateInvalid(frame))
    ensures payload.Node? || payload.Supplier? ==> FrameBuilt(Create(frame, payload))
  {
  }

  /** In such a chain the depth counts the parents, so following `parent`
      `depth` times reaches the top. */
  lemma {:induction false} FrameBuiltDepthIsAncestry(c: Caller)
    requires FrameBuilt(c)
    ensures c.depth == Ancestry(c)
    decreases c
  {
    match c.parent
    case None =>
    case Some(p) => FrameBuiltDepthIsAncestry(p);
  }

  /** A promise caller breaks the pattern: its parent is the original caller,
      not the caller of its frame, so its depth need not be one more than its
      parent's. */
  lemma PromiseDepthIsNotParentDepth()
    ensures var top := TopLevel();
            var inner := Create(Some(Create(Some(top), Node(1))), Node(2));
            var promise := CreateForPromise(Some(top), Some(inner));
            promise.depth == 2 && promise.parent == Some(top) && !FrameBuilt(promise)
  {
  }
}

=== FILE: rcommand.dfy ===
/** The launcher's pure helpers (`RCommand`): the command-line argument
    rewrites and the test that lets the read-eval-print loop skip a line. */
module RCommand {

  /** The argument that forces interactive mode. */
  const INTERACTIVE: string := "--interactive"

  /** The escape the R start-up script writes for a space in `-e`/`-f` arguments. */
  const ESCAPED_SPACE: string := "~+~"

  /** `prependCommand(args)`: the command name "R" followed by the arguments. */
  function PrependCommand(args: seq<string>): (r: seq<string>)
    ensures |r| == |args| + 1 && r[0] == "R"
    ensures forall i :: 0 <= i < |args| ==> r[i + 1] == args[i]
  {
    ["R"] + args
  }

  /** Dropping the command name gives the arguments back. */
  lemma PrependCommandDrops(args: seq<string>)
    ensures PrependCommand(args)[1..] == args
  {
  }

  // ---- unescapeSpace ----

  /** `s` has `t` at position `i`. */
  predicate OccursAt(s: string, t: string, i: nat) {
    i + |t| <= |s| && s[i..i + |t|] == t
  }

  /** `unescapeSpace(input)`, that is `input.replace("~+~", " ")`: a left-to-right
      scan replacing each occurrence not overlapping an earlier one. */
  function UnescapeSpace(s: string): (r: string)
    ensures |r| <= |s|
    ensures (forall i :: 0 <= i < |s| ==> !OccursAt(s, ESCAPED_SPACE, i)) ==> r == s
    decreases |s|
  {
    if |s| < 3 then s
    else if s[..3] == ESCAPED_SPACE then
      assert OccursAt(s, ESCAPED_SPACE, 0);
      " " + UnescapeSpace(s[3..])
    else
      assert forall i :: 0 <= i < |s| - 1 && OccursAt(s[1..], ESCAPED_SPACE, i) ==> OccursAt(s, ESCAPED_SPACE, i + 1);
      [s[0]] + UnescapeSpace(s[1..])
  }

  /** What the start-up script does: every space becomes `~+~`. */
  function EscapeSpace(s: string): (r: string)
    ensures |r| >= |s|
    decreases |s|
  {
    if |s| == 0 then ""
    else (if s[0] == ' ' then ESCAPED_SPACE else [s[0]]) + EscapeSpace(s[1..])
  }

  /** Unescaping undoes the script's escaping for any argument without a `~`. */
  lemma {:induction false} UnescapeEscapes(s: string)
    requires '~' !in s
    ensures UnescapeSpace(EscapeSpace(s)) == s
    decreases |s|
  {
    if |s| > 0 {
      var e := EscapeSpace(s[1..]);
      assert '~' !in s[1..] by {
        forall i | 0 <= i < |s| - 1 ensures s[1..][i] != '~' {
          assert s[1..][i] == s[i + 1];
        }
      }
      UnescapeEscapes(s[1..]);
      if s[0] == ' ' {
        assert (ESCAPED_SPACE + e)[3..] == e;
      } else {
        var x := [s[0]] + e;
        if |x| >= 3 {
          assert x[..3][0] == s[0];
        }
        assert x[1..] == e;
      }
      assert s == [s[0]] + s[1..];
    }
  }

  /** A counterexample to the round trip once `~` occurs: "~+ " escapes to
      "~+~+~", which unescapes to " +~". */
  lemma UnescapeNeedsNoTilde()
    ensures EscapeSpace("~+ ") == "~+~+~"
    ensures UnescapeSpace("~+~+~") == " +~"
  {
    assert "~+~+~"[..3] == ESCAPED_SPACE;
    assert "~+~+~"[3..] == "+~";
  }

  // ---- the --interactive insertion in execute ----

  /** The argument list `execute` launches with: with a console and no
      `--interactive` yet, it is added at index 1, or as the only argument. */
  function WithInteractive(args: seq<string>, hasConsole: bool): (r: seq<string>)
    ensures !hasConsole || INTERACTIVE in args ==> r == args
    ensures hasConsole ==> INTERACTIVE in r
    ensures hasConsole && INTERACTIVE !in args ==>
              |r| == |args| + 1 && r[if |args| == 0 then 0 else 1] == INTERACTIVE &&
              r[..if |args| == 0 then 0 else 1] == args[..if |args| == 0 then 0 else 1] &&
              r[if |args| == 0 then 1 else 2..] == args[if |args| == 0 then 0 else 1..]
  {
    if !hasConsole || INTERACTIVE in args then args
    else if |args| == 0 then [INTERACTIVE]
    else args[..1] + [INTERACTIVE] + args[1..]
  }

  /** Rewriting twice is rewriting once; and the rewrite only adds the one
      argument, so the multiset of arguments grows by it at most. */
  lemma WithInteractiveLaws(args: seq<string>, hasConsole: bool)
    ensures WithInteractive(WithInteractive(args, hasConsole), hasConsole) == WithInteractive(args, hasConsole)
    ensures var r := WithInteractive(args, hasConsole);
            multiset(r) == multiset(args) + (if r == args then multiset{} else multiset{INTERACTIVE})
  {
    var r := WithInteractive(args, hasConsole);
    if r != args && |args| > 0 {
      assert args == args[..1] + args[1..];
    }
  }

  /** The rewrite in `execute`: a loop looking for `--interactive`, then the
      insertion into an `ArrayList`. */
  method InsertInteractive(args: seq<string>, hasConsole: bool) returns (argsList: seq<string>)
    ensures argsList == WithInteractive(args, hasConsole)
  {
    argsList := args;
    if hasConsole {
      var addArg := true;
      var i := 0;
      while i < |args|
        invariant i <= |args|
        invariant addArg <==> INTERACTIVE !in args[..i]
      {
        if args[i] == INTERACTIVE {
          addArg := false;
          break;
        }
        assert args[..i + 1] == args[..i] + [args[i]];
        i := i + 1;
      }
      assert !addArg || args[..i] == args;
      if addArg {
        if |argsList| == 0 {
          argsList := argsList + [INTERACTIVE];
        } else {
          argsList := argsList[..1] + [INTERACTIVE] + argsList[1..];
        }
      }
    }
  }

  // ---- the skip test in readEvalPrint ----

  /** What `String.trim` removes from either end: any character up to U+0020. */
  predicate Blank(c: char) {
    c <= ' '
  }

  predicate AllBlank(s: string) {
    forall i :: 0 <= i < |s| ==> Blank(s[i])
  }

  /** The leading blanks dropped. */
  function TrimStart(s: string): (r: string)
    ensures |r| <= |s| && r == s[|s| - |r|..]
    ensures AllBlank(s[..|s| - |r|])
    ensures |r| > 0 ==> !Blank(r[0])
    decreases |s|
  {
    if |s| > 0 && Blank(s[0]) then TrimStart(s[1..]) else s
  }

  /** The trailing blanks dropped. */
  function TrimEnd(s: string): (r: string)
    ensures |r| <= |s| && r == s[..|r|]
    ensures AllBlank(s[|r|..])
    ensures |r| > 0 ==> !Blank(r[|r| - 1])
    decreases |s|
  {
    if |s| > 0 && Blank(s[|s| - 1]) then TrimEnd(s[..|s| - 1]) else s
  }

  /** `String.trim()`. */
  function Trim(s: string): (r: string) {
    TrimEnd(TrimStart(s))
  }

  /** A line the loop skips without evaluating it: blank once trimmed, or a
      comment. */
  predicate IsSkipped(line: string) {
    var t := Trim(line);
    t == "" || t[0] == '#'
  }

  /** The index of the first non-blank character, or `|s|`. */
  function FirstNonBlank(s: string): (i: nat)
    ensures i <= |s| && AllBlank(s[..i])
    ensures i < |s| ==> !Blank(s[i])
  {
    |s| - |TrimStart(s)|
  }

  /** A line is skipped exactly when its first non-blank character is `#`, or
      it has none. */
  lemma SkippedIffCommentOrBlank(line: string)
    ensures IsSkipped(line) <==>
              var i := FirstNonBlank(line);
              i == |line| || line[i] == '#'
  {
    var ts := TrimStart(line);
    var i := FirstNonBlank(line);
    if |ts| > 0 {
      assert ts[0] == line[i];
      var t := TrimEnd(ts);
      assert |t| > 0;
      assert t[0] == ts[0];
    }
  }

  /** A blank line is skipped. */
  lemma SkipBlank()
    ensures IsSkipped("   ")
  {
    SkippedIffCommentOrBlank("   ");
  }

  /** A comment line is skipped. */
  lemma SkipComment()
    ensures IsSkipped(" #x")
  {
    var line := " #x";
    assert line[1..] == "#x";
    assert Blank(line[0]);
    assert TrimStart(line) == TrimStart("#x");
    assert !Blank('#');
    assert TrimStart("#x") == "#x";
    assert !Blank('x');
    assert TrimEnd("#x") == "#x";
  }

  /** A line of code is evaluated, even with a comment after it. */
  lemma KeepCode()
    ensures !IsSkipped(" x # note")
  {
    SkippedIffCommentOrBlank(" x # note");
  }
}

=== FILE: results.dfy ===
/** Failure-carrying wrappers shared by every module of the model. */
module Results {

  /** A possibly absent value: the model's stand-in for a Java `null`. */
  datatype Option<+T> = None | Some(value: T)

  /** The outcome of an operation that either yields a value or raises an error. */
  datatype Result<+T, +E> = Ok(value: T) | Err(error: E)
}

=== FILE: sample.dfy ===
/** The `sample(x, size, replace, prob)` builtin: argument checks in the order the
    specialisations are declared, then one of the four samplers. */
module SampleBuiltin {
  import opened Results
  import opened Seqs
  import opened Draws
  import opened SampleArgs
  import opened SampleProbability
  import UnweightedSampler
  import WeightedSampler

  /** The `prob` argument: NULL, or a vector of doubles. */
  datatype ProbArg = NullProb | Probs(ws: seq<Dbl>)

  /** A sample and the draws left unused after it. */
  datatype Sampled = Sampled(values: seq<int>, rest: seq<real>)

  /** The error `sample` raises for these arguments, if any, before any draw is made. */
  function ArgumentError(x: int, size: int, replace: bool, prob: ProbArg): (r: Option<SampleError>)
    ensures r.None? <==>
              0 <= size && 0 <= x && (size > 0 ==> x > 0) && (!replace ==> size <= x) &&
              (prob.NullProb? ==> x <= POPULATION_CAP) &&
              (prob.Probs? ==> |prob.ws| == x && FixupProbability(prob.ws, size, replace).Ok? &&
                               !(replace && HeavyCount(x, FixupProbability(prob.ws, size, replace).value) > WALKER_THRESHOLD))
    ensures prob.NullProb? && x > POPULATION_CAP ==> r == Some(InvalidFirstArgument)
    ensures prob.Probs? && replace && CheckWithProb(x, size, replace, |prob.ws|).None? &&
            FixupProbability(prob.ws, size, replace).Ok? ==>
              (r == Some(WalkerNotImplemented) <==>
               HeavyCount(x, FixupProbability(prob.ws, size, replace).value) > WALKER_THRESHOLD)
  {
    match prob
    case NullProb => CheckNullProb(x, size, replace)
    case Probs(ws) =>
      match CheckWithProb(x, size, replace, |ws|)
      case Some(e) => Some(e)
      case None =>
        match FixupProbability(ws, size, replace)
        case Err(e) => Some(e)
        case Ok(probs) =>
          if replace && HeavyCount(x, probs) > WALKER_THRESHOLD then Some(WalkerNotImplemented)
          else None
  }

  /** `sample` with the uniform draws `draws`, of which the first `size` are used.
      With replacement the values lie in `[1, x]`; without, they are also distinct. */
  function Sample(x: int, size: int, replace: bool, prob: ProbArg, draws: seq<real>): (r: Result<Sampled, SampleError>)
    requires UnitDraws(draws) && size <= |draws|
    ensures r.Err? <==> ArgumentError(x, size, replace, prob).Some?
    ensures r.Err? ==> r.error == ArgumentError(x, size, replace, prob).value
    ensures r.Ok? ==> 0 <= size && |r.value.values| == size && r.value.rest == draws[size..]
    ensures r.Ok? ==> AllIn(r.value.values, 1, x)
    ensures r.Ok? && !replace ==> Distinct(r.value.values)
  {
    match ArgumentError(x, size, replace, prob)
    case Some(e) => Err(e)
    case None =>
      var used := draws[..size];
      match prob
      case NullProb =>
        if replace || size < 2 then
          Ok(Sampled(UnweightedSampler.WithReplacement(x, used), draws[size..]))
        else
          UnweightedSampler.WithoutReplacementInRange(x, used);
          Ok(Sampled(UnweightedSampler.WithoutReplacement(Iota(0, x), used), draws[size..]))
      case Probs(ws) =>
        var probs := FixupProbability(ws, size, replace).value;
        if replace then
          Ok(Sampled(WeightedSampler.WithReplacement(probs, used), draws[size..]))
        else
          WeightedSampler.WithoutReplacementInRange(probs, used);
          Ok(Sampled(WeightedSampler.WithoutReplacement(probs, used), draws[size..]))
  }

  /** `sample(5, 3)` passes every check and samples three distinct values in `[1, 5]`. */
  lemma ValidCallSamples(draws: seq<real>)
    requires UnitDraws(draws) && |draws| == 3
    ensures var r := Sample(5, 3, false, NullProb, draws);
            r.Ok? && |r.value.values| == 3 && Distinct(r.value.values) && AllIn(r.value.values, 1, 5)
  {
  }

  /** The builtin's evaluation: the checks, then the sampler the arguments select,
      run on arrays as the source does. */
  method DoSample(x: int, size: int, replace: bool, prob: ProbArg, draws: seq<real>)
    returns (r: Result<Sampled, SampleError>)
    requires UnitDraws(draws) && size <= |draws|
    ensures r == Sample(x, size, replace, prob, draws)
  {
    var err := ArgumentError(x, size, replace, prob);
    if err.Some? {
      return Err(err.value);
    }
    var values: seq<int>, rest: seq<real>;
    match prob {
      case NullProb =>
        if replace || size < 2 {
          values, rest := UnweightedSampler.SampleWithReplacement(x, size, draws);
        } else {
          values, rest := UnweightedSampler.SampleWithoutReplacement(x, size, draws);
        }
      case Probs(ws) =>
        var probs := FixupProbability(ws, size, replace).value;
        if replace {
          values, rest := WeightedSampler.ProbSampleReplace(probs, size, draws);
        } else {
          values, rest := WeightedSampler.ProbSampleWithoutReplace(probs, size, draws);
        }
    }
    r := Ok(Sampled(values, rest));
  }
}

=== FILE: sample_args.dfy ===
/** Argument checking of the `sample` builtin: the guard predicates that pick an
    error specialisation, in the order the specialisations are declared. */
module SampleArgs {
  import opened JavaInts
  import opened Results

  /** The population cap inherited from the reference environment (4.5e15). */
  const POPULATION_CAP: int := 4_500_000_000_000_000

  /** The errors `sample` can raise; each names the message the builtin reports. */
  datatype SampleError =
    | InvalidFirstArgument        // INVALID_FIRST_ARGUMENT
    | IncorrectNumProb            // INCORRECT_NUM_PROB
    | SampleLargerThanPopulation  // SAMPLE_LARGER_THAN_POPULATION
    | InvalidSizeArgument         // INVALID_ARGUMENT, quoting the size
    | NaInProbVector              // NA_IN_PROB_VECTOR
    | NegativeProbability         // NEGATIVE_PROBABILITY
    | TooFewPositiveProbability   // TOO_FEW_POSITIVE_PROBABILITY
    | WalkerNotImplemented        // UnsupportedOperationException for the alias method

  /** Guard of the first error specialisation when `prob` is NULL. */
  predicate InvalidFirstArgNullProb(x: int, size: int) {
    x == NA_INTEGER || x < 0 || x > POPULATION_CAP || (size > 0 && x == 0)
  }

  /** Guard shared by both forms of `prob`. */
  predicate InvalidSizeArg(size: int) {
    size == NA_INTEGER || size < 0
  }

  /** Guard shared by both forms of `prob`. */
  predicate LargerPopulation(x: int, size: int, replace: bool) {
    !replace && size > x
  }

  /** Guard of the first error specialisation when `prob` is a vector. */
  predicate InvalidFirstArg(x: int, size: int) {
    x == NA_INTEGER || x < 0 || (size > 0 && x == 0)
  }

  /** A probability vector whose length is not the population size. */
  predicate InvalidProb(x: int, probLength: nat) {
    probLength != x
  }

  /** The error specialisations for a NULL `prob`, exactly as written: a sample
      larger than the population is reported with INCORRECT_NUM_PROB. */
  function CheckNullProbAsWritten(x: int, size: int, replace: bool): (r: Option<SampleError>)
    ensures r == Some(InvalidFirstArgument) <==> InvalidFirstArgNullProb(x, size)
    ensures r == Some(InvalidSizeArgument) <==> !InvalidFirstArgNullProb(x, size) && InvalidSizeArg(size)
    ensures r == Some(IncorrectNumProb) <==>
              !InvalidFirstArgNullProb(x, size) && !InvalidSizeArg(size) && LargerPopulation(x, size, replace)
    ensures r.None? <==> 0 <= size && 0 <= x <= POPULATION_CAP && (size == 0 || 1 <= x) && (replace || size <= x)
  {
    if InvalidFirstArgNullProb(x, size) then Some(InvalidFirstArgument)
    else if InvalidSizeArg(size) then Some(InvalidSizeArgument)
    else if LargerPopulation(x, size, replace) then Some(IncorrectNumProb)
    else None
  }

  /** The error specialisations for a NULL `prob`, with the sample-larger-than-
      population case reported as such (the message the vector form uses). */
  function CheckNullProb(x: int, size: int, replace: bool): (r: Option<SampleError>)
    ensures r.None? <==> 0 <= size && 0 <= x <= POPULATION_CAP && (size == 0 || 1 <= x) && (replace || size <= x)
    ensures r == Some(InvalidFirstArgument) <==> InvalidFirstArgNullProb(x, size)
    ensures r == Some(InvalidSizeArgument) <==> !InvalidFirstArgNullProb(x, size) && InvalidSizeArg(size)
    ensures r == Some(SampleLargerThanPopulation) <==>
              !InvalidFirstArgNullProb(x, size) && !InvalidSizeArg(size) && LargerPopulation(x, size, replace)
  {
    if InvalidFirstArgNullProb(x, size) then Some(InvalidFirstArgument)
    else if InvalidSizeArg(size) then Some(InvalidSizeArgument)
    else if LargerPopulation(x, size, replace) then Some(SampleLargerThanPopulation)
    else None
  }

  /** The as-written checks and the corrected ones differ only in the label of
      the sample-larger-than-population error. */
  lemma NullProbCheckOnlyRelabels(x: int, size: int, replace: bool)
    ensures CheckNullProbAsWritten(x, size, replace) ==
              (if CheckNullProb(x, size, replace) == Some(SampleLargerThanPopulation)
               then Some(IncorrectNumProb) else CheckNullProb(x, size, replace))
  {
  }

  /** `sample(1, 2)`: the as-written check blames the probability vector, which
      the call does not have. */
  lemma NullProbMislabelExample()
    ensures CheckNullProbAsWritten(1, 2, false) == Some(IncorrectNumProb)
    ensures CheckNullProb(1, 2, false) == Some(SampleLargerThanPopulation)
    ensures CheckWithProb(1, 2, false, 1) == Some(SampleLargerThanPopulation)
  {
  }

  /** The error specialisations for a probability vector of length `probLength`,
      in declaration order. */
  function CheckWithProb(x: int, size: int, replace: bool, probLength: nat): (r: Option<SampleError>)
    ensures r.None? <==> 0 <= size && 0 <= x && (size == 0 || 1 <= x) && probLength == x && (replace || size <= x)
    ensures r == Some(InvalidFirstArgument) <==> InvalidFirstArg(x, size)
    ensures r == Some(IncorrectNumProb) <==> !InvalidFirstArg(x, size) && InvalidProb(x, probLength)
    ensures r == Some(SampleLargerThanPopulation) <==>
              !InvalidFirstArg(x, size) && !InvalidProb(x, probLength) && LargerPopulation(x, size, replace)
    ensures r == Some(InvalidSizeArgument) <==>
              !InvalidFirstArg(x, size) && !InvalidProb(x, probLength) && !LargerPopulation(x, size, replace) &&
              InvalidSizeArg(size)
  {
    if InvalidFirstArg(x, size) then Some(InvalidFirstArgument)
    else if InvalidProb(x, probLength) then Some(IncorrectNumProb)
    else if LargerPopulation(x, size, replace) then Some(SampleLargerThanPopulation)
    else if InvalidSizeArg(size) then Some(InvalidSizeArgument)
    else None
  }
}

=== FILE: sample_heap.dfy ===
/** The hand-written heap reordering `sample` applies to its (weight, index)
    pairs before weighted sampling, modelled exactly as written:
    - the left child of node `i` is `2*i`, so the root is its own left child;
    - both children are compared with the parent, and the right child wins
      whenever it is smaller than the parent, even if the left child is smaller;
    - the sort phase swaps the root to the end of the shrinking heap.
    The result is therefore not sorted in general (see `HeapSortIsNotASort`); what
    the code does guarantee is that keys and values only ever move together. */
module SampleHeap {
  import opened Seqs

  /** One (key, value) pair: a weight and its 1-based population index. */
  datatype Entry = Entry(key: real, value: int)

  /** The pairs held at equal positions of the parallel key and value arrays. */
  function Zip(keys: seq<real>, values: seq<int>): (t: seq<Entry>)
    requires |keys| == |values|
    ensures |t| == |keys|
  {
    seq(|keys|, i requires 0 <= i < |keys| => Entry(keys[i], values[i]))
  }

  function Keys(t: seq<Entry>): (keys: seq<real>)
    ensures |keys| == |t|
  {
    seq(|t|, i requires 0 <= i < |t| => t[i].key)
  }

  function Values(t: seq<Entry>): (values: seq<int>)
    ensures |values| == |t|
  {
    seq(|t|, i requires 0 <= i < |t| => t[i].value)
  }

  /** `exchange`: positions `i` and `j` swap their key and their value together. */
  function Exchange(t: seq<Entry>, i: nat, j: nat): (r: seq<Entry>)
    requires i < |t| && j < |t|
    ensures |r| == |t|
  {
    Swap(t, i, j)
  }

  /** Seen on the value array alone, `exchange` is a swap of the same two positions,
      so the values are permuted exactly as the pairs are. */
  lemma ExchangeMovesValuesWithKeys(t: seq<Entry>, i: nat, j: nat)
    requires i < |t| && j < |t|
    ensures Values(Exchange(t, i, j)) == Swap(Values(t), i, j)
    ensures Keys(Exchange(t, i, j)) == Swap(Keys(t), i, j)
    ensures multiset(Exchange(t, i, j)) == multiset(t)
    ensures multiset(Values(Exchange(t, i, j))) == multiset(Values(t))
  {
    SwapMultiset(t, i, j);
    SwapMultiset(Values(t), i, j);
  }

  /** The position `minHeapify` moves the entry at `cur` to: the left child is
      `2 * cur`, the right child `2 * cur + 1`; a child is a candidate when it lies
      inside the heap and its key is below the key at `cur`, and the right
      candidate is preferred. */
  function Lowest(t: seq<Entry>, cur: nat, heapSize: nat): (lowest: nat)
    requires heapSize <= |t|
    ensures lowest == cur || (cur < lowest < heapSize && t[lowest].key < t[cur].key)
  {
    var left := 2 * cur;
    var right := left + 1;
    if right < heapSize && t[right].key < t[cur].key then right
    else if left < heapSize && t[left].key < t[cur].key then left
    else cur
  }

  /** `minHeapify(keys, cur, heapSize, values)`, as written. */
  function MinHeapify(t: seq<Entry>, cur: nat, heapSize: nat): (r: seq<Entry>)
    requires heapSize <= |t|
    ensures |r| == |t|
    decreases heapSize - cur
  {
    var lowest := Lowest(t, cur, heapSize);
    if lowest != cur then MinHeapify(Exchange(t, cur, lowest), lowest, heapSize) else t
  }

  /** The loop of `buildheap` from index `i` down to 0. */
  function BuildHeapFrom(t: seq<Entry>, i: int): (r: seq<Entry>)
    ensures |r| == |t|
    decreases i + 1
  {
    if i < 0 then t else BuildHeapFrom(MinHeapify(t, i, |t|), i - 1)
  }

  /** `buildheap`: sift down every index from `length >> 1` to 0. */
  function BuildHeap(t: seq<Entry>): seq<Entry> {
    BuildHeapFrom(t, |t| / 2)
  }

  /** The loop of `heapSort` from `i` down to 1: move the root to position `i`,
      then sift the new root down within the first `i` positions. */
  function SortFrom(t: seq<Entry>, i: int): (r: seq<Entry>)
    requires i < |t|
    ensures |r| == |t|
    decreases i
  {
    if i <= 0 then t else SortFrom(MinHeapify(Exchange(t, 0, i), 0, i), i - 1)
  }

  /** `heapSort(values, keys)`. */
  function HeapSort(t: seq<Entry>): seq<Entry> {
    SortFrom(BuildHeap(t), |t| - 1)
  }

  lemma {:induction false} MinHeapifyPermutes(t: seq<Entry>, cur: nat, heapSize: nat)
    requires heapSize <= |t|
    ensures multiset(MinHeapify(t, cur, heapSize)) == multiset(t)
    ensures multiset(Values(MinHeapify(t, cur, heapSize))) == multiset(Values(t))
    decreases heapSize - cur
  {
    var lowest := Lowest(t, cur, heapSize);
    if lowest != cur {
      var e := Exchange(t, cur, lowest);
      ExchangeMovesValuesWithKeys(t, cur, lowest);
      MinHeapifyPermutes(e, lowest, heapSize);
      assert MinHeapify(t, cur, heapSize) == MinHeapify(e, lowest, heapSize);
    }
  }

  lemma {:induction false} BuildHeapFromPermutes(t: seq<Entry>, i: int)
    ensures multiset(BuildHeapFrom(t, i)) == multiset(t)
    ensures multiset(Values(BuildHeapFrom(t, i))) == multiset(Values(t))
    decreases i + 1
  {
    if i >= 0 {
      MinHeapifyPermutes(t, i, |t|);
      BuildHeapFromPermutes(MinHeapify(t, i, |t|), i - 1);
    }
  }

  lemma {:induction false} SortFromPermutes(t: seq<Entry>, i: int)
    requires i < |t|
    ensures multiset(SortFrom(t, i)) == multiset(t)
    ensures multiset(Values(SortFrom(t, i))) == multiset(Values(t))
    decreases i
  {
    if i > 0 {
      var e := Exchange(t, 0, i);
      var m := MinHeapify(e, 0, i);
      ExchangeMovesValuesWithKeys(t, 0, i);
      MinHeapifyPermutes(e, 0, i);
      SortFromPermutes(m, i - 1);
      assert SortFrom(t, i) == SortFrom(m, i - 1);
    }
  }

  /** The heap reordering only permutes the pairs: no key is separated from its
      value, and the value array on its own is permuted the same way. */
  lemma HeapSortPermutesPairs(t: seq<Entry>)
    ensures |HeapSort(t)| == |t|
    ensures multiset(HeapSort(t)) == multiset(t)
    ensures multiset(Values(HeapSort(t))) == multiset(Values(t))
  {
    var b := BuildHeap(t);
    BuildHeapFromPermutes(t, |t| / 2);
    SortFromPermutes(b, |t| - 1);
  }

  /** Starting from the identity index vector `1..n`, the reordered indices are
      still a permutation of `1..n`. */
  lemma HeapSortKeepsIndexPermutation(keys: seq<real>)
    ensures Distinct(Values(HeapSort(Zip(keys, Iota(1, |keys|)))))
    ensures AllIn(Values(HeapSort(Zip(keys, Iota(1, |keys|)))), 1, |keys|)
  {
    var t := Zip(keys, Iota(1, |keys|));
    assert Values(t) == Iota(1, |keys|);
    HeapSortPermutesPairs(t);
    PermutationOfIota(Values(HeapSort(t)), 1, |keys|);
  }

  // The run of the heap routine on keys [1, 4, 2, 3] with values [1, 2, 3, 4],
  // one round per lemma.

  lemma ExampleBuildHeap()
    ensures BuildHeap([Entry(1.0, 1), Entry(4.0, 2), Entry(2.0, 3), Entry(3.0, 4)])
         == [Entry(1.0, 1), Entry(3.0, 4), Entry(2.0, 3), Entry(4.0, 2)]
  {
    var t0 := [Entry(1.0, 1), Entry(4.0, 2), Entry(2.0, 3), Entry(3.0, 4)];
    var h := [Entry(1.0, 1), Entry(3.0, 4), Entry(2.0, 3), Entry(4.0, 2)];
    assert MinHeapify(t0, 2, 4) == t0;
    assert Exchange(t0, 1, 3) == h;
    assert MinHeapify(h, 3, 4) == h;
    assert MinHeapify(h, 0, 4) == h;
  }

  lemma ExampleSortRound3()
    ensures MinHeapify(Exchange([Entry(1.0, 1), Entry(3.0, 4), Entry(2.0, 3), Entry(4.0, 2)], 0, 3), 0, 3)
         == [Entry(3.0, 4), Entry(2.0, 3), Entry(4.0, 2), Entry(1.0, 1)]
  {
    var e := [Entry(4.0, 2), Entry(3.0, 4), Entry(2.0, 3), Entry(1.0, 1)];
    var m := [Entry(3.0, 4), Entry(4.0, 2), Entry(2.0, 3), Entry(1.0, 1)];
    var s1 := [Entry(3.0, 4), Entry(2.0, 3), Entry(4.0, 2), Entry(1.0, 1)];
    assert Exchange([Entry(1.0, 1), Entry(3.0, 4), Entry(2.0, 3), Entry(4.0, 2)], 0, 3) == e;
    assert Exchange(e, 0, 1) == m;
    assert Exchange(m, 1, 2) == s1;
    assert MinHeapify(s1, 2, 3) == s1;
  }

  lemma ExampleSortRound2()
    ensures MinHeapify(Exchange([Entry(3.0, 4), Entry(2.0, 3), Entry(4.0, 2), Entry(1.0, 1)], 0, 2), 0, 2)
         == [Entry(2.0, 3), Entry(4.0, 2), Entry(3.0, 4), Entry(1.0, 1)]
  {
    var e := [Entry(4.0, 2), Entry(2.0, 3), Entry(3.0, 4), Entry(1.0, 1)];
    var s2 := [Entry(2.0, 3), Entry(4.0, 2), Entry(3.0, 4), Entry(1.0, 1)];
    assert Exchange([Entry(3.0, 4), Entry(2.0, 3), Entry(4.0, 2), Entry(1.0, 1)], 0, 2) == e;
    assert Exchange(e, 0, 1) == s2;
    assert MinHeapify(s2, 1, 2) == s2;
  }

  lemma ExampleSortRound1()
    ensures MinHeapify(Exchange([Entry(2.0, 3), Entry(4.0, 2), Entry(3.0, 4), Entry(1.0, 1)], 0, 1), 0, 1)
         == [Entry(4.0, 2), Entry(2.0, 3), Entry(3.0, 4), Entry(1.0, 1)]
  {
    assert Exchange([Entry(2.0, 3), Entry(4.0, 2), Entry(3.0, 4), Entry(1.0, 1)], 0, 1)
        == [Entry(4.0, 2), Entry(2.0, 3), Entry(3.0, 4), Entry(1.0, 1)];
  }

  /** Keys `[1, 4, 2, 3]` come out as `[4, 2, 3, 1]`: neither ascending nor descending. */
  lemma HeapSortIsNotASort()
    ensures HeapSort(Zip([1.0, 4.0, 2.0, 3.0], [1, 2, 3, 4])) == Zip([4.0, 2.0, 3.0, 1.0], [2, 3, 4, 1])
  {
    var t0 := [Entry(1.0, 1), Entry(4.0, 2), Entry(2.0, 3), Entry(3.0, 4)];
    var h := [Entry(1.0, 1), Entry(3.0, 4), Entry(2.0, 3), Entry(4.0, 2)];
    var s1 := [Entry(3.0, 4), Entry(2.0, 3), Entry(4.0, 2), Entry(1.0, 1)];
    var s2 := [Entry(2.0, 3), Entry(4.0, 2), Entry(3.0, 4), Entry(1.0, 1)];
    var s3 := [Entry(4.0, 2), Entry(2.0, 3), Entry(3.0, 4), Entry(1.0, 1)];
    assert Zip([1.0, 4.0, 2.0, 3.0], [1, 2, 3, 4]) == t0;
    assert Zip([4.0, 2.0, 3.0, 1.0], [2, 3, 4, 1]) == s3;
    ExampleBuildHeap();
    ExampleSortRound3();
    ExampleSortRound2();
    ExampleSortRound1();
    assert SortFrom(h, 3) == SortFrom(s1, 2);
    assert SortFrom(s1, 2) == SortFrom(s2, 1);
    assert SortFrom(s2, 1) == SortFrom(s3, 0);
  }

  // ---- the heap routine on the parallel arrays, as the sampler runs it ----

  /** Splitting the pairs back into the two arrays gives the arrays. */
  lemma ZipSplits(keys: seq<real>, values: seq<int>)
    requires |keys| == |values|
    ensures Keys(Zip(keys, values)) == keys && Values(Zip(keys, values)) == values
  {
  }

  /** `exchange(keys, i, j, values)` on the two arrays. */
  method ExchangeArrays(keys: array<real>, i: nat, j: nat, values: array<int>)
    requires keys.Length == values.Length && i < keys.Length && j < keys.Length
    modifies keys, values
    ensures Zip(keys[..], values[..]) == Exchange(old(Zip(keys[..], values[..])), i, j)
  {
    keys[i], keys[j] := keys[j], keys[i];
    values[i], values[j] := values[j], values[i];
  }

  /** `minHeapify(keys, cur, heapSize, values)` on the two arrays. */
  method MinHeapifyArrays(keys: array<real>, cur: nat, heapSize: nat, values: array<int>)
    requires keys.Length == values.Length && heapSize <= keys.Length
    modifies keys, values
    ensures Zip(keys[..], values[..]) == MinHeapify(old(Zip(keys[..], values[..])), cur, heapSize)
    decreases heapSize - cur
  {
    var left := 2 * cur;
    var right := left + 1;
    var lowest := cur;
    if right < heapSize && keys[right] < keys[cur] {
      lowest := right;
    } else if left < heapSize && keys[left] < keys[cur] {
      lowest := left;
    }
    assert lowest == Lowest(Zip(keys[..], values[..]), cur, heapSize);
    if lowest != cur {
      ExchangeArrays(keys, cur, lowest, values);
      MinHeapifyArrays(keys, lowest, heapSize, values);
    }
  }

  /** `buildheap(keys, values)`. */
  method BuildHeapArrays(keys: array<real>, values: array<int>)
    requires keys.Length == values.Length
    modifies keys, values
    ensures Zip(keys[..], values[..]) == BuildHeap(old(Zip(keys[..], values[..])))
  {
    ghost var t0 := Zip(keys[..], values[..]);
    var i := keys.Length / 2;
    while i >= 0
      invariant -1 <= i <= keys.Length / 2
      invariant BuildHeapFrom(Zip(keys[..], values[..]), i) == BuildHeap(t0)
      decreases i + 1
    {
      MinHeapifyArrays(keys, i, keys.Length, values);
      i := i - 1;
    }
  }

  /** `heapSort(values, keys)`. */
  method HeapSortArrays(values: array<int>, keys: array<real>)
    requires keys.Length == values.Length
    modifies keys, values
    ensures Zip(keys[..], values[..]) == HeapSort(old(Zip(keys[..], values[..])))
  {
    ghost var t0 := Zip(keys[..], values[..]);
    BuildHeapArrays(keys, values);
    var i := keys.Length - 1;
    while i > 0
      invariant i < keys.Length
      invariant SortFrom(Zip(keys[..], values[..]), i) == HeapSort(t0)
      decreases i
    {
      ExchangeArrays(keys, 0, i, values);
      MinHeapifyArrays(keys, 0, i, values);
      i := i - 1;
    }
  }
}

=== FILE: sample_probability.dfy ===
/** `fixupProbability` and the heavy-weight count of the `sample` builtin: the
    validation and normalisation of a probability vector, on a private copy. */
module SampleProbability {
  import opened Results
  import opened SampleArgs

  /** One double of the probability vector: a finite value, or NA/NaN/infinity. */
  datatype Dbl = Finite(v: real) | NonFinite

  /** Left-to-right sum, the order in which the source accumulates. */
  function Sum(s: seq<real>): real {
    if |s| == 0 then 0.0 else Sum(s[..|s| - 1]) + s[|s| - 1]
  }

  /** The sum of the strictly positive entries (`probSum`). */
  function PositiveSum(s: seq<real>): real {
    if |s| == 0 then 0.0
    else PositiveSum(s[..|s| - 1]) + (if s[|s| - 1] > 0.0 then s[|s| - 1] else 0.0)
  }

  /** The number of strictly positive entries (`nonZeroProbCount`). */
  function PositiveCount(s: seq<real>): nat {
    if |s| == 0 then 0
    else PositiveCount(s[..|s| - 1]) + (if s[|s| - 1] > 0.0 then 1 else 0)
  }

  predicate AllFiniteNonNegative(ws: seq<Dbl>) {
    forall i :: 0 <= i < |ws| ==> ws[i].Finite? && ws[i].v >= 0.0
  }

  /** The finite values of a vector with no NA in it. */
  function Reals(ws: seq<Dbl>): (s: seq<real>)
    requires forall i :: 0 <= i < |ws| ==> ws[i].Finite?
    ensures |s| == |ws|
    ensures forall i :: 0 <= i < |ws| ==> s[i] == ws[i].v
  {
    seq(|ws|, i requires 0 <= i < |ws| => ws[i].v)
  }

  /** The error the entry-by-entry scan stops at, if any: a non-finite entry
      is reported before a negative one at the same position. */
  function FirstEntryError(ws: seq<Dbl>): (r: Option<SampleError>)
    ensures r.None? <==> AllFiniteNonNegative(ws)
    ensures r.Some? ==> r.value == NaInProbVector || r.value == NegativeProbability
  {
    if |ws| == 0 then None
    else if ws[0].NonFinite? then Some(NaInProbVector)
    else if ws[0].v < 0.0 then Some(NegativeProbability)
    else
      var rest := FirstEntryError(ws[1..]);
      assert forall i :: 1 <= i < |ws| ==> ws[i] == ws[1..][i - 1];
      rest
  }

  /** The index-free characterisation of which entry error is reported: the
      first position that is non-finite or negative decides it. */
  lemma {:induction false} FirstEntryErrorIsFirstBadPosition(ws: seq<Dbl>, i: nat)
    requires i < |ws|
    requires forall k :: 0 <= k < i ==> ws[k].Finite? && ws[k].v >= 0.0
    requires ws[i].NonFinite? || ws[i].v < 0.0
    ensures FirstEntryError(ws) == Some(if ws[i].NonFinite? then NaInProbVector else NegativeProbability)
  {
    if i > 0 {
      FirstEntryErrorIsFirstBadPosition(ws[1..], i - 1);
    }
  }

  /** Each entry divided by `total`. */
  function Scale(s: seq<real>, total: real): (r: seq<real>)
    requires total != 0.0
    ensures |r| == |s|
    ensures forall i :: 0 <= i < |s| ==> r[i] == s[i] / total
  {
    seq(|s|, i requires 0 <= i < |s| => s[i] / total)
  }

  /** `fixupProbability(probArray, x, size, replace)` applied to a copy of `prob`. */
  function FixupProbability(ws: seq<Dbl>, size: int, replace: bool): (r: Result<seq<real>, SampleError>)
    ensures r.Ok? <==> AllFiniteNonNegative(ws) && PositiveCount(Reals(ws)) > 0 &&
                       (replace || size <= PositiveCount(Reals(ws)))
    ensures r.Err? && !AllFiniteNonNegative(ws) ==> r == Err(FirstEntryError(ws).value)
    ensures r.Err? && AllFiniteNonNegative(ws) ==> r == Err(TooFewPositiveProbability)
    ensures r.Ok? ==> |r.value| == |ws|
    ensures r.Ok? ==> forall i :: 0 <= i < |ws| ==> (r.value[i] == 0.0 <==> ws[i].v == 0.0)
    ensures r.Ok? ==> forall i :: 0 <= i < |ws| ==> 0.0 <= r.value[i] <= 1.0
  {
    match FirstEntryError(ws)
    case Some(e) => Err(e)
    case None =>
      var s := Reals(ws);
      var count := PositiveCount(s);
      if count == 0 || (!replace && size > count) then Err(TooFewPositiveProbability)
      else
        var total := PositiveSum(s);
        PositiveSumFacts(s);
        ScaleIntoUnitInterval(s, total);
        Ok(Scale(s, total))
  }

  lemma DivIntoUnitInterval(a: real, total: real)
    requires 0.0 <= a <= total && total > 0.0
    ensures 0.0 <= a / total <= 1.0
    ensures a / total == 0.0 <==> a == 0.0
    ensures a / total == 1.0 <==> a == total
  {
    assert a / total * total == a;
  }

  lemma ScaleIntoUnitInterval(s: seq<real>, total: real)
    requires total > 0.0
    requires forall i :: 0 <= i < |s| ==> 0.0 <= s[i] <= total
    ensures forall i :: 0 <= i < |s| ==> 0.0 <= Scale(s, total)[i] <= 1.0
    ensures forall i :: 0 <= i < |s| ==> (Scale(s, total)[i] == 0.0 <==> s[i] == 0.0)
  {
    forall i | 0 <= i < |s|
      ensures 0.0 <= Scale(s, total)[i] <= 1.0
      ensures Scale(s, total)[i] == 0.0 <==> s[i] == 0.0
    {
      DivIntoUnitInterval(s[i], total);
    }
  }

  /** For a non-negative vector with a positive entry, the positive sum is the
      plain sum, it is positive, and it bounds every entry. */
  lemma {:induction false} PositiveSumFacts(s: seq<real>)
    requires forall i :: 0 <= i < |s| ==> s[i] >= 0.0
    ensures PositiveSum(s) == Sum(s)
    ensures PositiveCount(s) > 0 <==> PositiveSum(s) > 0.0
    ensures forall i :: 0 <= i < |s| ==> s[i] <= PositiveSum(s)
  {
    if |s| > 0 {
      PositiveSumFacts(s[..|s| - 1]);
    }
  }

  lemma {:induction false} SumScale(s: seq<real>, total: real)
    requires total != 0.0
    ensures Sum(Scale(s, total)) == Sum(s) / total
  {
    if |s| > 0 {
      var n := |s| - 1;
      assert Scale(s, total)[..n] == Scale(s[..n], total);
      SumScale(s[..n], total);
    }
  }

  /** The normalised probabilities sum to one. */
  lemma FixupProbabilitySumsToOne(ws: seq<Dbl>, size: int, replace: bool)
    requires FixupProbability(ws, size, replace).Ok?
    ensures Sum(FixupProbability(ws, size, replace).value) == 1.0
  {
    var s := Reals(ws);
    PositiveSumFacts(s);
    var total := PositiveSum(s);
    assert PositiveCount(s) > 0;
    assert total > 0.0 && Sum(s) == total;
    assert FixupProbability(ws, size, replace).value == Scale(s, total);
    SumScale(s, total);
    DivIntoUnitInterval(total, total);
  }

  /** An entry that weighs more than 0.1 once scaled by the population size. */
  predicate Heavy(x: int, p: real) {
    (x as real) * p > 0.1
  }

  /** The number of entries with `x * p > 0.1` (`nc` in `doSampleWithReplacement`):
      none exactly when no entry is heavy, all exactly when every entry is. */
  function HeavyCount(x: int, probs: seq<real>): (nc: nat)
    ensures nc <= |probs|
    ensures nc == 0 <==> forall i :: 0 <= i < |probs| ==> !Heavy(x, probs[i])
    ensures nc == |probs| <==> forall i :: 0 <= i < |probs| ==> Heavy(x, probs[i])
  {
    if |probs| == 0 then 0
    else
      var init := probs[..|probs| - 1];
      assert forall i :: 0 <= i < |init| ==> init[i] == probs[i];
      HeavyCount(x, init) + (if Heavy(x, probs[|probs| - 1]) then 1 else 0)
  }

  /** The positions of the heavy entries. */
  function HeavyPositions(x: int, probs: seq<real>): set<nat> {
    set i: nat | i < |probs| && Heavy(x, probs[i])
  }

  /** The recursive count is the number of heavy positions. */
  lemma {:induction false} HeavyCountCountsPositions(x: int, probs: seq<real>)
    ensures HeavyCount(x, probs) == |HeavyPositions(x, probs)|
  {
    if |probs| > 0 {
      var n := |probs| - 1;
      var init := probs[..n];
      HeavyCountCountsPositions(x, init);
      var a := HeavyPositions(x, init);
      assert n !in a;
      if Heavy(x, probs[n]) {
        assert HeavyPositions(x, probs) == a + {n};
      } else {
        assert HeavyPositions(x, probs) == a;
      }
    }
  }

  /** The counting loop over `probArray` in `doSampleWithReplacement`. */
  method CountHeavy(x: int, probs: seq<real>) returns (nc: nat)
    ensures nc == HeavyCount(x, probs)
  {
    nc := 0;
    var i := 0;
    while i < |probs|
      invariant i <= |probs| && nc == HeavyCount(x, probs[..i])
    {
      assert probs[..i + 1][..i] == probs[..i] && probs[..i + 1][i] == probs[i];
      assert HeavyCount(x, probs[..i + 1]) == HeavyCount(x, probs[..i]) + (if Heavy(x, probs[i]) then 1 else 0);
      if (x as real) * probs[i] > 0.1 {
        nc := nc + 1;
      }
      i := i + 1;
    }
    assert probs[..i] == probs;
  }

  /** More than this many heavy entries route to the (unimplemented) alias method. */
  const WALKER_THRESHOLD: nat := 200
}

=== FILE: sample_unweighted.dfy ===
/** Sampling without a probability vector (`doSample`): independent draws, or
    the swap-remove permutation over the not-yet-chosen values. */
module UnweightedSampler {
  import opened Seqs
  import opened Draws

  /** `(int) (x * u + 1)`: one draw with replacement. */
  function DrawOne(x: nat, u: real): (r: int)
    requires 0.0 <= u < 1.0
    ensures x > 0 ==> r == Pick(x, u) + 1
    ensures x > 0 ==> 1 <= r <= x
  {
    (x as real * u + 1.0).Floor
  }

  /** The sample with replacement: result `i` comes from draw `i` alone. */
  function WithReplacement(x: nat, draws: seq<real>): (r: seq<int>)
    requires UnitDraws(draws)
    ensures |r| == |draws|
    ensures x > 0 ==> AllIn(r, 1, x)
  {
    seq(|draws|, i requires 0 <= i < |draws| => DrawOne(x, draws[i]))
  }

  /** Position `j` leaves the active prefix: the last active value moves into it. */
  function SwapRemove(active: seq<int>, j: nat): (r: seq<int>)
    requires j < |active|
    ensures |r| == |active| - 1
  {
    active[j := active[|active| - 1]][..|active| - 1]
  }

  /** The sample without replacement from the active values `active` (0-based):
      each draw picks a position, reports its value plus one, and swap-removes it. */
  function WithoutReplacement(active: seq<int>, draws: seq<real>): (r: seq<int>)
    requires UnitDraws(draws) && |draws| <= |active|
    ensures |r| == |draws|
    decreases |draws|
  {
    if |draws| == 0 then []
    else
      var j := Pick(|active|, draws[0]);
      [active[j] + 1] + WithoutReplacement(SwapRemove(active, j), draws[1..])
  }

  lemma UnfoldWithoutReplacement(active: seq<int>, draws: seq<real>)
    requires UnitDraws(draws) && 0 < |draws| <= |active|
    ensures WithoutReplacement(active, draws)
         == [active[Pick(|active|, draws[0])] + 1]
          + WithoutReplacement(SwapRemove(active, Pick(|active|, draws[0])), draws[1..])
  {
  }

  /** The values still active after a swap-remove are exactly the old ones minus the chosen one. */
  lemma SwapRemoveKeepsOthers(active: seq<int>, j: nat)
    requires j < |active| && Distinct(active)
    ensures Distinct(SwapRemove(active, j))
    ensures forall v :: v in SwapRemove(active, j) <==> v in active && v != active[j]
  {
    var r := SwapRemove(active, j);
    var last := |active| - 1;
    forall v | v in active && v != active[j]
      ensures v in r
    {
      var k :| 0 <= k < |active| && active[k] == v;
      if k == last {
        assert r[j] == v;
      } else {
        assert r[k] == v;
      }
    }
  }

  /** Without replacement, the results are pairwise distinct and each is one
      more than a value that was active. */
  lemma {:induction false} WithoutReplacementDistinct(active: seq<int>, draws: seq<real>)
    requires UnitDraws(draws) && |draws| <= |active|
    requires Distinct(active)
    ensures Distinct(WithoutReplacement(active, draws))
    ensures forall k :: 0 <= k < |draws| ==> WithoutReplacement(active, draws)[k] - 1 in active
    decreases |draws|
  {
    if |draws| > 0 {
      var j := Pick(|active|, draws[0]);
      var next := SwapRemove(active, j);
      SwapRemoveKeepsOthers(active, j);
      WithoutReplacementDistinct(next, draws[1..]);
      var tail := WithoutReplacement(next, draws[1..]);
      assert WithoutReplacement(active, draws) == [active[j] + 1] + tail;
      forall k | 0 <= k < |tail|
        ensures tail[k] != active[j] + 1
      {
        assert tail[k] - 1 in next;
      }
    }
  }

  /** The sample without replacement from `0 .. x-1` holds distinct values of `[1, x]`. */
  lemma WithoutReplacementInRange(x: nat, draws: seq<real>)
    requires UnitDraws(draws) && |draws| <= x
    ensures Distinct(WithoutReplacement(Iota(0, x), draws))
    ensures AllIn(WithoutReplacement(Iota(0, x), draws), 1, x)
  {
    var active := Iota(0, x);
    WithoutReplacementDistinct(active, draws);
    var r := WithoutReplacement(active, draws);
    forall k | 0 <= k < |r|
      ensures 1 <= r[k] <= x
    {
      assert r[k] - 1 in active;
    }
  }

  /** `doSample` with `replace` true (or `size < 2`): one draw per result. */
  method SampleWithReplacement(x: nat, size: nat, draws: seq<real>) returns (result: seq<int>, rest: seq<real>)
    requires UnitDraws(draws) && size <= |draws|
    ensures result == WithReplacement(x, draws[..size])
    ensures x > 0 ==> AllIn(result, 1, x)
    ensures rest == draws[size..]
  {
    var res := new int[size];
    var i := 0;
    while i < size
      invariant 0 <= i <= size
      invariant forall k :: 0 <= k < i ==> res[k] == DrawOne(x, draws[k])
    {
      res[i] := (x as real * draws[i] + 1.0).Floor;
      i := i + 1;
    }
    result := res[..];
    rest := draws[size..];
  }

  /** The index array `ix` of `doSample`, holding `0 .. x-1`. */
  method IdentityIndex(x: nat) returns (ix: array<int>)
    ensures fresh(ix) && ix[..] == Iota(0, x)
  {
    ix := new int[x];
    var i := 0;
    while i < x
      invariant 0 <= i <= x
      invariant forall k :: 0 <= k < i ==> ix[k] == k
    {
      ix[i] := i;
      i := i + 1;
    }
  }

  /** One pass of the sampling loop: pick from the active prefix `ix[..n]`,
      then shrink it by a swap-remove. */
  method SwapRemoveStep(ix: array<int>, n: nat, u: real) returns (v: int)
    requires 0 < n <= ix.Length && 0.0 <= u < 1.0
    modifies ix
    ensures v == old(ix[Pick(n, u)]) + 1
    ensures ix[..n - 1] == SwapRemove(old(ix[..n]), Pick(n, u))
  {
    var j := Pick(n, u);
    v := ix[j] + 1;
    ix[j] := ix[n - 1];
  }

  /** The sampling loop of `doSample` without replacement, over the initial
      active values in `ix`. */
  method SwapRemoveLoop(ix: array<int>, size: nat, draws: seq<real>) returns (result: seq<int>)
    requires UnitDraws(draws) && size <= |draws| && size <= ix.Length
    modifies ix
    ensures result == WithoutReplacement(old(ix[..]), draws[..size])
  {
    ghost var active := ix[..];
    ghost var goal := WithoutReplacement(active, draws[..size]);
    result := [];
    var n := ix.Length;
    assert draws[0..size] == draws[..size];
    var i := 0;
    while i < size
      invariant 0 <= i <= size && n == ix.Length - i
      invariant active == ix[..n]
      invariant result + WithoutReplacement(active, draws[i..size]) == goal
    {
      ghost var ds := draws[i..size];
      assert ds[0] == draws[i] && ds[1..] == draws[i + 1..size];
      var v := SwapRemoveStep(ix, n, draws[i]);
      UnfoldWithoutReplacement(active, ds);
      active := SwapRemove(active, Pick(n, draws[i]));
      ghost var tail := WithoutReplacement(active, ds[1..]);
      assert (result + [v]) + tail == result + ([v] + tail);
      result := result + [v];
      n := n - 1;
      i := i + 1;
    }
    assert draws[size..size] == [];
  }

  /** `doSample` with `replace` false and `size >= 2`: swap-remove over `ix`. */
  method SampleWithoutReplacement(x: nat, size: nat, draws: seq<real>) returns (result: seq<int>, rest: seq<real>)
    requires UnitDraws(draws) && size <= |draws| && size <= x
    ensures result == WithoutReplacement(Iota(0, x), draws[..size])
    ensures |result| == size && Distinct(result) && AllIn(result, 1, x)
    ensures rest == draws[size..]
  {
    var ix := IdentityIndex(x);
    result := SwapRemoveLoop(ix, size, draws);
    WithoutReplacementInRange(x, draws[..size]);
    rest := draws[size..];
  }

  /** Five values, three draws 0.1, 0.9, 0.5 without replacement give 1, 4, 2. */
  lemma WithoutReplacementExample()
    ensures WithoutReplacement(Iota(0, 5), [0.1, 0.9, 0.5]) == [1, 4, 2]
  {
    var a0: seq<int> := [0, 1, 2, 3, 4];
    var a1: seq<int> := [4, 1, 2, 3];
    var a2: seq<int> := [4, 1, 2];
    assert Iota(0, 5) == a0;
    assert WithoutReplacement(a2, [0.5]) == [2] by {
      assert Pick(3, 0.5) == 1;
      UnfoldWithoutReplacement(a2, [0.5]);
    }
    assert WithoutReplacement(a1, [0.9, 0.5]) == [4, 2] by {
      assert Pick(4, 0.9) == 3;
      assert SwapRemove(a1, 3) == a2;
      assert [0.9, 0.5][1..] == [0.5];
      UnfoldWithoutReplacement(a1, [0.9, 0.5]);
    }
    assert WithoutReplacement(a0, [0.1, 0.9, 0.5]) == [1, 4, 2] by {
      assert Pick(5, 0.1) == 0;
      assert SwapRemove(a0, 0) == a1;
      assert [0.1, 0.9, 0.5][1..] == [0.9, 0.5];
      UnfoldWithoutReplacement(a0, [0.1, 0.9, 0.5]);
    }
  }
}

=== FILE: sample_weighted.dfy ===
/** Weighted sampling (`probSampleReplace`, `probSampleWithoutReplace`): the
    (weight, index) pairs are reordered by the heap routine, then each draw walks
    the running sums of the reordered weights. */
module WeightedSampler {
  import opened Seqs
  import opened Draws
  import opened SampleHeap
  import opened SampleProbability

  /** Running sums: entry `i` is the sum of the first `i + 1` weights. */
  function Cumulative(s: seq<real>): (cum: seq<real>)
    ensures |cum| == |s|
    ensures forall i :: 0 <= i < |s| ==> cum[i] == Sum(s[..i + 1])
  {
    seq(|s|, i requires 0 <= i < |s| => Sum(s[..i + 1]))
  }

  /** The scan of the running sums from position `j`: the first position that
      reaches `u`, where the last position is taken without comparison. */
  function ScanFrom(cum: seq<real>, u: real, j: nat): (r: nat)
    requires j < |cum|
    ensures j <= r < |cum|
    ensures r == |cum| - 1 || u <= cum[r]
    ensures forall k :: j <= k < r ==> cum[k] < u
    decreases |cum| - j
  {
    if j == |cum| - 1 || u <= cum[j] then j else ScanFrom(cum, u, j + 1)
  }

  /** The position a draw `u` selects among the running sums `cum`. */
  function FirstCovering(cum: seq<real>, u: real): (r: nat)
    requires |cum| > 0
    ensures r < |cum|
    ensures r == |cum| - 1 || u <= cum[r]
    ensures forall k :: 0 <= k < r ==> cum[k] < u
  {
    ScanFrom(cum, u, 0)
  }

  /** The two properties above single out one position. */
  lemma FirstCoveringUnique(cum: seq<real>, u: real, j: nat)
    requires j < |cum|
    requires j == |cum| - 1 || u <= cum[j]
    requires forall k :: 0 <= k < j ==> cum[k] < u
    ensures FirstCovering(cum, u) == j
  {
  }

  /** The reordered (weight, index) pairs both samplers start from. */
  function Reordered(probs: seq<real>): (t: seq<Entry>)
    ensures |t| == |probs|
    ensures Distinct(Values(t)) && AllIn(Values(t), 1, |probs|)
  {
    HeapSortKeepsIndexPermutation(probs);
    HeapSortPermutesPairs(Zip(probs, Iota(1, |probs|)));
    HeapSort(Zip(probs, Iota(1, |probs|)))
  }

  /** The sample with replacement: result `i` is the index at the position
      draw `i` selects among the running sums of the reordered weights. */
  function WithReplacement(probs: seq<real>, draws: seq<real>): (r: seq<int>)
    requires |probs| > 0
    ensures |r| == |draws|
    ensures AllIn(r, 1, |probs|)
  {
    var t := Reordered(probs);
    var cum := Cumulative(Keys(t));
    seq(|draws|, i requires 0 <= i < |draws| => Values(t)[FirstCovering(cum, draws[i])])
  }

  /** The inner scan of `probSampleWithoutReplace` for the draw `u`: the
      target is `rT = totalMass * u`, and the weights from position `j` on are
      added to the running `mass` one at a time until it reaches `rT`; the last
      position is taken without comparison. */
  function MassScan(keys: seq<real>, totalMass: real, u: real, mass: real, j: nat): (r: nat)
    requires j < |keys|
    ensures j <= r < |keys|
    decreases |keys| - j
  {
    if j == |keys| - 1 then j
    else if totalMass * u <= mass + keys[j] then j
    else MassScan(keys, totalMass, u, mass + keys[j], j + 1)
  }

  /** Accumulating the mass on the fly selects the same position as scanning
      the precomputed running sums for the target `totalMass * u`. */
  lemma {:induction false} MassScanIsFirstCovering(keys: seq<real>, totalMass: real, u: real, j: nat)
    requires j < |keys|
    ensures MassScan(keys, totalMass, u, Sum(keys[..j]), j) == ScanFrom(Cumulative(keys), totalMass * u, j)
    decreases |keys| - j
  {
    if j < |keys| - 1 {
      assert keys[..j + 1][..j] == keys[..j];
      assert Sum(keys[..j]) + keys[j] == Sum(keys[..j + 1]);
      MassScanIsFirstCovering(keys, totalMass, u, j + 1);
    }
  }

  /** The pair at position `j` leaves; later pairs move one place down. */
  function RemoveAt(t: seq<Entry>, j: nat): (r: seq<Entry>)
    requires j < |t|
    ensures |r| == |t| - 1
  {
    t[..j] + t[j + 1..]
  }

  /** The sample without replacement from the active pairs `t`, whose weights
      are taken to total `totalMass`: the draw is scaled by the mass, selects a
      position, reports its index and removes its pair and its weight. */
  function WithoutReplacementFrom(t: seq<Entry>, totalMass: real, draws: seq<real>): (r: seq<int>)
    requires |draws| <= |t|
    ensures |r| == |draws|
    decreases |draws|
  {
    if |draws| == 0 then []
    else
      var j := MassScan(Keys(t), totalMass, draws[0], 0.0, 0);
      [t[j].value] + WithoutReplacementFrom(RemoveAt(t, j), totalMass - t[j].key, draws[1..])
  }

  function WithoutReplacement(probs: seq<real>, draws: seq<real>): (r: seq<int>)
    requires |draws| <= |probs|
    ensures |r| == |draws|
  {
    WithoutReplacementFrom(Reordered(probs), 1.0, draws)
  }

  lemma UnfoldWithoutReplacementFrom(t: seq<Entry>, totalMass: real, draws: seq<real>, j: nat)
    requires 0 < |draws| <= |t|
    requires j == MassScan(Keys(t), totalMass, draws[0], 0.0, 0)
    ensures WithoutReplacementFrom(t, totalMass, draws)
      == [t[j].value] + WithoutReplacementFrom(RemoveAt(t, j), totalMass - t[j].key, draws[1..])
  {
  }

  /** On the value array alone, removing a pair deletes its value. */
  lemma ValuesRemoveAt(t: seq<Entry>, j: nat)
    requires j < |t|
    ensures Values(RemoveAt(t, j)) == Values(t)[..j] + Values(t)[j + 1..]
  {
  }

  /** Without replacement, the reported indices are pairwise distinct and each
      is the index of one of the active pairs. */
  lemma {:induction false} WithoutReplacementFromDistinct(t: seq<Entry>, totalMass: real, draws: seq<real>)
    requires |draws| <= |t| && Distinct(Values(t))
    ensures Distinct(WithoutReplacementFrom(t, totalMass, draws))
    ensures AllFrom(WithoutReplacementFrom(t, totalMass, draws), Values(t))
    decreases |draws|
  {
    if |draws| > 0 {
      var j := MassScan(Keys(t), totalMass, draws[0], 0.0, 0);
      var vs := Values(t);
      var next := RemoveAt(t, j);
      ValuesRemoveAt(t, j);
      DeleteKeepsOthers(vs, j);
      WithoutReplacementFromDistinct(next, totalMass - t[j].key, draws[1..]);
      var tail := WithoutReplacementFrom(next, totalMass - t[j].key, draws[1..]);
      UnfoldWithoutReplacementFrom(t, totalMass, draws, j);
      ConsAfterDelete(vs, j, tail, Values(next));
    }
  }

  /** The weighted sample without replacement holds distinct indices of `[1, n]`. */
  lemma WithoutReplacementInRange(probs: seq<real>, draws: seq<real>)
    requires |draws| <= |probs|
    ensures Distinct(WithoutReplacement(probs, draws))
    ensures AllIn(WithoutReplacement(probs, draws), 1, |probs|)
  {
    var t := Reordered(probs);
    WithoutReplacementFromDistinct(t, 1.0, draws);
    var r := WithoutReplacement(probs, draws);
    forall k | 0 <= k < |r|
      ensures 1 <= r[k] <= |probs|
    {
      assert r[k] in Values(t);
    }
  }

  /** On the key array alone, removing a pair deletes its key. */
  lemma KeysRemoveAt(t: seq<Entry>, j: nat)
    requires j < |t|
    ensures Keys(RemoveAt(t, j)) == Keys(t)[..j] + Keys(t)[j + 1..]
  {
  }

  /** The in-place running sums of `probSampleReplace`. */
  method PrefixSums(a: array<real>)
    modifies a
    ensures a[..] == Cumulative(old(a[..]))
  {
    if a.Length == 0 {
      return;
    }
    ghost var s := a[..];
    assert Sum(s[..1]) == s[0] by {
      assert s[..1][..0] == [];
    }
    var i := 1;
    while i < a.Length
      invariant 1 <= i <= a.Length
      invariant forall k :: 0 <= k < i ==> a[k] == Sum(s[..k + 1])
      invariant forall k :: i <= k < a.Length ==> a[k] == s[k]
    {
      assert s[..i + 1][..i] == s[..i];
      a[i] := a[i] + a[i - 1];
      i := i + 1;
    }
  }

  /** The search of `probSampleReplace`: the first running sum that reaches `u`,
      or the last position. */
  method CoveringScan(cum: array<real>, u: real) returns (j: nat)
    requires cum.Length > 0
    ensures j == FirstCovering(cum[..], u)
  {
    j := 0;
    while j < cum.Length - 1
      invariant j <= cum.Length - 1
      invariant ScanFrom(cum[..], u, j) == FirstCovering(cum[..], u)
    {
      if u <= cum[j] {
        break;
      }
      j := j + 1;
    }
  }

  /** The index vector `1..n` next to a copy of the weights, reordered in place
      by the heap routine: the arrays then hold the pairs of `Reordered`. */
  method ReorderArrays(probs: seq<real>) returns (keys: array<real>, perm: array<int>)
    ensures fresh(keys) && fresh(perm)
    ensures keys.Length == perm.Length == |probs|
    ensures keys[..] == Keys(Reordered(probs)) && perm[..] == Values(Reordered(probs))
  {
    keys := new real[|probs|](i requires 0 <= i < |probs| => probs[i]);
    perm := new int[|probs|](i requires 0 <= i < |probs| => i + 1);
    assert keys[..] == probs && perm[..] == Iota(1, |probs|);
    HeapSortArrays(perm, keys);
    ZipSplits(keys[..], perm[..]);
  }

  /** `probSampleReplace(n, p, size)`. */
  method ProbSampleReplace(probs: seq<real>, size: nat, draws: seq<real>) returns (result: seq<int>, rest: seq<real>)
    requires |probs| > 0 && size <= |draws|
    ensures result == WithReplacement(probs, draws[..size])
    ensures |result| == size && AllIn(result, 1, |probs|)
    ensures rest == draws[size..]
  {
    ghost var t := Reordered(probs);
    var cum, perm := ReorderArrays(probs);
    PrefixSums(cum);
    result := [];
    var i := 0;
    while i < size
      invariant i <= size
      invariant cum[..] == Cumulative(Keys(t)) && perm[..] == Values(t)
      invariant result == WithReplacement(probs, draws[..size])[..i]
    {
      var j := CoveringScan(cum, draws[i]);
      result := result + [perm[j]];
      i := i + 1;
    }
    rest := draws[size..];
  }

  /** The mass-accumulating search of `probSampleWithoutReplace` over the
      first `n1 + 1` weights. */
  method MassScanArray(keys: array<real>, n1: nat, totalMass: real, u: real) returns (j: nat)
    requires n1 < keys.Length
    ensures j == MassScan(keys[..n1 + 1], totalMass, u, 0.0, 0)
  {
    ghost var ks := keys[..n1 + 1];
    var rT := totalMass * u;
    var mass := 0.0;
    j := 0;
    while j < n1
      invariant j <= n1
      invariant MassScan(ks, totalMass, u, mass, j) == MassScan(ks, totalMass, u, 0.0, 0)
    {
      mass := mass + keys[j];
      if rT <= mass {
        break;
      }
      j := j + 1;
    }
  }

  /** The shifting loop: positions `j + 1 .. n1` of the prefixes `ks` and `ps`
      move one place down. */
  method ShiftDown(keys: array<real>, perm: array<int>, j: nat, n1: nat,
                   ghost ks: seq<real>, ghost ps: seq<int>)
    requires keys != perm as object
    requires j <= n1 < keys.Length && n1 < perm.Length
    requires keys[..n1 + 1] == ks && perm[..n1 + 1] == ps
    modifies keys, perm
    ensures keys[..n1] == ks[..j] + ks[j + 1..]
    ensures perm[..n1] == ps[..j] + ps[j + 1..]
  {
    var k := j;
    while k < n1
      invariant j <= k <= n1
      invariant forall m :: 0 <= m < j ==> keys[m] == ks[m] && perm[m] == ps[m]
      invariant forall m :: j <= m < k ==> keys[m] == ks[m + 1] && perm[m] == ps[m + 1]
      invariant forall m :: k <= m <= n1 ==> keys[m] == ks[m] && perm[m] == ps[m]
    {
      keys[k] := keys[k + 1];
      perm[k] := perm[k + 1];
      k := k + 1;
    }
  }

  /** The key and the value at a position of the separate arrays. */
  lemma KeysValuesAt(t: seq<Entry>, j: nat)
    requires j < |t|
    ensures Keys(t)[j] == t[j].key && Values(t)[j] == t[j].value
  {
  }

  /** One round of `probSampleWithoutReplace` on the active prefix of length
      `n1 + 1`, which holds the pairs `active`: scan, report, subtract the
      weight, shift. The report is the first index of the sample from the
      remaining draws `ds`, and the rest of that sample comes from what is left. */
  method WithoutReplaceStep(keys: array<real>, perm: array<int>, n1: nat, totalMass: real,
                            ds: seq<real>, ghost active: seq<Entry>)
    returns (v: int, mass: real, ghost next: seq<Entry>)
    requires keys != perm as object
    requires n1 < keys.Length && n1 < perm.Length && |active| == n1 + 1 && 0 < |ds| <= |active|
    requires Keys(active) == keys[..n1 + 1] && Values(active) == perm[..n1 + 1]
    modifies keys, perm
    ensures |next| == n1 && Keys(next) == keys[..n1] && Values(next) == perm[..n1]
    ensures WithoutReplacementFrom(active, totalMass, ds) == [v] + WithoutReplacementFrom(next, mass, ds[1..])
  {
    ghost var ks, ps := Keys(active), Values(active);
    var j := MassScanArray(keys, n1, totalMass, ds[0]);
    StepRemoves(active, totalMass, ds, j);
    v := perm[j];
    mass := totalMass - keys[j];
    ShiftDown(keys, perm, j, n1, ks, ps);
    next := RemoveAt(active, j);
  }

  /** One round on the pairs alone: the chosen pair is reported and removed
      from both the keys and the values. */
  lemma StepRemoves(t: seq<Entry>, totalMass: real, ds: seq<real>, j: nat)
    requires 0 < |ds| <= |t|
    requires j == MassScan(Keys(t), totalMass, ds[0], 0.0, 0)
    ensures j < |t| && Keys(t)[j] == t[j].key && Values(t)[j] == t[j].value
    ensures WithoutReplacementFrom(t, totalMass, ds)
         == [Values(t)[j]] + WithoutReplacementFrom(RemoveAt(t, j), totalMass - Keys(t)[j], ds[1..])
    ensures Keys(RemoveAt(t, j)) == Keys(t)[..j] + Keys(t)[j + 1..]
    ensures Values(RemoveAt(t, j)) == Values(t)[..j] + Values(t)[j + 1..]
  {
    KeysValuesAt(t, j);
    KeysRemoveAt(t, j);
    ValuesRemoveAt(t, j);
    UnfoldWithoutReplacementFrom(t, totalMass, ds, j);
  }

  /** The sampling loop of `probSampleWithoutReplace` over the reordered pairs
      held in `keys` and `perm`. */
  method WithoutReplaceLoop(keys: array<real>, perm: array<int>, size: nat, draws: seq<real>, ghost t: seq<Entry>)
    returns (result: seq<int>)
    requires keys != perm as object
    requires keys.Length == perm.Length == |t| && size <= |t| && size <= |draws|
    requires Keys(t) == keys[..] && Values(t) == perm[..]
    modifies keys, perm
    ensures result == WithoutReplacementFrom(t, 1.0, draws[..size])
  {
    var n := keys.Length;
    ghost var active := t;
    ghost var goal := WithoutReplacementFrom(t, 1.0, draws[..size]);
    assert draws[0..size] == draws[..size];
    assert keys[..n] == keys[..] && perm[..n] == perm[..];
    var totalMass := 1.0;
    result := [];
    var i := 0;
    while i < size
      invariant i <= size && |active| == n
      invariant n + i == keys.Length
      invariant Keys(active) == keys[..n] && Values(active) == perm[..n]
      invariant result + WithoutReplacementFrom(active, totalMass, draws[i..size]) == goal
    {
      var ds := draws[i..size];
      var v, mass, next := WithoutReplaceStep(keys, perm, n - 1, totalMass, ds, active);
      assert ds[1..] == draws[i + 1..size];
      ghost var tail := WithoutReplacementFrom(next, mass, ds[1..]);
      assert (result + [v]) + tail == result + ([v] + tail);
      result := result + [v];
      totalMass := mass;
      active := next;
      n := n - 1;
      i := i + 1;
    }
    assert draws[size..size] == [];
  }

  /** `probSampleWithoutReplace(n, p, size)`. */
  method ProbSampleWithoutReplace(probs: seq<real>, size: nat, draws: seq<real>) returns (result: seq<int>, rest: seq<real>)
    requires size <= |probs| && size <= |draws|
    ensures result == WithoutReplacement(probs, draws[..size])
    ensures |result| == size && Distinct(result) && AllIn(result, 1, |probs|)
    ensures rest == draws[size..]
  {
    ghost var t := Reordered(probs);
    var keys, perm := ReorderArrays(probs);
    result := WithoutReplaceLoop(keys, perm, size, draws, t);
    WithoutReplacementInRange(probs, draws[..size]);
    rest := draws[size..];
  }

  /** The weights `[0.2, 0.3, 0.5]` leave the heap routine in descending order. */
  lemma ReorderedExample()
    ensures Reordered([0.2, 0.3, 0.5]) == [Entry(0.5, 3), Entry(0.3, 2), Entry(0.2, 1)]
  {
    var t0 := [Entry(0.2, 1), Entry(0.3, 2), Entry(0.5, 3)];
    var s1 := [Entry(0.3, 2), Entry(0.5, 3), Entry(0.2, 1)];
    var s2 := [Entry(0.5, 3), Entry(0.3, 2), Entry(0.2, 1)];
    assert Zip([0.2, 0.3, 0.5], Iota(1, 3)) == t0;
    assert BuildHeap(t0) == t0 by {
      assert MinHeapify(t0, 1, 3) == t0;
      assert MinHeapify(t0, 0, 3) == t0;
    }
    assert MinHeapify(Exchange(t0, 0, 2), 0, 2) == s1 by {
      assert Exchange(t0, 0, 2) == s2;
      assert Exchange(s2, 0, 1) == s1;
      assert MinHeapify(s1, 1, 2) == s1;
    }
    assert MinHeapify(Exchange(s1, 0, 1), 0, 1) == s2 by {
      assert Exchange(s1, 0, 1) == s2;
    }
    assert SortFrom(t0, 2) == SortFrom(s1, 1) == SortFrom(s2, 0);
  }

  /** With weights `[0.2, 0.3, 0.5]` and the draw 0.5, the running sums of the
      reordered weights are `[0.5, 0.8, 1.0]`, so the first position covers the
      draw and index 3 is reported. */
  lemma WithReplacementExample()
    ensures WithReplacement([0.2, 0.3, 0.5], [0.5]) == [3]
  {
    ReorderedExample();
    var t := [Entry(0.5, 3), Entry(0.3, 2), Entry(0.2, 1)];
    assert Keys(t) == [0.5, 0.3, 0.2];
    assert Values(t) == [3, 2, 1];
    var cum := Cumulative(Keys(t));
    assert cum[0] == 0.5 by {
      assert Keys(t)[..1] == [0.5];
      assert [0.5][..0] == [];
      assert Sum([0.5]) == 0.5;
    }
    FirstCoveringUnique(cum, 0.5, 0);
  }
}

=== FILE: seqs.dfy ===
/** Facts about sequences used by the samplers: distinctness, ranges, runs of
    consecutive integers and the permutation argument built on multisets. */
module Seqs {

  /** No value occurs twice. */
  predicate Distinct<T(==)>(s: seq<T>) {
    forall a, b :: 0 <= a < b < |s| ==> s[a] != s[b]
  }

  /** Every element lies in the closed interval `[lo, hi]`. */
  predicate AllIn(s: seq<int>, lo: int, hi: int) {
    forall i :: 0 <= i < |s| ==> lo <= s[i] <= hi
  }

  /** The run `lo, lo+1, ..., lo+n-1`. */
  function Iota(lo: int, n: nat): (r: seq<int>)
    ensures |r| == n
  {
    seq(n, i => lo + i)
  }

  /** Exchange of positions `i` and `j`. */
  function Swap<T>(s: seq<T>, i: nat, j: nat): (r: seq<T>)
    requires i < |s| && j < |s|
    ensures |r| == |s| && r[i] == s[j] && r[j] == s[i]
    ensures forall k :: 0 <= k < |s| && k != i && k != j ==> r[k] == s[k]
  {
    s[i := s[j]][j := s[i]]
  }

  /** A swap permutes the elements. */
  lemma SwapMultiset<T>(s: seq<T>, i: nat, j: nat)
    requires i < |s| && j < |s|
    ensures multiset(Swap(s, i, j)) == multiset(s)
  {
    var t := s[i := s[j]];
    assert multiset(t) == multiset(s) - multiset{s[i]} + multiset{s[j]};
    assert multiset(t[j := s[i]]) == multiset(t) - multiset{t[j]} + multiset{s[i]};
  }

  /** A value at two different positions is counted at least twice. */
  lemma {:induction false} RepeatCountsTwice<T>(s: seq<T>, a: nat, b: nat)
    requires a < b < |s| && s[a] == s[b]
    ensures multiset(s)[s[a]] >= 2
  {
    assert s == s[..b] + [s[b]] + s[b+1..];
    assert s[a] in multiset(s[..b]);
  }

  /** Each value of `Iota(lo, n)` occurs once, and nothing else occurs. */
  lemma {:induction false} IotaCounts(lo: int, n: nat, x: int)
    ensures multiset(Iota(lo, n))[x] == (if lo <= x < lo + n then 1 else 0)
  {
    if n > 0 {
      var prefix := Iota(lo, n - 1);
      IotaCounts(lo, n - 1, x);
      SnocCount(prefix, lo + n - 1, x);
      assert Iota(lo, n) == prefix + [lo + n - 1];
    }
  }

  /** Appending `v` adds one occurrence of `v` and nothing else. */
  lemma SnocCount<T>(s: seq<T>, v: T, x: T)
    ensures multiset(s + [v])[x] == multiset(s)[x] + (if x == v then 1 else 0)
  {
    assert multiset(s + [v]) == multiset(s) + multiset{v};
  }

  /** A sequence with the same elements as `lo .. lo+n-1` is a permutation of them:
      right length, every value in range, no value repeated. */
  lemma PermutationOfIota(s: seq<int>, lo: int, n: nat)
    requires multiset(s) == multiset(Iota(lo, n))
    ensures |s| == n
    ensures AllIn(s, lo, lo + n - 1)
    ensures Distinct(s)
  {
    assert |s| == |multiset(s)| == |Iota(lo, n)|;
    forall i | 0 <= i < |s|
      ensures lo <= s[i] <= lo + n - 1
    {
      assert s[i] in multiset(s);
      IotaCounts(lo, n, s[i]);
    }
    forall a, b | 0 <= a < b < |s|
      ensures s[a] != s[b]
    {
      if s[a] == s[b] {
        RepeatCountsTwice(s, a, b);
        IotaCounts(lo, n, s[a]);
      }
    }
  }

  /** Every element of `s` occurs in `pool`. */
  predicate AllFrom<T(==)>(s: seq<T>, pool: seq<T>) {
    forall k :: 0 <= k < |s| ==> s[k] in pool
  }

  /** A value outside the set a distinct sequence draws from can be put in front of it. */
  lemma ConsDistinct(v: int, tail: seq<int>, pool: seq<int>)
    requires Distinct(tail) && v !in pool
    requires AllFrom(tail, pool)
    ensures Distinct([v] + tail)
  {
  }

  /** Deleting position `j` of a distinct sequence keeps it distinct and drops
      exactly the value at `j`. */
  lemma DeleteKeepsOthers(s: seq<int>, j: nat)
    requires j < |s| && Distinct(s)
    ensures Distinct(s[..j] + s[j + 1..])
    ensures s[j] !in s[..j] + s[j + 1..]
    ensures AllFrom(s[..j] + s[j + 1..], s)
  {
    var r := s[..j] + s[j + 1..];
    forall a, b | 0 <= a < b < |r|
      ensures r[a] != r[b]
    {
      var a' := if a < j then a else a + 1;
      var b' := if b < j then b else b + 1;
      assert r[a] == s[a'] && r[b] == s[b'];
    }
    forall k | 0 <= k < |r|
      ensures r[k] != s[j] && r[k] in s
    {
      var k' := if k < j then k else k + 1;
      assert r[k] == s[k'];
    }
  }

  /** The value at `j` put in front of a distinct sequence drawn from the other
      values `rest` gives a distinct sequence drawn from all of `s`. */
  lemma ConsAfterDelete(s: seq<int>, j: nat, tail: seq<int>, rest: seq<int>)
    requires j < |s| && Distinct(s) && rest == s[..j] + s[j + 1..]
    requires Distinct(tail) && AllFrom(tail, rest)
    ensures Distinct([s[j]] + tail)
    ensures AllFrom([s[j]] + tail, s)
  {
    DeleteKeepsOthers(s, j);
    ConsDistinct(s[j], tail, rest);
    forall k | 0 <= k < |tail|
      ensures tail[k] in s
    {
      assert tail[k] in rest;
    }
  }
}

=== FILE: string_vector_printer.dfy ===
/** Field widths and justification of character vectors for printing
    (`StringVectorPrinter.formatString` and the two `encode` overloads). */
module StringVectorPrinter {
  import opened JavaInts

  /** `PrintJustification`. */
  datatype Justification = Left | Center | Right | NoJustify

  /** An element of a character vector: `NA_character_`, or a string. */
  datatype RString = NA | Str(chars: string)

  /** The printing parameters `encode` and `formatString` consult. */
  datatype PrintParameters = PrintParameters(
    quote: bool,
    right: bool,
    naString: string,
    naStringNoquote: string,
    naWidth: int,
    naWidthNoquote: int)

  /** `RRuntime.escapeString(s, false, quote)`, which is not part of this model:
      any function of the string and the quote flag. */
  type Escaper = (string, bool) -> string

  function Max(a: int, b: int): int {
    if a >= b then a else b
  }

  predicate AllSpaces(s: string) {
    forall i :: 0 <= i < |s| ==> s[i] == ' '
  }

  /** `n` blanks; none when `n` is not positive. */
  function Blanks(n: int): (r: string)
    ensures |r| == Max(n, 0) && AllSpaces(r)
  {
    seq(Max(n, 0), _ => ' ')
  }

  /** A character outside the Basic Multilingual Plane, which Java stores as a
      surrogate pair. */
  predicate Supplementary(c: char) {
    c as int >= 0x1_0000
  }

  /** `String.length()`: the number of UTF-16 code units, two for a
      supplementary character and one for any other. */
  function JavaLength(s: string): (n: nat)
    ensures |s| <= n <= 2 * |s|
  {
    if |s| == 0 then 0 else JavaLength(s[..|s| - 1]) + (if Supplementary(s[|s| - 1]) then 2 else 1)
  }

  /** The Java length is the character count exactly when no character is
      supplementary. */
  lemma {:induction false} JavaLengthIsCountIffBasic(s: string)
    ensures JavaLength(s) == |s| <==> forall i :: 0 <= i < |s| ==> !Supplementary(s[i])
  {
    if |s| > 0 {
      var init := s[..|s| - 1];
      JavaLengthIsCountIffBasic(init);
      assert forall i :: 0 <= i < |init| ==> init[i] == s[i];
    }
  }

  /** Code units add up over concatenation. */
  lemma {:induction false} JavaLengthConcat(a: string, b: string)
    ensures JavaLength(a + b) == JavaLength(a) + JavaLength(b)
    decreases |b|
  {
    if |b| == 0 {
      assert a + b == a;
    } else {
      var b' := b[..|b| - 1];
      assert (a + b)[..|a + b| - 1] == a + b';
      assert (a + b)[|a + b| - 1] == b[|b| - 1];
      JavaLengthConcat(a, b');
    }
  }

  /** A blank is one code unit. */
  lemma {:induction false} JavaLengthOfSpaces(s: string)
    requires AllSpaces(s)
    ensures JavaLength(s) == |s|
  {
    if |s| > 0 {
      JavaLengthOfSpaces(s[..|s| - 1]);
    }
  }

  /** `r` is `s` with `bl` blanks before it and only blanks after it. */
  predicate PaddedAt(r: string, s: string, bl: int) {
    0 <= bl && bl + |s| <= |r| && r[bl..bl + |s|] == s && AllSpaces(r[..bl]) && AllSpaces(r[bl + |s|..])
  }

  /** `s` with `l` blanks before it and `r` after it. */
  function Pad(l: nat, s: string, r: nat): (t: string)
    ensures |t| == l + |s| + r && PaddedAt(t, s, l)
    ensures JavaLength(t) == l + JavaLength(s) + r
  {
    PadLength(Blanks(l), s, Blanks(r));
    var t := Blanks(l) + s + Blanks(r);
    assert t[..l] == Blanks(l) && t[l..l + |s|] == s && t[l + |s|..] == Blanks(r);
    t
  }

  lemma PadLength(bl: string, s: string, br: string)
    requires AllSpaces(bl) && AllSpaces(br)
    ensures JavaLength(bl + s + br) == |bl| + JavaLength(s) + |br|
  {
    JavaLengthOfSpaces(bl);
    JavaLengthOfSpaces(br);
    JavaLengthConcat(bl, s);
    JavaLengthConcat(bl + s, br);
  }

  /** A smiling face, U+1F600, is one character to Dafny and two code units to
      Java, so right-justifying it to width 3 puts one blank before it. */
  lemma SupplementaryCountsTwice()
    ensures JavaLength("\U{1F600}") == 2
    ensures Encode("\U{1F600}", 3, Right) == " \U{1F600}"
  {
    assert Blanks(1) == " ";
    assert Blanks(0) == "";
  }

  /** `encode(s, w, justify)`: `s` padded with blanks to width `w`, where widths
      are Java lengths. The `b = w - length` blanks are split by the
      justification, left blanks `b / 2` when centring; a non-positive count
      adds none. */
  function Encode(s: string, w: int, justify: Justification): (r: string)
    ensures justify == NoJustify || w <= JavaLength(s) ==> r == s
    ensures justify != NoJustify ==> JavaLength(r) == Max(w, JavaLength(s))
    ensures justify != NoJustify ==> |r| == |s| + Max(w - JavaLength(s), 0)
    ensures justify == Left ==> PaddedAt(r, s, 0)
    ensures justify == Right ==> PaddedAt(r, s, |r| - |s|)
    ensures justify == Center && w > JavaLength(s) ==>
              var bl := (w - JavaLength(s)) / 2;
              PaddedAt(r, s, bl) && (|r| - |s| == 2 * bl || |r| - |s| == 2 * bl + 1)
  {
    var b := w - JavaLength(s);
    if b <= 0 then
      assert s[0..|s|] == s && s[..0] == [] && s[|s|..] == [];
      s
    else
      match justify
      case Left => Pad(0, s, b)
      case Center =>
        var bl := JavaDiv(b, 2);
        assert bl == b / 2;
        Pad(bl, s, b - bl)
      case Right => Pad(b, s, 0)
      case NoJustify => s
  }

  /** The string printed for an element: the NA string that goes with the
      quote flag, or the escaped value. */
  function Shown(value: RString, pp: PrintParameters, escape: Escaper): string {
    match value
    case NA => if pp.quote then pp.naString else pp.naStringNoquote
    case Str(chars) => escape(chars, pp.quote)
  }

  /** `encode(value, w, pp)`: right-justified exactly when `pp.right`, else
      left-justified; never truncated. */
  function EncodeElement(value: RString, w: int, pp: PrintParameters, escape: Escaper): (r: string)
    ensures var s := Shown(value, pp, escape);
            JavaLength(r) == Max(w, JavaLength(s)) && |r| == |s| + Max(w - JavaLength(s), 0) &&
            PaddedAt(r, s, if pp.right then |r| - |s| else 0)
  {
    Encode(Shown(value, pp, escape), w, if pp.right then Right else Left)
  }

  /** The width one element takes: the NA width that goes with the quote flag,
      or the Java length of the escaped string. */
  function Width(value: RString, quote: bool, pp: PrintParameters, escape: Escaper): int {
    match value
    case NA => if quote then pp.naWidth else pp.naWidthNoquote
    case Str(chars) => JavaLength(escape(chars, quote))
  }

  /** The widest of the elements, but at least 0. */
  function MaxWidth(elems: seq<RString>, quote: bool, pp: PrintParameters, escape: Escaper): (w: int)
    ensures w >= 0
  {
    if |elems| == 0 then 0
    else Max(MaxWidth(elems[..|elems| - 1], quote, pp, escape), Width(elems[|elems| - 1], quote, pp, escape))
  }

  /** The field width bounds every element's width and is 0 or attained. */
  lemma {:induction false} MaxWidthIsLeastBound(elems: seq<RString>, quote: bool, pp: PrintParameters, escape: Escaper)
    ensures forall i :: 0 <= i < |elems| ==> Width(elems[i], quote, pp, escape) <= MaxWidth(elems, quote, pp, escape)
    ensures MaxWidth(elems, quote, pp, escape) == 0 ||
            exists i :: 0 <= i < |elems| && Width(elems[i], quote, pp, escape) == MaxWidth(elems, quote, pp, escape)
  {
    if |elems| > 0 {
      var init := elems[..|elems| - 1];
      MaxWidthIsLeastBound(init, quote, pp, escape);
      assert forall i :: 0 <= i < |init| ==> init[i] == elems[i];
    }
  }

  /** `formatString(iter, access, offs, n, quote, pp)` over the vector `elems`. */
  method FormatString(elems: seq<RString>, offs: nat, n: nat, quote: bool, pp: PrintParameters, escape: Escaper)
    returns (fieldwidth: int)
    requires offs + n <= |elems|
    ensures fieldwidth == MaxWidth(elems[offs..offs + n], quote, pp, escape)
  {
    var window := elems[offs..offs + n];
    var xmax := 0;
    var i := 0;
    while i < n
      invariant i <= n
      invariant xmax == MaxWidth(window[..i], quote, pp, escape)
    {
      var l := Width(elems[offs + i], quote, pp, escape);
      assert window[..i + 1][..i] == window[..i];
      if l > xmax {
        xmax := l;
      }
      i := i + 1;
    }
    assert window[..n] == window;
    fieldwidth := xmax;
  }

  /** Padding every element to the width `formatString` computes never cuts
      one short: each encoded element is exactly that wide. */
  lemma EncodedElementsShareTheWidth(elems: seq<RString>, pp: PrintParameters, escape: Escaper, i: nat)
    requires i < |elems| && elems[i].Str?
    ensures JavaLength(EncodeElement(elems[i], MaxWidth(elems, pp.quote, pp, escape), pp, escape))
         == MaxWidth(elems, pp.quote, pp, escape)
  {
    MaxWidthIsLeastBound(elems, pp.quote, pp, escape);
    assert Width(elems[i], pp.quote, pp, escape) == JavaLength(Shown(elems[i], pp, escape));
  }
}
